=== FILE: README.md ===
# Paper assistant backend: a Dafny model of its deterministic core

The backend ingests PDF research papers and answers questions about them
with page citations. It also scores a paper's quality and compares two to
five papers. This project models the parts of that backend that do not
depend on a language model, a vector store or the file system, and proves
properties of them:

- **Chunker** (`chunker.dfy`) covers `smart_chunk_text` and the page loop of
  `extract_text_from_pdf`. Each page's text is normalised and cut into
  sentences after `.`, `!` or `?`. The sentences are packed into chunks of
  about 500 words. A sentence is flushed to a new chunk when it would take
  the open chunk past 500 words, and the flushed chunk's last one or two
  sentences are carried into the new one. A chunk therefore passes 500
  words only through a single sentence, or through its carried-over
  sentences plus one new sentence, which the code adds without a check.
  A final chunk of 50 characters or fewer is dropped.
- **Citations** (`citations.dfy`) covers the tail of
  `generate_summary_with_citations`. It parses `[Page N]` markers, lists
  the distinct cited pages in order, counts sentences and words, and
  computes the confidence score. A failed generation call becomes a 500.
- **Quality** (`quality.dfy`) covers the tail of `analyze_paper_quality`.
  It reads the four `Label: N` sub-scores, with 70 as the default. The
  overall score is their plain average. It also reads the lazy, dot-all
  `Overall Assessment:` paragraph, and returns the all-75 fallback when the
  generation call raises.
- **Sampling** (`sampling.dfy`) covers the index arithmetic by which
  `summarize_paper` (ten chunks) and `compare_papers` (eight chunks) pick
  the chunks to summarise.
- **Registry** and **Endpoints** (`registry.dfy`, `endpoints.dfy`) cover
  the insertion-ordered `active_collections` dictionary and the handlers.
  The handlers are upload, upload-multiple, compare, summarize, query, list
  and delete, each with its checks, status codes and messages in the
  code's order.
- **Evaluator** (`evaluator.dfy`) covers the offline `Evaluator`. It
  computes citation metrics, summary word, sentence and keyword metrics,
  retrieval precision, recall and F1, test cases and the report tally.
- `text.dfy` models the Python string operations that the above rely on:
  `str.split()`, `str.strip()`, `re.sub(r'\s+', ' ', ...)`,
  `split('.')`, `int(...)` on ASCII digit strings (without the
  interpreter's limit on the length of a decimal conversion) and `str(n)`. `wrappers.dfy` holds
  `Option`/`Result`, a generation reply (`Answer(text)` or `CallFailed`)
  and an HTTP error.

Everything the model cannot see becomes an input:

- a PDF is its pages' texts plus its title and author;
- a generation call is the reply it returned, or `CallFailed`;
- a vector-store query is the list of chunks it returned;
- a generated id is a string.

Some behaviour of the code is easy to mistake, and the model follows the
code in each case:

- chunks are built from whole sentences, not sliding word windows, and
  never span pages;
- confidence comes from citation density, page coverage and length, not
  from overlap with the grounding pages;
- the overall quality score is the unweighted mean of the four sub-scores;
- the similarity matrix comes from the papers' quality scores, not from
  embeddings;
- deleting an unknown collection is a 404, not a silent success;
- `CHUNK_OVERLAP` is declared but never used.

## Model

| member | source | states |
|---|---|---|
| Chunker.SmartChunkText | backend/main.py:102-150 | The chunks are exactly `Chunker.PageChunks` of the text and page. A text that strips to fewer than 50 characters gives no chunks. Every chunk is the blank-joined text of a non-empty sentence list, tagged with the page. Each list after the first starts with the previous one's overlap and adds a sentence of its own. A list exceeds 500 words only when it adds a single sentence. Every list but the last was flushed because the next sentence would have overflowed it. The lists cover every kept sentence, except possibly a dropped last list of at most 50 characters that would itself have continued the chain within budget. When the lists cover every sentence, the last chunk is longer than 50 characters |
| Chunker.PackSentences | backend/main.py:110-139 | After the loop, the open chunk is empty exactly when no sentence survived stripping. Every emitted chunk is non-empty. The chunks form an overlap chain within the word budget. Removing each chunk's carried-over sentences gives back exactly the stripped non-empty sentences, in order |
| Chunker.PackAllWell | backend/main.py:114-139 | The chunk-chain guarantees hold after any number of iterations of the packing loop |
| Chunker.Overlap | backend/main.py:130-133 | The carried-over sentences are a suffix of the flushed chunk: its last two sentences when it has three or more, otherwise the whole chunk |
| Chunker.FinishChunks | backend/main.py:141-148 | The open sentence list is appended as the last chunk exactly when it is non-empty and its text is longer than 50 characters, and otherwise dropped. The kept lists stay a non-empty, flushed chain within budget. They cover the sentences except for a short dropped last list that continues the chain, and a last chunk that covers the end is longer than 50 characters |
| Chunker.KeptChunks | backend/main.py:141-148 | Dropping or keeping the final chunk preserves the chain properties, and the coverage statement holds either way, the dropped list included in the chain |
| Chunker.FinalChunkLong | backend/main.py:141-148 | A final chunk of 50 characters or fewer is never kept: if the kept chunks cover every sentence, the last one is longer than 50 characters |
| Chunker.DroppedTailUncovered | backend/main.py:141-148 | Dropping a non-empty open sentence list after emitted chunks leaves at least one sentence uncovered |
| Chunker.PageChunks | backend/main.py:102-150 | The page's chunks, as a function of its text: none for a text that strips to fewer than 50 characters, and every chunk tagged with the page |
| Chunker.SentencesOfNormalized | backend/main.py:107-108 | Splitting normalised text after terminators yields trimmed sentences. Every sentence but the last ends in `.`, `!` or `?`, and joining them with blanks gives back the text |
| Chunker.KeptTrimmed | backend/main.py:114-117 | Stripping and skipping empty sentences changes nothing when every sentence is already trimmed |
| Chunker.ChunksRebuildPage | backend/main.py:107-139 | When no tail was dropped, the chunks with overlaps removed rejoin into exactly the page's normalised text, so they hold exactly the page's words in order |
| Chunker.ChunkPage | backend/main.py:170 | The per-page call returns exactly `smart_chunk_text`'s chunks for that page's text and number |
| Chunker.AppendPage | backend/main.py:165-171 | Appending a page's chunks after the earlier pages' chunks keeps page order, and keeps every chunk tied to a 1-based page with enough text |
| Chunker.ChunkPages | backend/main.py:165-171 | The page loop collects exactly the document's chunks, page by page |
| Chunker.ShortPagesNoChunks | backend/main.py:165-176 | A document none of whose pages strips to 50 characters or more has no chunk, so its extraction fails |
| Chunker.ChunksOfPagesWell | backend/main.py:165-171 | With a per-page chunker that tags chunks with the page and yields nothing for a short page, the chunks of the first pages are in page order and each comes from one of those pages with enough text |
| Chunker.DocumentChunksWell | backend/main.py:165-171 | The document's chunks are in non-decreasing page order, and each comes from an existing page whose text strips to at least 50 characters |
| Chunker.ExtractText | backend/main.py:153-184 | The extraction fails exactly when the pages yield no chunk, with "No text could be extracted from PDF", in particular when every page strips to fewer than 50 characters. On success the chunks are exactly the document's chunks, page by page, in non-decreasing page order, each from an existing page with enough text. The metadata has the page count and the title or author, or "Unknown" when absent |
| Text.NormalizeIsJoinedWords | backend/main.py:107 | Collapsing whitespace runs to one blank and stripping equals blank-joining the text's words, and the result is normalised (no doubled, leading or trailing blanks) |
| Text.NormalizeKeepsWords | backend/main.py:107 | Normalisation keeps exactly the text's words |
| Text.WordsOfJoin | backend/main.py:107 | Splitting the blank-join of words gives back the same words |
| Text.StripSpec | backend/main.py:115 | Strip removes exactly the leading and trailing whitespace runs. The result neither starts nor ends with whitespace, and it is empty exactly when the text is all whitespace |
| Text.SplitOnJoins | backend/main.py:295 | Splitting on `.` and joining the pieces with `.` gives back the text |
| Text.JoinSplitsOn | backend/main.py:295 | Joining dot-free pieces with `.` and splitting again gives back the pieces |
| Text.NoSentencesIff | backend/main.py:295 | The sentence count is zero exactly when the text holds only whitespace and full stops |
| Text.Decimal | backend/main.py:411 | The decimal spelling of a number is a non-empty digit string that reads back as the number |
| Citations.PageCitations | backend/main.py:292 | Every captured citation is a non-empty run of decimal digits |
| Citations.CitedRoundTrip | backend/main.py:292 | Text that interleaves bracket-free prose with `[Page N]` markers parses back to exactly the written pages, in order |
| Citations.SortedDistinct | backend/main.py:293 | The result is strictly increasing, has exactly the input's values, and is no longer than the input |
| Citations.IncreasingUnique | backend/main.py:293 | Two strictly increasing lists with the same values are equal, so the cited pages are the one sorted list of the distinct values |
| Citations.CitedPagesAreSortedSet | backend/main.py:293 | The reported cited pages equal any strictly increasing list of exactly the parsed values |
| Citations.CitedPagesExample | backend/main.py:292-293 | A reply citing pages 3, 7, 3 and 12 reports pages [3, 7, 12] |
| Citations.CitationDensity | backend/main.py:297 | Density is non-negative, and zero without sentences or without citations |
| Citations.ConfidenceScore | backend/main.py:299-304 | Confidence lies in [0.3, 1.0]. It is 1.0 exactly when density is at least 0.4, at least four distinct pages are cited and the word count is strictly between 80 and 800. It is 0.3 when nothing is cited |
| Citations.GenerateSummary | backend/main.py:291-320 | A failed call is a 500 "LLM error: ", and only a failed call fails. On success the summary is the reply. The cited pages are strictly increasing with exactly the parsed values, and their number is at most the citation count. The word count is the reply's, confidence lies in [0.3, 1.0], and a reply without citations scores 0.3 with no pages |
| Quality.Score | backend/main.py:361-369 | The sub-score is the number after the leftmost match of `label\s*\d+`, or 70 when the pattern matches nowhere |
| Quality.ScoreReadsBack | backend/main.py:344-369 | A line in the requested format (label, blank, decimal number) reads back as that number, provided the label does not occur earlier in the reply |
| Quality.Assessment | backend/main.py:374-375 | The assessment is the stripped group of the leftmost match of the lazy paragraph pattern, or "Quality analysis completed." when there is none |
| Quality.AssessmentReadsBack | backend/main.py:348-375 | An assessment written after `Overall Assessment:` and a blank, ended by an empty line or the end of the reply, reads back unchanged if it is trimmed, holds no empty line and the label does not occur earlier |
| Quality.AssessmentHasNoBlankLine | backend/main.py:374-375 | The lazy group stops at the first empty line, so an assessment never contains one |
| Quality.AnalyzeQuality | backend/main.py:323-398 | The overall score times four is the sum of the four sub-scores. A failed call gives the all-75 fallback with "Quality analysis unavailable". Otherwise each sub-score is read from the reply under its own label, and the assessment from its paragraph |
| Quality.UnlabelledReplyScoresDefault | backend/main.py:366-371 | A reply that mentions none of the four labels has an overall score of 70 |
| Sampling.Pick | backend/main.py:644-650 | Indices past the end are skipped; with all indices in range the result has one chunk per index, in index order |
| Sampling.SummarizeIndices | backend/main.py:634-642 | From `n` chunks, min(10, n) strictly increasing in-range positions are sampled. The first is 0 and the last is n - 1, and all positions are taken when n is at most 10 |
| Sampling.SummarizeSample | backend/main.py:634-650 | The summarised chunks are min(10, n) chunks in collection order: the whole collection when it has at most ten, and always its first and last chunk |
| Sampling.CompareIndices | backend/main.py:520-522 | An empty collection fails with the division-by-zero 500. Otherwise min(8, n) strictly increasing in-range positions are sampled, starting at 0, and all positions are taken when n is at most 8 |
| Sampling.CompareSample | backend/main.py:520-530 | Comparing fails exactly for an empty collection. Otherwise it samples min(8, n) chunks in collection order starting with the first, or the whole collection when it has at most eight |
| Registry.Register | backend/main.py:436-444 | Storing under a key sets exactly that entry. A new key is listed last and an existing key keeps its place. The registry stays well-formed |
| Registry.Remove | backend/main.py:718 | Deleting a key removes exactly its entry and its place in the listing order, and keeps the registry well-formed |
| Registry.ValidCount | backend/main.py:702 | In a well-formed registry the listing order has one key per entry |
| Registry.RemoveUndoesRegister | backend/main.py:718 | Registering a fresh key and then deleting it gives back the original registry |
| Endpoints.UploadCheck | backend/main.py:404-414 | A file passes exactly when its name ends in `.pdf` and its size is between 1000 bytes and 50 MB. Every rejection is a 400. The name check comes first ("Only PDF files allowed"), then the size limit ("File too large. Max 50MB"), then the minimum size ("File too small or empty") |
| Endpoints.Upload | backend/main.py:401-460 | The upload fails exactly when a check rejects the file or its pages yield no chunk. A rejected file fails with that check's 400, and a file with no extractable text with a 500 carrying the extraction message. On success the registry gains, under `doc_<id>`, exactly the entry of the file's name, its metadata (page count, title and author or "Unknown"), its pages' chunks and the quality report of the reply. The response repeats the key, the chunk count, the file name, the metadata and the report |
| Endpoints.UploadMultiple | backend/main.py:463-487 | More than five files is a 400 "Maximum 5 papers allowed". Otherwise the results are the responses of exactly the accepted files and the errors name exactly the rejected files with their errors, both in batch order. The registry is the original with the accepted files registered in order. The counts add up to the number of files, and every earlier collection and every uploaded one is registered |
| Endpoints.BatchPartition | backend/main.py:472-486 | Every file of a batch ends up either among the results or among the errors, so uploaded plus failed is the number of files |
| Endpoints.AllAcceptedNoRejections | backend/main.py:472-486 | A batch whose every file is accepted has no errors and one result per file |
| Endpoints.RegisterAcceptedKeeps | backend/main.py:436-444 | Registering a batch's accepted files keeps every earlier key and the registry's well-formedness, and registers the key of every accepted file |
| Endpoints.CompareCheck | backend/main.py:495-504 | A request passes exactly when it names 2 to 5 registered ids. Too few or too many ids is a 400 with the code's message. Otherwise the first unknown id gives a 404 "Collection <id> not found" |
| Endpoints.ComparedPaper | backend/main.py:510-541 | A paper is summarised exactly when its collection has chunks and its summary call answers. The failures are the division-by-zero 500 or the rewrapped "500: LLM error: " 500. The paper keeps its id, file name, the reply as its summary, and its overall quality score, or 75 without one |
| Endpoints.ComparedPaperSummary | backend/main.py:533-539 | The summary kept for a compared paper is the `summary` field of the summary result for its eight-chunk sample, and the paper fails exactly when that call fails |
| Endpoints.PaperSummaries | backend/main.py:508-541 | On success there is one summary per requested id, in request order, with its id, file name, summary reply and quality score. Any failure is one of the two per-paper 500s |
| Endpoints.PaperSummariesSucceed | backend/main.py:508-541 | The per-paper phase succeeds exactly when every requested paper has chunks and its summary call answers |
| Endpoints.Similarity | backend/main.py:602 | The similarity of two papers is at most 100, and exactly 100 when their quality scores are equal. It is non-negative for scores within 0 to 100 |
| Endpoints.SimilarityMatrix | backend/main.py:594-604 | The matrix is square over the papers and symmetric, with 100 on the diagonal and no entry above 100. An off-diagonal entry is 100 exactly when the two scores are equal, and no entry is negative for scores within 0 to 100 |
| Endpoints.CompareChecked | backend/main.py:506-616 | After the checks any failure is a 500. It succeeds exactly when every paper has chunks, every per-paper summary call answers, and the comparison call answers. On success there is one paper per id in request order, with its file name, its summary reply and its quality score. The analysis is the comparison reply, the comparison type is echoed, and the matrix is the one built from the requested papers' quality scores |
| Endpoints.ComparePapers | backend/main.py:490-616 | A 400 or 404 comes exactly from a request with fewer than 2 ids, more than 5, or an unknown id. A request that passes the checks succeeds exactly when every paper has chunks and every summary and comparison call answers. On success every id is registered, and there is one paper per id in request order with its file name, summary reply and quality score. The matrix is built from their quality scores |
| Endpoints.CompareValidationIgnoresReplies | backend/main.py:495-504 | A request the checks reject is rejected with the check's error whatever the generation calls would have answered |
| Endpoints.SummarizePaper | backend/main.py:619-661 | An unknown id is a 404 "Collection not found" and an empty collection a 500 "No content found". Otherwise the call fails exactly when generation fails, with the summary step's 500 passing through. An answered call returns the summary result of the ten-chunk sample unchanged: its summary is the reply, and its cited pages are exactly the pages the reply cites. A success used min(10, n) chunks |
| Endpoints.RankRetrieved | backend/main.py:217-237 | The hits keep their text and page in order. Relevance starts at 1.0 and falls by exactly 0.08 per rank, strictly decreasing, and stays at least 0.44 for up to eight hits |
| Endpoints.QueryPaper | backend/main.py:664-685 | An unknown id is a 404. A question shorter than ten characters once stripped is a 400 "Question too short". Otherwise the call fails exactly when generation fails, rewrapped as "500: LLM error: ". An answered call returns the summary result of the returned hits unchanged: its summary is the reply, and its cited pages are exactly the pages the reply cites. A success used every returned hit |
| Endpoints.ListCollections | backend/main.py:688-702 | There is one line per registered paper, each with its id, file name and chunk count, and every registered id appears. The total is the number of lines |
| Endpoints.Infos | backend/main.py:692-700 | Each listing line carries the id, file name, chunk count, metadata and quality of its entry, in registration order |
| Endpoints.DeleteCollection | backend/main.py:705-725 | Deleting fails exactly for an unknown id, with a 404 "Collection not found". Otherwise exactly that entry is removed and the registry shrinks by one |
| Endpoints.UploadThenDelete | backend/main.py:705-721 | Uploading a file under a fresh id and deleting it again leaves the registry as it was, and fails exactly when the upload is not accepted. A file the checks reject never gets that far |
| Evaluator.CountIn | backend/evaluate.py:36 | The count of entries found in the other list is at most the list's length. It equals the length exactly when every entry is found, and is zero exactly when none is |
| Evaluator.CountInFound | backend/evaluate.py:36 | The count equals the number of positions of the first list whose entry occurs in the second |
| Evaluator.CitationAccuracy | backend/evaluate.py:33-37 | Accuracy lies in [0, 1] and is 0 without expected or cited pages. Otherwise accuracy times the number of cited occurrences is the number of those found among the expected pages. It is 1 exactly when every cited occurrence is expected, and 0 exactly when none is |
| Evaluator.EvaluateCitations | backend/evaluate.py:16-50 | The total is the number of parsed markers, and citations are present exactly when it is positive. The cited pages are strictly increasing with exactly the parsed values, and their number is at most the total. Accuracy lies in [0, 1]; with expected pages and citations, accuracy times the total is the number of cited occurrences found among the expected pages. Density is non-negative |
| Evaluator.AccuracyIff | backend/evaluate.py:34-37 | With expected pages and citations, accuracy is full exactly when every cited value is expected, and zero exactly when none is |
| Evaluator.CitedPagesOf | backend/evaluate.py:49 | The reported pages are the one strictly increasing list of the cited values |
| Evaluator.ThreePageExample | backend/evaluate.py:188-198 | The shape of the first example summary, checked against pages 3, 7 and 12, reports three citations, pages [3, 7, 12] and full accuracy |
| Evaluator.AnyContained | backend/evaluate.py:69 | The structure flag is set exactly when some keyword occurs in the text |
| Evaluator.WordOverlap | backend/evaluate.py:79-87 | The overlap is the number of words the two sets share, at most either set's size. Coverage lies in [0, 1] and is 0 for an empty reference. For a non-empty reference, coverage times the reference's size is the shared count. Coverage is 1 exactly when the summary uses every reference word, and 0 exactly when the sets share no word |
| Evaluator.ReferenceOverlap | backend/evaluate.py:79-87 | The overlap of a summary and a reference is the number of distinct lower-cased words they share. Coverage times the reference's distinct-word count is that number, coverage is 0 exactly when they share no word, and 1 exactly when the summary uses every reference word |
| Evaluator.EvaluateSummaryQuality | backend/evaluate.py:52-89 | The word and sentence counts are those of `split()` and of non-blank `.`-pieces. The average is non-negative and 0 without sentences. The structure flag matches the lower-cased keyword test. Overlap is reported exactly when a non-empty reference is given, and it is then the shared-word count and coverage of `Evaluator.ReferenceOverlap` |
| Evaluator.F1 | backend/evaluate.py:118 | F1 is non-negative and 0 when precision and recall are both 0. Otherwise F1 times their sum is twice their product, the harmonic mean. It is at most 1 when both are fractions |
| Evaluator.Scores | backend/evaluate.py:111-118 | Precision times the number of retrieved pages, and recall times the number of relevant pages, are both the number of retrieved occurrences on a relevant page. F1 is the harmonic mean of the two. As written, precision lies in [0, 1] but recall and F1 are only known to be non-negative. Both are 0 without retrieved chunks |
| Evaluator.EvaluateRetrieval | backend/evaluate.py:91-120 | The chunk count and distinct page count are reported. Diversity times the chunk count is the distinct page count; it lies in [0, 1] and is 0 exactly without chunks. Scores are reported exactly when relevant pages are given, and are then `Evaluator.Scores` of the retrieved pages |
| Evaluator.RecallExceedsOne | backend/evaluate.py:112-114 | Retrieving the one relevant page n times, for any n of at least 2, gives a recall of n and an F1 above 1 |
| Evaluator.DistinctScores | backend/evaluate.py:112-118 | Recall times the number of relevant pages is the number of relevant pages that were retrieved, so recall, precision and F1 are fractions. Precision is that of the code, and F1 their harmonic mean. Recall is 1 exactly when every relevant page was retrieved, and 0 exactly when none was |
| Evaluator.EvaluateRetrievalCorrected | backend/evaluate.py:91-120 | The corrected metrics keep every count of the original, and their scores are `Evaluator.DistinctScores` of the retrieved pages, with recall and F1 in [0, 1] |
| Evaluator.RecallsAgreeOnDistinctPages | backend/evaluate.py:112-114 | Without repeated pages on either side the corrected and the original scores coincide |
| Evaluator.RunTestCase | backend/evaluate.py:122-138 | A test result is appended after the earlier ones. It passes exactly when the summary has a citation and more than 50 words, and overlap is reported exactly when a reference is given |
| Evaluator.UncitedSummaryFails | backend/evaluate.py:200-208 | A summary without `[` fails its test, as the second example expects |
| Evaluator.PassedCount | backend/evaluate.py:149 | The passed count is at most the number of results, and equals it exactly when every test passed |
| Evaluator.GenerateReport | backend/evaluate.py:140-152 | Without results the report is "No test results available". Otherwise it states the passed count out of the number of results, equal exactly when all passed |
| Evaluator.ReportAfterRun | backend/evaluate.py:137-152 | Running one more test adds one to the total, and one to the passed count exactly when that test passed |

## Left out

- The HTTP layer is not modelled: FastAPI routing, CORS, the health and root endpoints, startup and directory creation.
- Logging is not modelled.
- Only the PDF's pages and metadata are modelled, not PDF parsing. A parse error re-raised by `extract_text_from_pdf` is not modelled.
- The file write under `UPLOAD_DIR` and its unlinking on failure or delete are not modelled. So are the upload time, the file path, and `uuid` for chunk ids.
- The vector store (ChromaDB collections, embeddings, `create_vector_db`, `retrieve_relevant_chunks`' query) is represented by the chunks a collection holds and the hits a query returns, passed in as inputs.
- Language-model calls (`ollama.chat`) are represented by their reply text or `CallFailed`. Prompt construction, including the query, the six-chunk excerpt of `analyze_paper_quality` and the comparison prompt, only shapes that reply and is not modelled.
- The exception text inside a 500 is not modelled. `Citations.GenerateSummary` keeps the prefix "LLM error: ", and the comparison call's own failure has an empty detail.
- `Quality.AnalyzeQuality`: the overall score is the exact average; its `round(..., 1)` is not modelled.
- `Citations.GenerateSummary`: confidence and density are exact; their `round(..., 2)` is not modelled. The contract bounds confidence, and `Citations.ConfidenceScore` states the formula's extremes rather than restating it.
- `Endpoints.SimilarityMatrix`: entries are exact reals; `round(similarity, 1)` is not modelled.
- `Quality.Score`: `\d` is read as an ASCII digit. Python's `\d` also matches other Unicode decimal digits, which `int()` accepts; those are not modelled. `\s` is Python's Unicode whitespace test.
- `Citations.GenerateSummary`: page numbers are read with an unbounded `int()`. CPython 3.11 and later refuse a decimal string of more than 4300 digits, so a marker such as `[Page ` followed by 4301 digits and `]` makes the code raise, and the handler answers with a 500 "LLM error: …" where the model succeeds.
- `Quality.AnalyzeQuality`: the same limit applies to the sub-scores. A reply with `Methodology Rigor: ` followed by 4301 digits makes the code raise and return the all-75 fallback, where the model reads the number.
- `Evaluator.EvaluateCitations`: the same limit applies to its `int(p)`, which raises on such a marker where the model counts it.
- `Citations.PageCitations`: `\d` in `[Page (\d+)]` is read as an ASCII digit. A marker written with other Unicode decimal digits, which Python matches and `int()` accepts, is not recognised.
- `Evaluator.EvaluateCitations`: the same ASCII reading of `\d` applies to its `[Page (\d+)]` pattern.
- `Evaluator.EvaluateSummaryQuality`: `lower()` is modelled on ASCII letters only, for the keyword test and the word overlap.
- `Endpoints.RankRetrieved`: relevance is the exact real 1 - 0.08 i. Python computes it in binary floating point, so the hit at rank 4 gets 0.6799999999999999 rather than 0.68, and the hit at rank 7 gets 0.43999999999999995, just below the 0.44 the contract states for the exact value.
- `Evaluator.Ratio`: the Evaluator's ratios (accuracy, density, coverage, average length, precision, recall, F1, diversity) are exact reals. Python computes them in binary floating point, whose rounding is not modelled.
- `Chunker.ExtractText`: failure is stated exactly, as "the pages yield no chunk". In terms of page lengths only one direction holds, because a page whose stripped text has 50 or more characters still yields no chunk when normalising its whitespace leaves 50 characters or fewer.
- `Endpoints.UploadMultiple`: the response bodies are returned as values. The `eval` of their decoded JSON text is not modelled.
- `Endpoints.Upload`: only the extraction failure is modelled among the 500s. Failures of the vector store or the file system are not modelled.
- `Evaluator.EvaluateCitations`: the citation density and the unique count are stated through their bounds and the cited-page list, not as the ratio itself.
- `Evaluator.EvaluateSummaryQuality`: the average sentence length is bounded rather than stated as the ratio.
- `Evaluator.EvaluateRetrieval`: the `query` argument is unused by the source and is dropped.
- The Evaluator's per-test report text and `:.1f`/`:.2f` formatting, `export_json`, and the `__main__` driver are not modelled. The first two examples are reflected by `Evaluator.ThreePageExample` and `Evaluator.UncitedSummaryFails`.
- The `strengths` and `weaknesses` lists of a quality report are always empty and are not represented.
- `backend/test_system.py` and the frontend are not part of this model.

## Findings

| source | as written | input that shows it | evidently intended | confidence | as-written member | corrected member |
|---|---|---|---|---|---|---|
| backend/evaluate.py:112-114 | recall divides the number of retrieved chunks on a relevant page, with repetitions, by the number of relevant pages | one relevant page p and n >= 2 retrieved chunks all on page p: recall n, F1 2n/(n+1) > 1 (for n = 2: recall 2.0, F1 about 1.33) | recall is the fraction of relevant pages retrieved, in [0, 1] | not executed | Evaluator.RecallExceedsOne | Evaluator.DistinctScores |

=== FILE: chunker.dfy ===
/** The sentence-based chunker of the ingest path (`smart_chunk_text`) and
    its per-page driver (the page loop of `extract_text_from_pdf`).

    A page's text is normalised, cut into sentences after `.`, `!` or `?`,
    and the sentences are packed greedily into chunks of about
    `MaxChunkSize` words. When a sentence would take the open chunk past
    that budget, the chunk is emitted and the next one starts with the last
    one or two sentences of the emitted chunk (the overlap) followed by that
    sentence. Neither a chunk's first sentence nor the sentence added after
    an overlap is checked against the budget, so a chunk passes it only
    through a single sentence, or through its overlap plus one new sentence.
    A final chunk of 50 characters or fewer is dropped.

    A chunk is modelled by its text and page; the sentence lists the chunks
    were joined from ("groups") are returned alongside so that contracts can
    speak about them.
 */
module Chunker {
  import opened Wrappers
  import opened Text

  /** `MAX_CHUNK_SIZE`: the word budget of one chunk. */
  const MaxChunkSize := 500

  /** The 50-character threshold for a page's text and for the last chunk. */
  const MinTextChars := 50

  /** One chunk as stored in the vector collection (its uuid is left out). */
  datatype Chunk = Chunk(text: string, page: int)

  predicate IsTerminator(c: char) {
    c == '.' || c == '!' || c == '?'
  }

  /** A piece that ends with a sentence terminator. */
  predicate EndsSentence(s: string) {
    |s| > 0 && IsTerminator(s[|s| - 1])
  }

  // ---------------------------------------------------------------------------
  // Sentences: re.split(r'(?<=[.!?])\s+', text)

  /** `re.split(r'(?<=[.!?])\s+', s)`: cut at every whitespace run that
      directly follows a sentence terminator; the runs are removed. */
  function SplitSentences(s: string): (r: seq<string>)
    ensures |r| > 0
  {
    SplitFrom(s, 0, 0)
  }

  /** The scan behind `SplitSentences`: the current piece started at `start`
      and the separator search has reached `i`. */
  function SplitFrom(s: string, start: nat, i: nat): (r: seq<string>)
    requires start <= i <= |s|
    ensures |r| > 0
    decreases |s| - i
  {
    if i == |s| then [s[start..]]
    else if i > 0 && IsTerminator(s[i - 1]) && IsSpace(s[i]) then
      var j := i + LeadingSpaces(s[i..]);
      [s[start..i]] + SplitFrom(s, j, j)
    else SplitFrom(s, start, i + 1)
  }

  /** A sentence with no whitespace at either end. */
  predicate Trimmed(s: string) {
    |s| > 0 && !IsSpace(s[0]) && !IsSpace(s[|s| - 1])
  }

  /** At a cut of a normalised text the separator is a single blank, the
      piece before it is a trimmed sentence, and the next piece starts with a
      non-blank. */
  lemma CutStep(n: string, start: nat, i: nat)
    requires IsNormalized(n)
    requires start <= i < |n| && !IsSpace(n[start])
    requires i > 0 && IsTerminator(n[i - 1]) && IsSpace(n[i])
    ensures start < i < |n| - 1 && !IsSpace(n[i + 1])
    ensures LeadingSpaces(n[i..]) == 1
    ensures n[start..] == n[start..i] + " " + n[i + 1..]
    ensures Trimmed(n[start..i]) && EndsSentence(n[start..i])
  {
    assert n[i..][0] == n[i];
    assert n[i..][1] == n[i + 1];
    LeadingSpacesIs(n[i..], 1);
    var head := n[start..i];
    assert head[|head| - 1] == n[i - 1];
    assert head[0] == n[start];
  }

  /** Putting a trimmed sentence ending in a terminator in front of a list
      of sentences keeps both sentence-list properties. */
  lemma ConsSentence(head: string, rest: seq<string>)
    requires Trimmed(head) && EndsSentence(head)
    requires |rest| > 0
    requires forall k :: 0 <= k < |rest| ==> Trimmed(rest[k])
    requires forall k :: 0 <= k < |rest| - 1 ==> EndsSentence(rest[k])
    ensures var r := [head] + rest;
      && JoinSpace(r) == head + " " + JoinSpace(rest)
      && (forall k :: 0 <= k < |r| ==> Trimmed(r[k]))
      && (forall k :: 0 <= k < |r| - 1 ==> EndsSentence(r[k]))
  {
    var r := [head] + rest;
    assert r[1..] == rest;
    forall k | 0 < k < |r|
      ensures r[k] == rest[k - 1]
    {
    }
  }

  /** The scan of a normalised text yields trimmed sentences that join back,
      with single blanks, into the text; every sentence but the last ends
      with a terminator. */
  lemma {:induction false} SplitFromNormalized(n: string, start: nat, i: nat)
    requires IsNormalized(n)
    requires start <= i <= |n|
    requires start < |n| && !IsSpace(n[start])
    ensures var r := SplitFrom(n, start, i);
      && JoinSpace(r) == n[start..]
      && (forall k :: 0 <= k < |r| ==> Trimmed(r[k]))
      && (forall k :: 0 <= k < |r| - 1 ==> EndsSentence(r[k]))
    decreases |n| - i
  {
    if i == |n| {
      assert n[start..][|n| - start - 1] == n[|n| - 1];
    } else if i > 0 && IsTerminator(n[i - 1]) && IsSpace(n[i]) {
      CutStep(n, start, i);
      SplitFromNormalized(n, i + 1, i + 1);
      var rest := SplitFrom(n, i + 1, i + 1);
      assert SplitFrom(n, start, i) == [n[start..i]] + rest;
      ConsSentence(n[start..i], rest);
    } else {
      SplitFromNormalized(n, start, i + 1);
    }
  }

  /** Sentence splitting of a non-empty normalised text round-trips through
      `' '.join(...)` and yields trimmed sentences. */
  lemma SentencesOfNormalized(n: string)
    requires IsNormalized(n) && |n| > 0
    ensures var r := SplitSentences(n);
      && JoinSpace(r) == n
      && (forall k :: 0 <= k < |r| ==> Trimmed(r[k]))
      && (forall k :: 0 <= k < |r| - 1 ==> EndsSentence(r[k]))
  {
    SplitFromNormalized(n, 0, 0);
    assert n[0..] == n;
  }

  // ---------------------------------------------------------------------------
  // Packing sentences into chunks

  /** Total number of words (`len(s.split())`) over a list of sentences. */
  function WordTotal(ss: seq<string>): nat
  {
    if |ss| == 0 then 0 else WordTotal(ss[..|ss| - 1]) + |Words(ss[|ss| - 1])|
  }

  /** The sentences carried into the next chunk after a flush: the last two
      when the chunk has three or more, otherwise all of them. */
  function Overlap(g: seq<string>): (o: seq<string>)
    ensures |o| <= |g| && (|o| <= 2 || |o| == |g|)
    ensures o == g[|g| - |o|..]
    ensures |g| >= 3 ==> |o| == 2
    ensures |g| < 3 ==> o == g
  {
    if |g| >= 3 then g[|g| - 2..] else g
  }

  /** The loop's handling of one raw sentence: stripped, and skipped when
      empty. */
  function KeptOne(s: string): seq<string> {
    if Strip(s) == "" then [] else [Strip(s)]
  }

  /** The stripped, non-empty sentences in order: what the loop consumes. */
  function Kept(ss: seq<string>): seq<string>
  {
    if |ss| == 0 then [] else Kept(ss[..|ss| - 1]) + KeptOne(ss[|ss| - 1])
  }

  /** The sentences of `g` that were not carried over from `prev`. */
  function Fresh(prev: seq<string>, g: seq<string>): seq<string> {
    if |Overlap(prev)| <= |g| then g[|Overlap(prev)|..] else []
  }

  /** The sentence sequence recovered from consecutive chunks by dropping
      each chunk's carried-over overlap. */
  function Rebuild(gs: seq<seq<string>>): seq<string>
  {
    if |gs| == 0 then []
    else if |gs| == 1 then gs[0]
    else Rebuild(gs[..|gs| - 1]) + Fresh(gs[|gs| - 2], gs[|gs| - 1])
  }

  /** `next` starts with the overlap of `prev` and adds at least one
      sentence of its own. */
  predicate LinkedPair(prev: seq<string>, next: seq<string>) {
    |Overlap(prev)| < |next| && next[..|Overlap(prev)|] == Overlap(prev)
  }

  /** Every chunk after the first continues the one before it. */
  predicate Linked(gs: seq<seq<string>>) {
    forall k :: 0 < k < |gs| ==> LinkedPair(gs[k - 1], gs[k])
  }

  /** The first chunk holds more than `MaxChunkSize` words only when it is a
      single sentence. */
  predicate FitsFirst(g: seq<string>) {
    |g| <= 1 || WordTotal(g) <= MaxChunkSize
  }

  /** A later chunk holds more than `MaxChunkSize` words only when it adds a
      single sentence to its overlap. */
  predicate FitsAfter(prev: seq<string>, next: seq<string>) {
    |next| <= |Overlap(prev)| + 1 || WordTotal(next) <= MaxChunkSize
  }

  predicate Fits(gs: seq<seq<string>>) {
    && (|gs| > 0 ==> FitsFirst(gs[0]))
    && (forall k :: 0 < k < |gs| ==> FitsAfter(gs[k - 1], gs[k]))
  }

  /** `prev` was emitted because the first sentence `next` adds after its
      overlap would have taken `prev` past `MaxChunkSize` words. */
  predicate FlushedPair(prev: seq<string>, next: seq<string>) {
    |Overlap(prev)| < |next| && WordTotal(prev) + |Words(next[|Overlap(prev)|])| > MaxChunkSize
  }

  /** Every chunk but the last was emitted because it was full. */
  predicate Flushed(gs: seq<seq<string>>) {
    forall k :: 0 < k < |gs| ==> FlushedPair(gs[k - 1], gs[k])
  }

  /** The three chain properties of a list of chunks extended by one chunk
      that continues its last one. */
  lemma ChainAppend(gs: seq<seq<string>>, g: seq<string>)
    requires Linked(gs) && Fits(gs) && Flushed(gs)
    requires |gs| > 0 ==> LinkedPair(gs[|gs| - 1], g) && FitsAfter(gs[|gs| - 1], g) && FlushedPair(gs[|gs| - 1], g)
    requires |gs| == 0 ==> FitsFirst(g)
    ensures Linked(gs + [g]) && Fits(gs + [g]) && Flushed(gs + [g])
  {
    var gs' := gs + [g];
    forall k | 0 < k < |gs'|
      ensures LinkedPair(gs'[k - 1], gs'[k]) && FitsAfter(gs'[k - 1], gs'[k]) && FlushedPair(gs'[k - 1], gs'[k])
    {
      if k < |gs| {
        assert gs'[k - 1] == gs[k - 1] && gs'[k] == gs[k];
      } else {
        assert gs'[k - 1] == gs[|gs| - 1] && gs'[k] == g;
      }
    }
    if |gs| > 0 {
      assert gs'[0] == gs[0];
    }
  }

  /** The chain properties hold of every prefix. */
  lemma ChainPrefix(gs: seq<seq<string>>, n: nat)
    requires n <= |gs|
    requires Linked(gs) && Fits(gs) && Flushed(gs)
    ensures Linked(gs[..n]) && Fits(gs[..n]) && Flushed(gs[..n])
  {
    var p := gs[..n];
    forall k | 0 < k < n
      ensures LinkedPair(p[k - 1], p[k]) && FitsAfter(p[k - 1], p[k]) && FlushedPair(p[k - 1], p[k])
    {
      assert p[k - 1] == gs[k - 1] && p[k] == gs[k];
    }
    if n > 0 {
      assert p[0] == gs[0];
    }
  }

  lemma WordTotalAppend(ss: seq<string>, s: string)
    ensures WordTotal(ss + [s]) == WordTotal(ss) + |Words(s)|
  {
    assert (ss + [s])[..|ss|] == ss;
  }


  /** Rebuild unfolded at a chunk appended at the end. */
  lemma RebuildSnoc(init: seq<seq<string>>, g: seq<string>)
    requires |init| > 0
    ensures Rebuild(init + [g]) == Rebuild(init) + Fresh(init[|init| - 1], g)
  {
    var gs := init + [g];
    assert gs[..|gs| - 1] == init;
    assert gs[|gs| - 1] == g;
    assert gs[|gs| - 2] == init[|init| - 1];
  }

  /** A sentence appended to a chunk is one of its fresh sentences. */
  lemma FreshSnoc(prev: seq<string>, g: seq<string>, s: string)
    requires LinkedPair(prev, g)
    ensures Fresh(prev, g + [s]) == Fresh(prev, g) + [s]
  {
    var k := |Overlap(prev)|;
    assert (g + [s])[k..] == g[k..] + [s];
  }

  /** Appending a sentence to the open chunk extends the recovered sentence
      sequence by that sentence. */
  lemma RebuildAppendToLast(gs: seq<seq<string>>, s: string)
    requires |gs| > 0
    requires |gs| >= 2 ==> LinkedPair(gs[|gs| - 2], gs[|gs| - 1])
    ensures Rebuild(gs[..|gs| - 1] + [gs[|gs| - 1] + [s]]) == Rebuild(gs) + [s]
  {
    var init, last := gs[..|gs| - 1], gs[|gs| - 1];
    SplitLast(gs);
    if |gs| >= 2 {
      var prev := init[|init| - 1];
      assert prev == gs[|gs| - 2];
      RebuildSnoc(init, last);
      RebuildSnoc(init, last + [s]);
      FreshSnoc(prev, last, s);
      SeqAssoc(Rebuild(init), Fresh(prev, last), [s]);
    } else {
      assert init + [last + [s]] == [last + [s]];
    }
  }

  /** A sentence that fits appended to a chunk keeps its link to the chunk
      before it. */
  lemma PairExtend(prev: seq<string>, last: seq<string>, s: string)
    requires LinkedPair(prev, last) && FlushedPair(prev, last)
    requires WordTotal(last) + |Words(s)| <= MaxChunkSize
    ensures LinkedPair(prev, last + [s]) && FlushedPair(prev, last + [s]) && FitsAfter(prev, last + [s])
  {
    var k := |Overlap(prev)|;
    assert (last + [s])[..k] == last[..k];
    assert (last + [s])[k] == last[k];
    WordTotalAppend(last, s);
  }

  /** Appending a sentence to the open chunk, when it stays within budget
      or fills the first chunk's first slot, keeps the chain properties. */
  lemma AppendToLast(gs: seq<seq<string>>, s: string)
    requires |gs| > 0 && Linked(gs) && Fits(gs) && Flushed(gs)
    requires WordTotal(gs[|gs| - 1]) + |Words(s)| <= MaxChunkSize || gs == [[]]
    ensures var gs' := gs[..|gs| - 1] + [gs[|gs| - 1] + [s]];
      Linked(gs') && Fits(gs') && Flushed(gs')
  {
    var init, last := gs[..|gs| - 1], gs[|gs| - 1];
    ChainPrefix(gs, |gs| - 1);
    if |gs| >= 2 {
      var prev := gs[|gs| - 2];
      assert init[|init| - 1] == prev;
      assert LinkedPair(prev, last) && FlushedPair(prev, last);
      assert gs != [[]];
      PairExtend(prev, last, s);
    } else {
      assert init == [];
      WordTotalAppend(last, s);
      assert FitsFirst(last + [s]);
    }
    ChainAppend(init, last + [s]);
  }

  /** Emitting the open chunk and opening a new one from its overlap and the
      triggering sentence extends the recovered sequence by that sentence
      and keeps the chain properties. */
  lemma FlushLast(gs: seq<seq<string>>, s: string)
    requires |gs| > 0 && Linked(gs) && Fits(gs) && Flushed(gs)
    requires WordTotal(gs[|gs| - 1]) + |Words(s)| > MaxChunkSize
    ensures var gs' := gs + [Overlap(gs[|gs| - 1]) + [s]];
      && Rebuild(gs') == Rebuild(gs) + [s]
      && Linked(gs') && Fits(gs') && Flushed(gs')
  {
    var last := gs[|gs| - 1];
    var o := Overlap(last);
    assert (o + [s])[..|o|] == o;
    assert (o + [s])[|o|] == s;
    assert (o + [s])[|o|..] == [s];
    assert LinkedPair(last, o + [s]) && FitsAfter(last, o + [s]) && FlushedPair(last, o + [s]);
    RebuildSnoc(gs, o + [s]);
    ChainAppend(gs, o + [s]);
  }

  /** One more raw sentence: an empty one after stripping adds nothing, any
      other adds its stripped form. */
  lemma KeptStep(ss: seq<string>, i: nat)
    requires i < |ss|
    ensures Strip(ss[i]) == "" ==> Kept(ss[..i + 1]) == Kept(ss[..i])
    ensures Strip(ss[i]) != "" ==> Kept(ss[..i + 1]) == Kept(ss[..i]) + [Strip(ss[i])]
  {
    assert ss[..i + 1][..i] == ss[..i];
    assert ss[..i + 1][i] == ss[i];
    assert Kept(ss[..i + 1]) == Kept(ss[..i]) + KeptOne(ss[i]);
  }

  /** The packing loop's state: the emitted chunks' sentence lists and the
      open chunk. */
  datatype Packing = Packing(done: seq<seq<string>>, open: seq<string>) {
    /** All chunks, the open one last. */
    function All(): seq<seq<string>> {
      done + [open]
    }
  }

  /** One iteration of the packing loop on a kept sentence: flush and start
      from the overlap when the sentence does not fit a non-empty open
      chunk, otherwise append it. */
  function Pack(p: Packing, s: string): Packing {
    if WordTotal(p.open) + |Words(s)| > MaxChunkSize && p.open != [] then
      Packing(p.done + [p.open], Overlap(p.open) + [s])
    else
      Packing(p.done, p.open + [s])
  }

  /** The packing loop run over a list of kept sentences. */
  function PackAll(kept: seq<string>): Packing {
    if |kept| == 0 then Packing([], [])
    else Pack(PackAll(kept[..|kept| - 1]), kept[|kept| - 1])
  }

  /** What the packing loop guarantees after consuming `kept`: the open
      chunk is empty only before the first sentence, every emitted chunk is
      non-empty, the chunks form a chain, and dropping the overlaps gives
      back the sentences. */
  predicate PackedWell(p: Packing, kept: seq<string>) {
    && (p.open == [] <==> kept == [])
    && (p.open == [] ==> p.done == [])
    && (forall k :: 0 <= k < |p.done| ==> p.done[k] != [])
    && Linked(p.All()) && Fits(p.All()) && Flushed(p.All())
    && Rebuild(p.All()) == kept
  }

  /** A flush keeps the packing guarantees. */
  lemma PackFlushWell(p: Packing, kept: seq<string>, s: string)
    requires PackedWell(p, kept)
    requires WordTotal(p.open) + |Words(s)| > MaxChunkSize && p.open != []
    ensures PackedWell(Packing(p.done + [p.open], Overlap(p.open) + [s]), kept + [s])
  {
    var all := p.All();
    var q := Packing(p.done + [p.open], Overlap(p.open) + [s]);
    assert all[|all| - 1] == p.open;
    FlushLast(all, s);
    assert q.All() == all + [Overlap(p.open) + [s]];
    NonEmptySnoc(p.done, p.open);
  }

  /** Appending a non-empty list to lists that are all non-empty keeps them
      all non-empty. */
  lemma NonEmptySnoc(gs: seq<seq<string>>, g: seq<string>)
    requires forall k :: 0 <= k < |gs| ==> gs[k] != []
    requires g != []
    ensures forall k :: 0 <= k < |gs + [g]| ==> (gs + [g])[k] != []
  {
    forall k | 0 <= k < |gs + [g]|
      ensures (gs + [g])[k] != []
    {
      if k < |gs| {
        assert (gs + [g])[k] == gs[k];
      }
    }
  }

  /** Appending to the open chunk keeps the packing guarantees. */
  lemma PackAppendWell(p: Packing, kept: seq<string>, s: string)
    requires PackedWell(p, kept)
    requires !(WordTotal(p.open) + |Words(s)| > MaxChunkSize && p.open != [])
    ensures PackedWell(Packing(p.done, p.open + [s]), kept + [s])
  {
    var all := p.All();
    var q := Packing(p.done, p.open + [s]);
    assert all[..|all| - 1] == p.done && all[|all| - 1] == p.open;
    assert p.open == [] ==> all == [[]];
    AppendToLast(all, s);
    assert |all| >= 2 ==> LinkedPair(all[|all| - 2], all[|all| - 1]);
    RebuildAppendToLast(all, s);
    assert q.All() == all[..|all| - 1] + [all[|all| - 1] + [s]];
  }

  /** One loop iteration keeps the packing guarantees. */
  lemma PackStepWell(p: Packing, kept: seq<string>, s: string)
    requires PackedWell(p, kept)
    ensures PackedWell(Pack(p, s), kept + [s])
  {
    if WordTotal(p.open) + |Words(s)| > MaxChunkSize && p.open != [] {
      PackFlushWell(p, kept, s);
    } else {
      PackAppendWell(p, kept, s);
    }
  }

  /** The packing loop's guarantees hold after any list of sentences. */
  lemma {:induction false} PackAllWell(kept: seq<string>)
    ensures PackedWell(PackAll(kept), kept)
  {
    if |kept| > 0 {
      var init, s := kept[..|kept| - 1], kept[|kept| - 1];
      PackAllWell(init);
      assert PackAll(kept) == Pack(PackAll(init), s);
      PackStepWell(PackAll(init), init, s);
      SplitLast(kept);
    }
  }

  lemma PackAllSnoc(kept: seq<string>, s: string)
    ensures PackAll(kept + [s]) == Pack(PackAll(kept), s)
  {
    assert (kept + [s])[..|kept|] == kept;
  }

  /** The packing loop of `smart_chunk_text` over the raw sentences: each is
      stripped, empty ones are skipped, and the rest are packed. Returns the
      emitted chunks' sentence lists and the still-open chunk. */
  method PackSentences(sentences: seq<string>) returns (groups: seq<seq<string>>, current: seq<string>)
    ensures Packing(groups, current) == PackAll(Kept(sentences))
    ensures PackedWell(Packing(groups, current), Kept(sentences))
  {
    groups, current := [], [];
    var currentLength := 0;
    var i := 0;
    while i < |sentences|
      invariant 0 <= i <= |sentences|
      invariant Packing(groups, current) == PackAll(Kept(sentences[..i]))
      invariant currentLength == WordTotal(current)
    {
      KeptStep(sentences, i);
      var sentence := Strip(sentences[i]);
      if sentence != "" {
        PackAllSnoc(Kept(sentences[..i]), sentence);
        var sentenceLength := |Words(sentence)|;
        if currentLength + sentenceLength > MaxChunkSize && current != [] {
          groups := groups + [current];
          current := Overlap(current) + [sentence];
          currentLength := WordTotal(current);
        } else {
          WordTotalAppend(current, sentence);
          current := current + [sentence];
          currentLength := currentLength + sentenceLength;
        }
      }
      i := i + 1;
    }
    assert sentences[..i] == sentences;
    PackAllWell(Kept(sentences));
  }

  /** Every kept sentence is covered by the emitted chunks, except that the
      last chunk of the chain may have been dropped because its text was too
      short. */
  ghost predicate CoversExceptShortTail(groups: seq<seq<string>>, kept: seq<string>)
  {
    Rebuild(groups) == kept
    || exists pending: seq<string> ::
         && pending != []
         && Linked(groups + [pending]) && Fits(groups + [pending]) && Flushed(groups + [pending])
         && Rebuild(groups + [pending]) == kept
         && |Strip(JoinSpace(pending))| <= MinTextChars
  }

  /** When the kept chunks cover every sentence, the last of them has text
      longer than `MinTextChars`. */
  predicate LastChunkLong(groups: seq<seq<string>>, kept: seq<string>) {
    groups != [] && Rebuild(groups) == kept ==> |Strip(JoinSpace(groups[|groups| - 1]))| > MinTextChars
  }

  /** The open chunk's sentences are kept at the end only when their text is
      longer than `MinTextChars`. */
  predicate KeepsOpen(p: Packing) {
    p.open != [] && |Strip(JoinSpace(p.open))| > MinTextChars
  }

  /** The sentence lists `smart_chunk_text` ends with. */
  function FinalGroups(p: Packing): seq<seq<string>> {
    if KeepsOpen(p) then p.All() else p.done
  }

  /** The chunks `smart_chunk_text(text, page)` returns, as a function of the
      page's text: empty for a text with fewer than `MinTextChars`
      characters, otherwise the packed sentence lists of the normalised text
      joined into chunks of the page. */
  function PageChunks(text: string, page: int): (cs: seq<Chunk>)
    ensures |Strip(text)| < MinTextChars ==> cs == []
    ensures forall k :: 0 <= k < |cs| ==> cs[k].page == page
  {
    if |Strip(text)| < MinTextChars then []
    else JoinAll(FinalGroups(PackAll(Kept(SplitSentences(Normalize(text))))), page)
  }

  /** The chunks kept at the end of `smart_chunk_text` — the emitted ones,
      plus the open one when its text is longer than `MinTextChars` — are
      non-empty, form a chain, and cover the sentences except for a short
      dropped tail. */
  lemma KeptChunks(p: Packing, kept: seq<string>, groups: seq<seq<string>>)
    requires PackedWell(p, kept)
    requires groups == FinalGroups(p)
    ensures forall k :: 0 <= k < |groups| ==> groups[k] != []
    ensures Linked(groups) && Fits(groups) && Flushed(groups)
    ensures CoversExceptShortTail(groups, kept)
  {
    var all := p.All();
    if !KeepsOpen(p) {
      ChainPrefix(all, |p.done|);
      assert all[..|p.done|] == p.done;
      if p.open == [] {
        assert Rebuild(p.done) == [];
        assert Rebuild(groups) == kept;
      } else {
        assert |Strip(JoinSpace(p.open))| <= MinTextChars;
        assert groups + [p.open] == all;
        assert Linked(groups + [p.open]) && Rebuild(groups + [p.open]) == kept;
      }
    } else {
      assert groups == all;
      forall k | 0 <= k < |groups|
        ensures groups[k] != []
      {
        if k < |p.done| {
          assert groups[k] == p.done[k];
        }
      }
      assert Rebuild(groups) == kept;
    }
  }

  /** A final chunk of `MinTextChars` characters or fewer is never kept: if
      the chunks kept at the end cover every sentence, the last is longer. */
  lemma FinalChunkLong(p: Packing, kept: seq<string>)
    requires PackedWell(p, kept)
    ensures LastChunkLong(FinalGroups(p), kept)
  {
    if !KeepsOpen(p) && p.open != [] && p.done != [] {
      DroppedTailUncovered(p, kept);
    }
  }

  /** Dropping a non-empty open chunk after emitted chunks loses at least one
      sentence: the emitted chunks alone do not cover the sentences. */
  lemma DroppedTailUncovered(p: Packing, kept: seq<string>)
    requires PackedWell(p, kept) && p.open != [] && p.done != []
    ensures Rebuild(p.done) != kept
  {
    var all := p.All();
    var prev := p.done[|p.done| - 1];
    assert all[|all| - 2] == prev && all[|all| - 1] == p.open;
    assert LinkedPair(prev, p.open);
    RebuildSnoc(p.done, p.open);
    assert |Fresh(prev, p.open)| > 0;
  }

  /** `smart_chunk_text(text, page)`: the chunks of one page, each tagged with
      that page, and the sentence lists they were joined from. */
  method SmartChunkText(text: string, page: int) returns (chunks: seq<Chunk>, groups: seq<seq<string>>)
    ensures |Strip(text)| < MinTextChars ==> chunks == [] && groups == []
    ensures |chunks| == |groups|
    ensures forall k :: 0 <= k < |chunks| ==> chunks[k] == Chunk(JoinSpace(groups[k]), page)
    ensures forall k :: 0 <= k < |groups| ==> groups[k] != []
    ensures Linked(groups) && Fits(groups) && Flushed(groups)
    ensures |Strip(text)| >= MinTextChars ==>
      && CoversExceptShortTail(groups, Kept(SplitSentences(Normalize(text))))
      && LastChunkLong(groups, Kept(SplitSentences(Normalize(text))))
    ensures chunks == PageChunks(text, page)
  {
    if |Strip(text)| < MinTextChars {
      return [], [];
    }
    var normalized := Normalize(text);
    var sentences := SplitSentences(normalized);
    var done, current := PackSentences(sentences);
    chunks, groups := FinishChunks(Packing(done, current), Kept(sentences), page);
  }

  /** The end of `smart_chunk_text`: the open chunk is kept only when its
      text is longer than `MinTextChars`, and every kept sentence list is
      joined into a chunk of the page. */
  method FinishChunks(p: Packing, kept: seq<string>, page: int) returns (chunks: seq<Chunk>, groups: seq<seq<string>>)
    requires PackedWell(p, kept)
    ensures KeepsOpen(p) ==> groups == p.All()
    ensures !KeepsOpen(p) ==> groups == p.done
    ensures chunks == JoinAll(FinalGroups(p), page)
    ensures |chunks| == |groups|
    ensures forall k :: 0 <= k < |chunks| ==> chunks[k] == Chunk(JoinSpace(groups[k]), page)
    ensures forall k :: 0 <= k < |groups| ==> groups[k] != []
    ensures Linked(groups) && Fits(groups) && Flushed(groups)
    ensures CoversExceptShortTail(groups, kept)
    ensures LastChunkLong(groups, kept)
  {
    groups := p.done;
    if p.open != [] {
      var chunkText := JoinSpace(p.open);
      if |Strip(chunkText)| > MinTextChars {
        groups := p.All();
      }
    }
    KeptChunks(p, kept, groups);
    FinalChunkLong(p, kept);
    chunks := JoinAll(groups, page);
  }

  /** Each sentence list joined with blanks into a chunk of the page. */
  function JoinAll(groups: seq<seq<string>>, page: int): (chunks: seq<Chunk>)
    ensures |chunks| == |groups|
    ensures forall k :: 0 <= k < |groups| ==> chunks[k] == Chunk(JoinSpace(groups[k]), page)
  {
    seq(|groups|, k requires 0 <= k < |groups| => Chunk(JoinSpace(groups[k]), page))
  }

  /** When no chunk was dropped, the chunks with their overlaps removed give
      back exactly the page's normalised text, hence exactly its words. */
  lemma ChunksRebuildPage(text: string, groups: seq<seq<string>>)
    requires |Strip(text)| >= MinTextChars
    requires Rebuild(groups) == Kept(SplitSentences(Normalize(text)))
    ensures JoinSpace(Rebuild(groups)) == Normalize(text)
    ensures Words(JoinSpace(Rebuild(groups))) == Words(text)
  {
    var n := Normalize(text);
    NormalizeIsJoinedWords(text);
    NormalizeKeepsWords(text);
    assert !AllSpace(text);
    assert LeadingSpaces(text) < |text|;
    var ws := Words(text);
    assert |ws| > 0;
    JoinWordsShape(ws);
    SentencesOfNormalized(n);
    KeptTrimmed(SplitSentences(n));
  }

  /** Keeping only stripped non-empty sentences changes nothing when every
      sentence is already trimmed. */
  lemma {:induction false} KeptTrimmed(ss: seq<string>)
    requires forall k :: 0 <= k < |ss| ==> Trimmed(ss[k])
    ensures Kept(ss) == ss
  {
    if |ss| > 0 {
      var init, last := ss[..|ss| - 1], ss[|ss| - 1];
      assert forall k :: 0 <= k < |init| ==> init[k] == ss[k];
      KeptTrimmed(init);
      StripTrimmed(last);
      assert KeptOne(last) == [last];
      SplitLast(ss);
    }
  }

  // ---------------------------------------------------------------------------
  // The per-page driver of extract_text_from_pdf

  /** The `metadata` dictionary built from the document. */
  datatype PdfMetadata = PdfMetadata(totalPages: nat, title: string, author: string)

  datatype Extraction = Extraction(chunks: seq<Chunk>, metadata: PdfMetadata)

  const NoTextExtracted := "No text could be extracted from PDF"

  predicate PagesNonDecreasing(chunks: seq<Chunk>) {
    forall a, b :: 0 <= a < b < |chunks| ==> chunks[a].page <= chunks[b].page
  }

  /** Every chunk comes from a page, numbered from 1, whose stripped text
      has at least `MinTextChars` characters. */
  predicate FromTextPages(chunks: seq<Chunk>, pages: seq<string>, upTo: nat) {
    forall k :: 0 <= k < |chunks| ==>
      1 <= chunks[k].page <= upTo && chunks[k].page <= |pages| && |Strip(pages[chunks[k].page - 1])| >= MinTextChars
  }

  /** A page without text adds no chunk, and the bound moves past it. */
  lemma FromTextPagesGrow(chunks: seq<Chunk>, pages: seq<string>, p: nat)
    requires FromTextPages(chunks, pages, p)
    ensures FromTextPages(chunks, pages, p + 1)
  {
  }

  /** Appending the chunks of page `p + 1` after those of earlier pages
      keeps the page order and the page bounds. */
  lemma AppendPage(chunks: seq<Chunk>, more: seq<Chunk>, pages: seq<string>, p: nat)
    requires p < |pages|
    requires PagesNonDecreasing(chunks) && FromTextPages(chunks, pages, p)
    requires forall k :: 0 <= k < |more| ==> more[k].page == p + 1
    requires more != [] ==> |Strip(pages[p])| >= MinTextChars
    ensures PagesNonDecreasing(chunks + more) && FromTextPages(chunks + more, pages, p + 1)
  {
    var all := chunks + more;
    forall k | 0 <= k < |all|
      ensures all[k] == if k < |chunks| then chunks[k] else more[k - |chunks|]
    {
    }
  }

  /** The chunks the page loop of `extract_text_from_pdf` contributes for
      one page, numbered `page`: a page whose stripped text is empty is
      skipped, any other is chunked. */
  function PageContribution(text: string, page: int): seq<Chunk> {
    if |Strip(text)| > 0 then PageChunks(text, page) else []
  }

  /** The chunks of a document, given what the per-page chunker `chunk`
      yields for a page's text and number: the chunks of each page in page
      order, pages numbered from 1. */
  function ChunksOfPages(pages: seq<string>, chunk: (string, int) -> seq<Chunk>): seq<Chunk>
  {
    if |pages| == 0 then []
    else ChunksOfPages(pages[..|pages| - 1], chunk) + chunk(pages[|pages| - 1], |pages|)
  }

  /** The chunks `extract_text_from_pdf` collects from a document's pages. */
  function DocumentChunks(pages: seq<string>): seq<Chunk> {
    ChunksOfPages(pages, PageContribution)
  }

  /** A document none of whose pages has `MinTextChars` characters of text
      has no chunk. */
  lemma {:induction false} ShortPagesNoChunks(pages: seq<string>)
    requires forall p :: 0 <= p < |pages| ==> |Strip(pages[p])| < MinTextChars
    ensures DocumentChunks(pages) == []
  {
    if |pages| > 0 {
      ShortPagesNoChunks(pages[..|pages| - 1]);
      assert PageContribution(pages[|pages| - 1], |pages|) == [];
    }
  }

  /** One more page appends that page's chunks. */
  lemma DocumentChunksStep(pages: seq<string>, p: nat)
    requires p < |pages|
    ensures DocumentChunks(pages[..p + 1]) == DocumentChunks(pages[..p]) + PageContribution(pages[p], p + 1)
  {
    assert pages[..p + 1][..p] == pages[..p];
  }

  /** A per-page chunker that tags every chunk with the page's number and
      yields nothing for a page with fewer than `MinTextChars` characters of
      text. */
  ghost predicate TagsTextPages(chunk: (string, int) -> seq<Chunk>) {
    && (forall t, p, k :: 0 <= k < |chunk(t, p)| ==> chunk(t, p)[k].page == p)
    && (forall t, p :: chunk(t, p) != [] ==> |Strip(t)| >= MinTextChars)
  }

  /** The page loop's chunker is such a chunker. */
  lemma ContributionTagsTextPages()
    ensures TagsTextPages(PageContribution)
  {
    forall t, p
      ensures (forall k :: 0 <= k < |PageContribution(t, p)| ==> PageContribution(t, p)[k].page == p)
      ensures PageContribution(t, p) != [] ==> |Strip(t)| >= MinTextChars
    {
    }
  }

  /** With such a chunker, the chunks of the first `n` pages are in page
      order, and each comes from one of those pages whose text has at least
      `MinTextChars` characters. */
  lemma {:induction false} ChunksOfPagesWell(pages: seq<string>, chunk: (string, int) -> seq<Chunk>, n: nat)
    requires n <= |pages| && TagsTextPages(chunk)
    ensures PagesNonDecreasing(ChunksOfPages(pages[..n], chunk))
    ensures FromTextPages(ChunksOfPages(pages[..n], chunk), pages, n)
  {
    if n > 0 {
      ChunksOfPagesWell(pages, chunk, n - 1);
      assert pages[..n][..n - 1] == pages[..n - 1];
      AppendPage(ChunksOfPages(pages[..n - 1], chunk), chunk(pages[n - 1], n), pages, n - 1);
    }
  }

  /** The chunks of a document are in page order, and each comes from a page
      whose text has at least `MinTextChars` characters. */
  lemma DocumentChunksWell(pages: seq<string>)
    ensures PagesNonDecreasing(DocumentChunks(pages))
    ensures FromTextPages(DocumentChunks(pages), pages, |pages|)
  {
    ContributionTagsTextPages();
    ChunksOfPagesWell(pages, PageContribution, |pages|);
    assert pages[..|pages|] == pages;
  }

  /** The call `smart_chunk_text(text, page_num + 1)` as the PDF driver sees
      it: the driver keeps only the chunks. */
  method ChunkPage(text: string, page: int) returns (chunks: seq<Chunk>)
    ensures chunks == PageChunks(text, page)
  {
    var groups;
    chunks, groups := SmartChunkText(text, page);
  }

  /** `extract_text_from_pdf` with the PDF given as its pages' texts: every
      page with text is chunked under its 1-based number, in page order; no
      chunk at all is an error. */
  method ExtractText(pages: seq<string>, title: Option<string>, author: Option<string>)
    returns (r: Result<Extraction, string>)
    ensures r.Failure? <==> DocumentChunks(pages) == []
    ensures r.Failure? ==> r.error == NoTextExtracted
    ensures (forall p :: 0 <= p < |pages| ==> |Strip(pages[p])| < MinTextChars) ==> r.Failure?
    ensures r.Success? ==>
      && r.value.chunks == DocumentChunks(pages)
      && r.value.metadata == PdfMetadata(|pages|, title.GetOr("Unknown"), author.GetOr("Unknown"))
      && PagesNonDecreasing(r.value.chunks)
      && FromTextPages(r.value.chunks, pages, |pages|)
  {
    var chunks := ChunkPages(pages);
    if forall p :: 0 <= p < |pages| ==> |Strip(pages[p])| < MinTextChars {
      ShortPagesNoChunks(pages);
    }
    if chunks == [] {
      return Failure(NoTextExtracted);
    }
    DocumentChunksWell(pages);
    var metadata := PdfMetadata(|pages|, title.GetOr("Unknown"), author.GetOr("Unknown"));
    r := Success(Extraction(chunks, metadata));
  }

  /** The page loop of `extract_text_from_pdf`: the chunks of every page with
      text, in page order. */
  method ChunkPages(pages: seq<string>) returns (chunks: seq<Chunk>)
    ensures chunks == DocumentChunks(pages)
  {
    chunks := [];
    var p := 0;
    while p < |pages|
      invariant 0 <= p <= |pages|
      invariant chunks == DocumentChunks(pages[..p])
    {
      chunks := AddPage(chunks, pages, p);
      p := p + 1;
    }
    assert pages[..p] == pages;
  }

  /** One iteration of the page loop: page `p + 1`'s chunks, when its text
      is not blank, appended to those of the pages before it. */
  method AddPage(before: seq<Chunk>, pages: seq<string>, p: nat) returns (chunks: seq<Chunk>)
    requires p < |pages| && before == DocumentChunks(pages[..p])
    ensures chunks == DocumentChunks(pages[..p + 1])
  {
    DocumentChunksStep(pages, p);
    chunks := before;
    if |Strip(pages[p])| > 0 {
      var pageChunks := ChunkPage(pages[p], p + 1);
      chunks := chunks + pageChunks;
    }
  }
}

=== FILE: citations.dfy ===
/** The post-generation half of `generate_summary_with_citations`: the
    `[Page N]` markers of the generated text are collected
    (`re.findall(r'\[Page (\d+)\]', summary)`), their values are sorted and
    de-duplicated, sentences and words are counted, and a confidence score
    is derived from citation density, page coverage and length.

    Ratios are exact reals; the `round(..., 2)` of the reported values is
    not modelled.
 */
module Citations {
  import opened Wrappers
  import opened Text
  import opened Chunker

  /** The literal text in front of a page number in a citation marker. */
  const MarkerOpen := "[Page "

  /** The citation marker for page `p`, as the prompt asks the model to
      write it. */
  function Marker(p: nat): string {
    MarkerOpen + Decimal(p) + "]"
  }

  // ---------------------------------------------------------------------------
  // re.findall(r'\[Page (\d+)\]', s)

  /** The digit strings of all `[Page N]` markers of `s`, left to right and
      without overlap. `\d+` is greedy and cannot take the closing `]`, so a
      marker is the opening text, the maximal digit run (at least one digit)
      and a `]` right after it. */
  function PageCitations(s: string): (ds: seq<string>)
    ensures forall k :: 0 <= k < |ds| ==> |ds[k]| > 0 && AllDigits(ds[k])
    decreases |s|
  {
    if |s| == 0 then []
    else if StartsWith(s, MarkerOpen) && 0 < DigitRun(s[6..]) && 6 + DigitRun(s[6..]) < |s|
      && s[6 + DigitRun(s[6..])] == ']'
    then
      var n := DigitRun(s[6..]);
      assert s[6..6 + n] == s[6..][..n];
      [s[6..6 + n]] + PageCitations(s[7 + n..])
    else PageCitations(s[1..])
  }

  /** Python's `[int(p) for p in citations]`. */
  function Values(ds: seq<string>): (vs: seq<nat>)
    requires forall k :: 0 <= k < |ds| ==> AllDigits(ds[k])
    ensures |vs| == |ds|
  {
    seq(|ds|, k requires 0 <= k < |ds| => DigitsValue(ds[k]))
  }

  /** Text with no `[`: no marker can start in it. */
  predicate Prose(s: string) {
    forall i :: 0 <= i < |s| ==> s[i] != '['
  }

  /** Prose in front of the text adds no citation. */
  lemma {:induction false} SkipProse(prose: string, t: string)
    requires Prose(prose)
    ensures PageCitations(prose + t) == PageCitations(t)
    decreases |prose|
  {
    if |prose| > 0 {
      var s := prose + t;
      assert s[0] == prose[0];
      assert |s| >= 6 ==> s[..6][0] == s[0];
      assert PageCitations(s) == PageCitations(s[1..]);
      assert s[1..] == prose[1..] + t;
      assert Prose(prose[1..]) by {
        forall i | 0 <= i < |prose| - 1
          ensures prose[1..][i] != '['
        {
          assert prose[1..][i] == prose[i + 1];
        }
      }
      SkipProse(prose[1..], t);
    } else {
      assert prose + t == t;
    }
  }

  /** A marker in front of the text adds its page's digits. */
  lemma ReadMarker(p: nat, t: string)
    ensures PageCitations(Marker(p) + t) == [Decimal(p)] + PageCitations(t)
  {
    var d := Decimal(p);
    var s := Marker(p) + t;
    assert s == MarkerOpen + (d + ("]" + t));
    assert s[..6] == MarkerOpen;
    var after := s[6..];
    assert after == d + ("]" + t);
    DigitRunIs(after, |d|);
    assert s[6 + |d|] == ']';
    assert s[6..6 + |d|] == d;
    assert s[7 + |d|..] == t;
  }

  /** A text made of prose pieces, each followed by the marker of a page. */
  function Cited(prose: seq<string>, pages: seq<nat>): string
    requires |prose| == |pages|
  {
    if |pages| == 0 then ""
    else prose[0] + Marker(pages[0]) + Cited(prose[1..], pages[1..])
  }

  lemma Regroup(a: string, b: string, c: string, t: string)
    ensures a + b + c == a + (b + c)
    ensures a + b + c + t == a + (b + (c + t))
  {
  }

  /** The values of one more digit string in front. */
  lemma ValuesCons(d: string, ds: seq<string>)
    requires AllDigits(d)
    requires forall k :: 0 <= k < |ds| ==> AllDigits(ds[k])
    ensures Values([d] + ds) == [DigitsValue(d)] + Values(ds)
  {
    var l := [d] + ds;
    assert forall k :: 0 < k < |l| ==> l[k] == ds[k - 1];
  }

  /** The citations of a cited text: its first page's digits, then those of
      the rest. */
  lemma CitedStep(prose: seq<string>, pages: seq<nat>)
    requires |prose| == |pages| && |pages| > 0
    requires Prose(prose[0])
    ensures PageCitations(Cited(prose, pages))
      == [Decimal(pages[0])] + PageCitations(Cited(prose[1..], pages[1..]))
  {
    var rest := Cited(prose[1..], pages[1..]);
    var head := prose[0];
    var marker := Marker(pages[0]);
    assert Cited(prose, pages) == head + marker + rest;
    Regroup(head, marker, rest, "");
    SkipProse(head, marker + rest);
    ReadMarker(pages[0], rest);
  }

  /** Reading the markers back from such a text gives exactly the pages
      written, in order: the parse inverts the rendering. */
  lemma {:induction false} CitedRoundTrip(prose: seq<string>, pages: seq<nat>)
    requires |prose| == |pages|
    requires forall k :: 0 <= k < |prose| ==> Prose(prose[k])
    ensures Values(PageCitations(Cited(prose, pages))) == pages
  {
    if |pages| > 0 {
      var rest := Cited(prose[1..], pages[1..]);
      CitedRoundTrip(prose[1..], pages[1..]);
      CitedStep(prose, pages);
      ValuesCons(Decimal(pages[0]), PageCitations(rest));
      assert pages == [pages[0]] + pages[1..];
    }
  }

  // ---------------------------------------------------------------------------
  // sorted(list(set(values)))

  predicate StrictlyIncreasing(xs: seq<nat>) {
    forall i, j :: 0 <= i < j < |xs| ==> xs[i] < xs[j]
  }

  /** The elements of a non-empty list are its head and its tail's. */
  lemma HeadTail(xs: seq<nat>)
    requires |xs| > 0
    ensures forall v :: v in xs <==> v == xs[0] || v in xs[1..]
  {
    assert xs == [xs[0]] + xs[1..];
  }

  /** The tail of a strictly increasing list lies above its head. */
  lemma TailAbove(xs: seq<nat>)
    requires |xs| > 0 && StrictlyIncreasing(xs)
    ensures forall v :: v in xs[1..] ==> xs[0] < v
  {
    forall v | v in xs[1..]
      ensures xs[0] < v
    {
      var i :| 0 <= i < |xs| - 1 && xs[1..][i] == v;
      assert xs[i + 1] == v;
    }
  }

  /** A value below every element of a strictly increasing list can go in
      front of it. */
  lemma ConsIncreasing(h: nat, t: seq<nat>)
    requires StrictlyIncreasing(t)
    requires forall v :: v in t ==> h < v
    ensures StrictlyIncreasing([h] + t)
  {
    var r := [h] + t;
    forall i, j | 0 <= i < j < |r|
      ensures r[i] < r[j]
    {
      assert r[j] == t[j - 1];
      assert t[j - 1] in t;
      if i > 0 {
        assert r[i] == t[i - 1];
      }
    }
  }

  /** `x` placed into a strictly increasing list, unless already there. */
  function Insert(xs: seq<nat>, x: nat): (r: seq<nat>)
    requires StrictlyIncreasing(xs)
    ensures StrictlyIncreasing(r)
    ensures forall v :: v in r <==> v in xs || v == x
    ensures |r| <= |xs| + 1
  {
    if |xs| == 0 then [x]
    else
      HeadTail(xs);
      TailAbove(xs);
      if x < xs[0] then
        ConsIncreasing(x, xs);
        [x] + xs
      else if x == xs[0] then xs
      else
        var rest := Insert(xs[1..], x);
        ConsIncreasing(xs[0], rest);
        HeadTail([xs[0]] + rest);
        assert ([xs[0]] + rest)[1..] == rest;
        [xs[0]] + rest
  }

  /** Python's `sorted(list(set(xs)))`: the distinct values of `xs` in
      increasing order. */
  function SortedDistinct(xs: seq<nat>): (r: seq<nat>)
    ensures StrictlyIncreasing(r)
    ensures forall v :: v in r <==> v in xs
    ensures |r| <= |xs|
  {
    if |xs| == 0 then []
    else
      var init := xs[..|xs| - 1];
      assert forall v :: v in xs <==> v in init || v == xs[|xs| - 1] by {
        assert xs == init + [xs[|xs| - 1]];
      }
      Insert(SortedDistinct(init), xs[|xs| - 1])
  }

  /** A strictly increasing list is determined by its elements, so
      `SortedDistinct` is the only list with the properties it promises. */
  lemma SameEmptiness(a: seq<nat>, b: seq<nat>)
    requires forall v :: v in a <==> v in b
    ensures |a| == 0 <==> |b| == 0
  {
    if |a| > 0 {
      assert a[0] in b;
    }
    if |b| > 0 {
      assert b[0] in a;
    }
  }

  /** Two strictly increasing lists with the same elements start alike. */
  lemma SameHead(a: seq<nat>, b: seq<nat>)
    requires StrictlyIncreasing(a) && StrictlyIncreasing(b)
    requires forall v :: v in a <==> v in b
    requires |a| > 0 && |b| > 0
    ensures a[0] == b[0]
  {
    assert a[0] in b && b[0] in a;
    var i :| 0 <= i < |b| && b[i] == a[0];
    var j :| 0 <= j < |a| && a[j] == b[0];
    assert a[0] <= a[j];
    assert b[0] <= b[i];
  }

  lemma {:induction false} IncreasingUnique(a: seq<nat>, b: seq<nat>)
    requires StrictlyIncreasing(a) && StrictlyIncreasing(b)
    requires forall v :: v in a <==> v in b
    ensures a == b
  {
    SameEmptiness(a, b);
    if |a| > 0 {
      SameHead(a, b);
      HeadTail(a);
      HeadTail(b);
      TailAbove(a);
      TailAbove(b);
      assert forall v :: v in a[1..] <==> v in b[1..];
      IncreasingUnique(a[1..], b[1..]);
      assert a == [a[0]] + a[1..];
      assert b == [b[0]] + b[1..];
    }
  }

  // ---------------------------------------------------------------------------
  // The confidence score

  function MinReal(a: real, b: real): real {
    if a <= b then a else b
  }

  function MaxReal(a: real, b: real): real {
    if a >= b then a else b
  }

  /** The confidence formula: half for citation density (full at 0.4
      citations per sentence), three tenths for page coverage (full at four
      distinct pages), one fifth for length (full strictly between 80 and 800
      words, otherwise 0.7), clamped to [0.3, 1.0]. It reaches 1.0 exactly
      when all three parts are full, and is 0.3 when nothing is cited. */
  function ConfidenceScore(density: real, unique: nat, words: nat): (c: real)
    requires density >= 0.0
    ensures 0.3 <= c <= 1.0
    ensures c == 1.0 <==> density >= 0.4 && unique >= 4 && 80 < words < 800
    ensures density == 0.0 && unique == 0 ==> c == 0.3
  {
    var densityScore := MinReal(1.0, density / 0.4);
    var coverageScore := MinReal(1.0, unique as real / 4.0);
    var lengthScore := if 80 < words < 800 then 1.0 else 0.7;
    var confidence := densityScore * 0.5 + coverageScore * 0.3 + lengthScore * 0.2;
    MaxReal(0.3, MinReal(1.0, confidence))
  }

  // ---------------------------------------------------------------------------
  // generate_summary_with_citations

  /** The `metadata` of a summary result. */
  datatype SummaryMetadata = SummaryMetadata(
    wordCount: nat,
    citationCount: nat,
    uniqueCitations: nat,
    citationDensity: real)

  datatype SummaryResult = SummaryResult(
    summary: string,
    citedPages: seq<nat>,
    chunksUsed: nat,
    confidence: real,
    metadata: SummaryMetadata)

  /** The detail prefix of the 500 raised when generation fails (the
      exception text that follows it is not modelled). */
  const LlmError := "LLM error: "

  /** Citations per non-blank `'.'`-separated sentence, 0 without sentences. */
  function CitationDensity(citations: nat, sentences: nat): (d: real)
    ensures d >= 0.0
    ensures sentences == 0 || citations == 0 ==> d == 0.0
  {
    if sentences > 0 then citations as real / sentences as real else 0.0
  }

  /** `generate_summary_with_citations(chunks, query)` after the prompt has
      been answered: the answer's citations are parsed and scored. The
      prompt (and with it the query) only shapes the answer, which is an
      input here; a failed call becomes a 500. */
  function GenerateSummary(chunks: seq<Chunk>, reply: Reply): (r: Result<SummaryResult, HttpError>)
    ensures r.Failure? <==> reply.CallFailed?
    ensures r.Failure? ==> r.error == HttpError(500, LlmError)
    ensures r.Success? ==>
      var s := r.value;
      var citations := PageCitations(reply.text);
      && s.summary == reply.text
      && s.chunksUsed == |chunks|
      && StrictlyIncreasing(s.citedPages)
      && (forall v :: v in s.citedPages <==> v in Values(citations))
      && s.metadata.citationCount == |citations|
      && s.metadata.uniqueCitations == |s.citedPages| <= s.metadata.citationCount
      && s.metadata.wordCount == |Words(reply.text)|
      && 0.3 <= s.confidence <= 1.0
      && (citations == [] ==> s.confidence == 0.3 && s.citedPages == [])
  {
    match reply
    case CallFailed => Failure(HttpError(500, LlmError))
    case Answer(summary) =>
      var citations := PageCitations(summary);
      var uniquePages := SortedDistinct(Values(citations));
      var sentences := SentenceCount(summary);
      var wordCount := |Words(summary)|;
      var density := CitationDensity(|citations|, sentences);
      SameEmptiness(uniquePages, Values(citations));
      var confidence := ConfidenceScore(density, |uniquePages|, wordCount);
      Success(SummaryResult(summary, uniquePages, |chunks|, confidence,
        SummaryMetadata(wordCount, |citations|, |uniquePages|, density)))
  }

  /** The cited pages are exactly `sorted(set(...))` of the parsed values:
      any strictly increasing list of the same values is that list. */
  lemma CitedPagesAreSortedSet(chunks: seq<Chunk>, summary: string, pages: seq<nat>)
    requires StrictlyIncreasing(pages)
    requires forall v :: v in pages <==> v in Values(PageCitations(summary))
    ensures GenerateSummary(chunks, Answer(summary)).value.citedPages == pages
  {
    var r := GenerateSummary(chunks, Answer(summary));
    IncreasingUnique(r.value.citedPages, pages);
  }

  /** A summary that cites pages 3, 7, 3 and 12 reports pages [3, 7, 12]:
      duplicates collapse and the order is numeric. */
  lemma CitedPagesExample(chunks: seq<Chunk>, a: string, b: string, c: string, d: string)
    requires Prose(a) && Prose(b) && Prose(c) && Prose(d)
    ensures GenerateSummary(chunks, Answer(Cited([a, b, c, d], [3, 7, 3, 12]))).value.citedPages == [3, 7, 12]
  {
    CitedRoundTrip([a, b, c, d], [3, 7, 3, 12]);
    var vs := Values(PageCitations(Cited([a, b, c, d], [3, 7, 3, 12])));
    assert forall v :: v in vs <==> v == 3 || v == 7 || v == 12;
    CitedPagesAreSortedSet(chunks, Cited([a, b, c, d], [3, 7, 3, 12]), [3, 7, 12]);
  }
}

=== FILE: endpoints.dfy ===
/** The request handlers of the backend, with everything that crosses its
    boundary turned into values: the uploaded file arrives as its name, its
    size and its pages' texts; the generated collection id, the replies of
    the text-generation model and the chunks the vector store returns for a
    query are inputs; the registry is passed in and handed back.
 */
module Endpoints {
  import opened Wrappers
  import opened Text
  import opened Chunker
  import opened Citations
  import opened Quality
  import opened Sampling
  import opened Registry

  const MaxFileSize: nat := 50 * 1024 * 1024
  const MinFileSize: nat := 1000
  const MaxPapersCompare: nat := 5
  /** The registry key of an upload is this prefix and the upload's id. */
  const CollectionPrefix := "doc_"

  const OnlyPdf := "Only PDF files allowed"
  const FileTooLarge := "File too large. Max " + Decimal(MaxFileSize / (1024 * 1024)) + "MB"
  const FileTooSmall := "File too small or empty"
  const TooFewPapers := "Need at least 2 papers to compare"
  const TooManyPapers := "Maximum " + Decimal(MaxPapersCompare) + " papers allowed"
  const CollectionNotFound := "Collection not found"
  const NoContent := "No content found"
  const QuestionTooShort := "Question too short"

  /** The detail of a 500 raised from a `generate_summary_with_citations`
      failure that a handler catches as a plain exception and raises again:
      the caught exception's text, which is its status, a colon and its
      detail. */
  const RewrappedLlmError := "500: " + LlmError

  /** The text of an exception raised by the text-generation client itself,
      which is not modelled. */
  const CallFailedText := ""

  // ---------------------------------------------------------------------------
  // upload_pdf and upload_multiple_pdfs

  /** An uploaded file: its name, its size in bytes, and the PDF as its
      pages' texts and document metadata. */
  datatype PdfFile = PdfFile(
    filename: string,
    size: nat,
    pages: seq<string>,
    title: Option<string>,
    author: Option<string>)

  /** One upload with the values the outside world supplies while it is
      processed: the generated id and the reply to the quality prompt. */
  datatype Submission = Submission(file: PdfFile, fileId: string, qualityReply: Reply)

  datatype UploadResponse = UploadResponse(
    collectionId: string,
    totalChunks: nat,
    filename: string,
    metadata: PdfMetadata,
    quality: QualityReport)

  datatype Uploaded = Uploaded(registry: Registry, response: UploadResponse)

  /** The checks made before a file is processed, in the order the handler
      makes them. */
  function UploadCheck(filename: string, size: nat): (e: Option<HttpError>)
    ensures e.None? <==> EndsWith(filename, ".pdf") && MinFileSize <= size <= MaxFileSize
    ensures e.Some? ==> e.value.status == 400
    ensures !EndsWith(filename, ".pdf") ==> e == Some(HttpError(400, OnlyPdf))
    ensures EndsWith(filename, ".pdf") && size > MaxFileSize ==> e == Some(HttpError(400, FileTooLarge))
    ensures EndsWith(filename, ".pdf") && size <= MaxFileSize && size < MinFileSize ==>
      e == Some(HttpError(400, FileTooSmall))
  {
    if !EndsWith(filename, ".pdf") then Some(HttpError(400, OnlyPdf))
    else if size > MaxFileSize then Some(HttpError(400, FileTooLarge))
    else if size < MinFileSize then Some(HttpError(400, FileTooSmall))
    else None
  }

  /** The `metadata` dictionary of an uploaded file: its page count, and its
      title and author with "Unknown" for a missing one. */
  function MetadataOf(f: PdfFile): PdfMetadata {
    PdfMetadata(|f.pages|, f.title.GetOr("Unknown"), f.author.GetOr("Unknown"))
  }

  /** `upload_pdf` succeeds exactly for a file that passes the checks and
      whose text yields at least one chunk. */
  predicate Accepted(sub: Submission) {
    UploadCheck(sub.file.filename, sub.file.size).None? && DocumentChunks(sub.file.pages) != []
  }

  /** The error `upload_pdf` raises for a file it does not accept: the failed
      check's 400, or the extraction's 500. */
  function RejectionOf(sub: Submission): HttpError {
    var check := UploadCheck(sub.file.filename, sub.file.size);
    if check.Some? then check.value else HttpError(500, NoTextExtracted)
  }

  /** The registry key of an upload. */
  function KeyOf(sub: Submission): string {
    CollectionPrefix + sub.fileId
  }

  /** The entry `upload_pdf` stores: the file's name, its metadata, the
      chunks of its pages and the quality assessment of the reply. */
  function EntryOf(sub: Submission): Entry {
    Entry(sub.file.filename, MetadataOf(sub.file), DocumentChunks(sub.file.pages), Some(AnalyzeQuality(sub.qualityReply)))
  }

  /** The response body `upload_pdf` returns for an accepted file. */
  function ResponseOf(sub: Submission): UploadResponse {
    UploadResponse(KeyOf(sub), |DocumentChunks(sub.file.pages)|, sub.file.filename, MetadataOf(sub.file), AnalyzeQuality(sub.qualityReply))
  }

  /** `upload_pdf`: check the file, extract and chunk its text, score its
      quality and register it under `doc_<id>`. An extraction failure
      becomes a 500 carrying the extraction's message. */
  method Upload(reg: Registry, sub: Submission) returns (r: Result<Uploaded, HttpError>)
    ensures r.Failure? <==>
      UploadCheck(sub.file.filename, sub.file.size).Some? || DocumentChunks(sub.file.pages) == []
    ensures UploadCheck(sub.file.filename, sub.file.size).Some? ==>
      r == Failure(UploadCheck(sub.file.filename, sub.file.size).value)
    ensures r.Failure? && UploadCheck(sub.file.filename, sub.file.size).None? ==>
      r.error == HttpError(500, NoTextExtracted)
    ensures r.Success? ==>
      var key := CollectionPrefix + sub.fileId;
      var resp := r.value.response;
      var chunks := DocumentChunks(sub.file.pages);
      var metadata := PdfMetadata(|sub.file.pages|, sub.file.title.GetOr("Unknown"), sub.file.author.GetOr("Unknown"));
      && resp == UploadResponse(key, |chunks|, sub.file.filename, metadata, AnalyzeQuality(sub.qualityReply))
      && resp.totalChunks > 0
      && r.value.registry == Register(reg, key, Entry(sub.file.filename, metadata, chunks, Some(AnalyzeQuality(sub.qualityReply))))
      && PagesNonDecreasing(r.value.registry.entries[key].chunks)
    ensures r.Success? && reg.Valid() ==> r.value.registry.Valid()
  {
    var check := UploadCheck(sub.file.filename, sub.file.size);
    if check.Some? {
      return Failure(check.value);
    }
    var extraction := ExtractText(sub.file.pages, sub.file.title, sub.file.author);
    if extraction.Failure? {
      return Failure(HttpError(500, extraction.error));
    }
    var chunks := extraction.value.chunks;
    var metadata := extraction.value.metadata;
    var key := CollectionPrefix + sub.fileId;
    var quality := AnalyzeQuality(sub.qualityReply);
    var entry := Entry(sub.file.filename, metadata, chunks, Some(quality));
    var registry := Register(reg, key, entry);
    r := Success(Uploaded(registry, UploadResponse(key, |chunks|, sub.file.filename, metadata, quality)));
  }

  /** A file the batch upload could not process, with the error raised. */
  datatype UploadFailure = UploadFailure(filename: string, error: HttpError)

  datatype BatchUpload = BatchUpload(
    registry: Registry,
    uploaded: nat,
    failed: nat,
    results: seq<UploadResponse>,
    errors: seq<UploadFailure>)

  /** The response bodies of the accepted files of a batch, in order. */
  function AcceptedResponses(subs: seq<Submission>): seq<UploadResponse> {
    if |subs| == 0 then []
    else
      var last := subs[|subs| - 1];
      AcceptedResponses(subs[..|subs| - 1]) + (if Accepted(last) then [ResponseOf(last)] else [])
  }

  /** The files of a batch that were not accepted, in order, each with its
      error. */
  function Rejections(subs: seq<Submission>): seq<UploadFailure> {
    if |subs| == 0 then []
    else
      var last := subs[|subs| - 1];
      Rejections(subs[..|subs| - 1]) + (if Accepted(last) then [] else [UploadFailure(last.file.filename, RejectionOf(last))])
  }

  /** The registry after the accepted files of a batch were registered in
      order. */
  function RegisterAccepted(reg: Registry, subs: seq<Submission>): Registry {
    if |subs| == 0 then reg
    else
      var last := subs[|subs| - 1];
      var before := RegisterAccepted(reg, subs[..|subs| - 1]);
      if Accepted(last) then Register(before, KeyOf(last), EntryOf(last)) else before
  }

  /** Every file of a batch is either among the accepted ones or among the
      rejected ones. */
  lemma {:induction false} BatchPartition(subs: seq<Submission>)
    ensures |AcceptedResponses(subs)| + |Rejections(subs)| == |subs|
  {
    if |subs| > 0 {
      BatchPartition(subs[..|subs| - 1]);
    }
  }

  /** A batch of valid PDFs, each large enough and with text that yields a
      chunk, has no rejection. */
  lemma {:induction false} AllAcceptedNoRejections(subs: seq<Submission>)
    requires forall i :: 0 <= i < |subs| ==> Accepted(subs[i])
    ensures Rejections(subs) == [] && |AcceptedResponses(subs)| == |subs|
  {
    if |subs| > 0 {
      AllAcceptedNoRejections(subs[..|subs| - 1]);
    }
  }

  /** Registering the accepted files of a batch keeps every key already
      registered and the registry's validity, and registers the key of every
      accepted file. */
  lemma {:induction false} RegisterAcceptedKeeps(reg: Registry, subs: seq<Submission>)
    ensures forall k :: k in reg.entries ==> k in RegisterAccepted(reg, subs).entries
    ensures reg.Valid() ==> RegisterAccepted(reg, subs).Valid()
    ensures forall i :: 0 <= i < |AcceptedResponses(subs)| ==>
      AcceptedResponses(subs)[i].collectionId in RegisterAccepted(reg, subs).entries
  {
    if |subs| > 0 {
      var init, last := subs[..|subs| - 1], subs[|subs| - 1];
      RegisterAcceptedKeeps(reg, init);
      var before, after := RegisterAccepted(reg, init), RegisterAccepted(reg, subs);
      var rs := AcceptedResponses(subs);
      forall i | 0 <= i < |rs|
        ensures rs[i].collectionId in after.entries
      {
        if i < |AcceptedResponses(init)| {
          assert rs[i] == AcceptedResponses(init)[i];
        } else {
          assert rs[i] == ResponseOf(last);
        }
      }
    }
  }

  /** The batch state after one more file. */
  lemma BatchStep(reg: Registry, subs: seq<Submission>, i: nat)
    requires i < |subs|
    ensures AcceptedResponses(subs[..i + 1]) == AcceptedResponses(subs[..i]) + (if Accepted(subs[i]) then [ResponseOf(subs[i])] else [])
    ensures Rejections(subs[..i + 1]) == Rejections(subs[..i]) + (if Accepted(subs[i]) then [] else [UploadFailure(subs[i].file.filename, RejectionOf(subs[i]))])
    ensures RegisterAccepted(reg, subs[..i + 1]) ==
      if Accepted(subs[i]) then Register(RegisterAccepted(reg, subs[..i]), KeyOf(subs[i]), EntryOf(subs[i])) else RegisterAccepted(reg, subs[..i])
  {
    assert subs[..i + 1][..i] == subs[..i];
  }

  /** `upload_multiple_pdfs`: more than five files is a 400; otherwise each
      file is uploaded in turn and a failure is recorded without stopping
      the batch. */
  method UploadMultiple(reg: Registry, subs: seq<Submission>) returns (r: Result<BatchUpload, HttpError>)
    ensures r.Failure? <==> |subs| > MaxPapersCompare
    ensures r.Failure? ==> r.error == HttpError(400, TooManyPapers)
    ensures r.Success? ==>
      var b := r.value;
      && b.results == AcceptedResponses(subs)
      && b.errors == Rejections(subs)
      && b.registry == RegisterAccepted(reg, subs)
      && b.uploaded == |b.results| && b.failed == |b.errors|
      && b.uploaded + b.failed == |subs|
      && (forall k :: k in reg.entries ==> k in b.registry.entries)
      && (forall i :: 0 <= i < |b.results| ==> b.results[i].collectionId in b.registry.entries)
      && (reg.Valid() ==> b.registry.Valid())
  {
    if |subs| > MaxPapersCompare {
      return Failure(HttpError(400, TooManyPapers));
    }
    var registry := reg;
    var results: seq<UploadResponse> := [];
    var errors: seq<UploadFailure> := [];
    var i := 0;
    while i < |subs|
      invariant 0 <= i <= |subs|
      invariant results == AcceptedResponses(subs[..i])
      invariant errors == Rejections(subs[..i])
      invariant registry == RegisterAccepted(reg, subs[..i])
    {
      BatchStep(reg, subs, i);
      var u := Upload(registry, subs[i]);
      match u {
        case Success(up) =>
          registry := up.registry;
          results := results + [up.response];
        case Failure(e) =>
          errors := errors + [UploadFailure(subs[i].file.filename, e)];
      }
      i := i + 1;
    }
    assert subs[..i] == subs;
    BatchPartition(subs);
    RegisterAcceptedKeeps(reg, subs);
    r := Success(BatchUpload(registry, |results|, |errors|, results, errors));
  }

  // ---------------------------------------------------------------------------
  // compare_papers

  datatype PaperSummary = PaperSummary(
    collectionId: string,
    filename: string,
    metadata: PdfMetadata,
    summary: string,
    qualityScore: real)

  datatype Comparison = Comparison(
    papers: seq<PaperSummary>,
    analysis: string,
    matrix: seq<seq<real>>,
    totalPapers: nat,
    comparisonType: string)

  /** `quality.get('overall_score', 75)` for a stored entry. */
  function QualityScore(e: Entry): real {
    match e.quality
    case Some(q) => q.overall
    case None => FallbackScore as real
  }

  /** The position of the first id the registry does not hold. */
  function FirstUnknown(entries: map<string, Entry>, ids: seq<string>, from: nat): (p: Option<nat>)
    decreases |ids| - from
    ensures p.Some? ==> from <= p.value < |ids| && ids[p.value] !in entries
    ensures p.Some? ==> forall k :: from <= k < p.value ==> ids[k] in entries
    ensures p.None? ==> forall k :: from <= k < |ids| ==> ids[k] in entries
  {
    if from >= |ids| then None
    else if ids[from] !in entries then Some(from)
    else FirstUnknown(entries, ids, from + 1)
  }

  /** One paper of `compare_papers`: sample its chunks, summarise the
      sample, and keep the summary with the paper's overall quality score.
      An empty collection or a failed summary stops the handler with a 500.
      Only the `summary` field of the summary result is used, which is the
      reply itself (`ComparedPaperSummary`). */
  function ComparedPaper(id: string, e: Entry, reply: Reply): (r: Result<PaperSummary, HttpError>)
    ensures r.Success? <==> e.chunks != [] && reply.Answer?
    ensures r.Failure? ==> r.error == HttpError(500, DivisionByZero) || r.error == HttpError(500, RewrappedLlmError)
    ensures r.Success? ==>
      && r.value.collectionId == id && r.value.filename == e.filename && r.value.qualityScore == QualityScore(e)
      && r.value.summary == reply.text
  {
    var sample := CompareSample(e.chunks);
    if sample.Failure? then Failure(HttpError(500, DivisionByZero))
    else if reply.CallFailed? then Failure(HttpError(500, RewrappedLlmError))
    else Success(PaperSummary(id, e.filename, e.metadata, reply.text, QualityScore(e)))
  }

  /** The summary kept for a compared paper is the `summary` that
      `generate_summary_with_citations` returns for the paper's sample, and
      the paper fails exactly when that call fails. */
  lemma ComparedPaperSummary(id: string, e: Entry, reply: Reply)
    requires e.chunks != []
    ensures var s := GenerateSummary(CompareSample(e.chunks).value, reply);
      && (ComparedPaper(id, e, reply).Failure? <==> s.Failure?)
      && (s.Success? ==> ComparedPaper(id, e, reply).value.summary == s.value.summary)
  {
  }

  /** The papers of `compare_papers` from position `i` on, the `k`-th
      summarised with the `k`-th reply; the first failure stops the
      handler. */
  function PaperSummaries(entries: map<string, Entry>, ids: seq<string>, replies: seq<Reply>, i: nat)
    : (r: Result<seq<PaperSummary>, HttpError>)
    requires i <= |ids|
    requires forall k :: 0 <= k < |ids| ==> ids[k] in entries
    decreases |ids| - i
    ensures r.Failure? ==> r.error == HttpError(500, DivisionByZero) || r.error == HttpError(500, RewrappedLlmError)
    ensures r.Success? ==>
      && |r.value| == |ids| - i
      && forall k :: 0 <= k < |r.value| ==>
        && r.value[k].collectionId == ids[i + k]
        && r.value[k].filename == entries[ids[i + k]].filename
        && r.value[k].qualityScore == QualityScore(entries[ids[i + k]])
        && ReplyAt(replies, i + k) == Answer(r.value[k].summary)
  {
    if i == |ids| then Success([])
    else
      var p := ComparedPaper(ids[i], entries[ids[i]], ReplyAt(replies, i));
      if p.Failure? then Failure(p.error)
      else
        var rest := PaperSummaries(entries, ids, replies, i + 1);
        if rest.Failure? then rest
        else
          var r := [p.value] + rest.value;
          assert forall k :: 0 < k < |r| ==> r[k] == rest.value[k - 1] && ids[i + k] == ids[i + 1 + (k - 1)];
          Success(r)
  }

  /** Whether paper `k` of a comparison can be summarised: its collection
      has chunks and the `k`-th summary call answers. */
  predicate Summarisable(entries: map<string, Entry>, ids: seq<string>, replies: seq<Reply>, k: nat) {
    k < |ids| && ids[k] in entries && entries[ids[k]].chunks != [] && ReplyAt(replies, k).Answer?
  }

  /** The per-paper part succeeds exactly when every paper from `i` on can
      be summarised. */
  lemma {:induction false} PaperSummariesSucceed(entries: map<string, Entry>, ids: seq<string>, replies: seq<Reply>, i: nat)
    requires i <= |ids|
    requires forall k :: 0 <= k < |ids| ==> ids[k] in entries
    decreases |ids| - i
    ensures PaperSummaries(entries, ids, replies, i).Success? <==>
      forall k :: i <= k < |ids| ==> Summarisable(entries, ids, replies, k)
  {
    if i < |ids| {
      PaperSummariesSucceed(entries, ids, replies, i + 1);
      var p := ComparedPaper(ids[i], entries[ids[i]], ReplyAt(replies, i));
      assert p.Success? <==> Summarisable(entries, ids, replies, i);
      assert PaperSummaries(entries, ids, replies, i).Success? <==>
        p.Success? && PaperSummaries(entries, ids, replies, i + 1).Success?;
      if PaperSummaries(entries, ids, replies, i).Success? {
        forall k | i <= k < |ids|
          ensures Summarisable(entries, ids, replies, k)
        {
          if k > i {
            assert i + 1 <= k;
          }
        }
      } else if p.Failure? {
        assert !Summarisable(entries, ids, replies, i);
      } else {
        var k :| i + 1 <= k < |ids| && !Summarisable(entries, ids, replies, k);
        assert !Summarisable(entries, ids, replies, k);
      }
    } else {
      assert PaperSummaries(entries, ids, replies, i) == Success([]);
    }
  }

  /** The similarity matrix of `compare_papers`: 100 on the diagonal and
      100 minus the distance of the two quality scores elsewhere. */
  function SimilarityMatrix(scores: seq<real>): (m: seq<seq<real>>)
    ensures |m| == |scores|
    ensures forall i :: 0 <= i < |m| ==> |m[i]| == |scores|
    ensures forall i, j :: 0 <= i < |m| && 0 <= j < |m| ==> m[i][j] == m[j][i]
    ensures forall i :: 0 <= i < |m| ==> m[i][i] == 100.0
    ensures forall i, j :: 0 <= i < |m| && 0 <= j < |m| ==> m[i][j] <= 100.0
    ensures forall i, j :: 0 <= i < |m| && 0 <= j < |m| && i != j ==>
      (m[i][j] == 100.0 <==> scores[i] == scores[j])
    ensures (forall i :: 0 <= i < |scores| ==> 0.0 <= scores[i] <= 100.0) ==>
      forall i, j :: 0 <= i < |m| && 0 <= j < |m| ==> 0.0 <= m[i][j]
  {
    seq(|scores|, i requires 0 <= i < |scores| =>
      seq(|scores|, j requires 0 <= j < |scores| =>
        if i == j then 100.0 else Similarity(scores[i], scores[j])))
  }

  /** The similarity of two different papers: 100 minus the distance of
      their quality scores. */
  function Similarity(a: real, b: real): (v: real)
    ensures v <= 100.0
    ensures v == 100.0 <==> a == b
    ensures 0.0 <= a <= 100.0 && 0.0 <= b <= 100.0 ==> 0.0 <= v
  {
    100.0 - Abs(a - b)
  }

  function Scores(papers: seq<PaperSummary>): (q: seq<real>)
    ensures |q| == |papers|
  {
    seq(|papers|, i requires 0 <= i < |papers| => papers[i].qualityScore)
  }

  /** The overall quality scores of the requested papers, in request
      order (75 for a paper without one). */
  function RequestedScores(entries: map<string, Entry>, ids: seq<string>): (q: seq<real>)
    requires forall k :: 0 <= k < |ids| ==> ids[k] in entries
    ensures |q| == |ids|
  {
    seq(|ids|, k requires 0 <= k < |ids| => QualityScore(entries[ids[k]]))
  }

  /** The request checks of `compare_papers`, in order: the number of ids
      (400), then the first id the registry does not hold (404). */
  function CompareCheck(entries: map<string, Entry>, ids: seq<string>): (e: Option<HttpError>)
    ensures e.None? <==> 2 <= |ids| <= MaxPapersCompare && forall k :: 0 <= k < |ids| ==> ids[k] in entries
    ensures e.Some? ==> e.value.status == 400 || e.value.status == 404
    ensures |ids| < 2 ==> e == Some(HttpError(400, TooFewPapers))
    ensures |ids| > MaxPapersCompare ==> e == Some(HttpError(400, TooManyPapers))
    ensures 2 <= |ids| <= MaxPapersCompare && FirstUnknown(entries, ids, 0).Some? ==>
      e == Some(HttpError(404, "Collection " + ids[FirstUnknown(entries, ids, 0).value] + " not found"))
  {
    if |ids| < 2 then Some(HttpError(400, TooFewPapers))
    else if |ids| > MaxPapersCompare then Some(HttpError(400, TooManyPapers))
    else
      var unknown := FirstUnknown(entries, ids, 0);
      if unknown.Some? then Some(HttpError(404, "Collection " + ids[unknown.value] + " not found"))
      else None
  }

  /** What `compare_papers` does once the request has passed its checks:
      summarise every paper, ask for the comparison, build the matrix. Any
      failure here is a 500. */
  function CompareChecked(entries: map<string, Entry>, ids: seq<string>, comparisonType: string,
                          replies: seq<Reply>, comparisonReply: Reply): (r: Result<Comparison, HttpError>)
    requires forall k :: 0 <= k < |ids| ==> ids[k] in entries
    ensures r.Failure? ==> r.error.status == 500
    ensures r.Success? <==>
      (forall k :: 0 <= k < |ids| ==> Summarisable(entries, ids, replies, k)) && comparisonReply.Answer?
    ensures r.Success? ==>
      var c := r.value;
      && |c.papers| == |ids| == c.totalPapers
      && (forall k :: 0 <= k < |ids| ==>
        && c.papers[k].collectionId == ids[k]
        && c.papers[k].filename == entries[ids[k]].filename
        && ReplyAt(replies, k) == Answer(c.papers[k].summary)
        && c.papers[k].qualityScore == QualityScore(entries[ids[k]]))
      && comparisonReply.Answer? && c.analysis == comparisonReply.text
      && c.comparisonType == comparisonType
      && c.matrix == SimilarityMatrix(RequestedScores(entries, ids))
  {
    PaperSummariesSucceed(entries, ids, replies, 0);
    var papers := PaperSummaries(entries, ids, replies, 0);
    if papers.Failure? then Failure(papers.error)
    else
      match comparisonReply
      case CallFailed => Failure(HttpError(500, CallFailedText))
      case Answer(analysis) =>
        var scores := Scores(papers.value);
        assert scores == RequestedScores(entries, ids);
        Success(Comparison(papers.value, analysis, SimilarityMatrix(scores), |papers.value|, comparisonType))
  }

  /** `compare_papers`: the id count is checked (400), then every id is
      looked up (404), and only then are the papers summarised and
      compared. `replies` answers the per-paper summary prompts in order;
      `comparisonReply` answers the comparison prompt. A 400 or 404 comes
      exactly from a request that fails the checks. */
  function ComparePapers(reg: Registry, ids: seq<string>, comparisonType: string,
                         replies: seq<Reply>, comparisonReply: Reply): (r: Result<Comparison, HttpError>)
    ensures r.Failure? ==> r.error.status == 400 || r.error.status == 404 || r.error.status == 500
    ensures (r.Failure? && r.error.status != 500) <==>
      (|ids| < 2 || |ids| > MaxPapersCompare || exists k :: 0 <= k < |ids| && ids[k] !in reg.entries)
    ensures r.Success? ==>
      && (forall k :: 0 <= k < |ids| ==> ids[k] in reg.entries)
      && |r.value.papers| == |ids|
      && r.value.matrix == SimilarityMatrix(RequestedScores(reg.entries, ids))
    ensures CompareCheck(reg.entries, ids).None? ==>
      (r.Success? <==>
        (forall k :: 0 <= k < |ids| ==> Summarisable(reg.entries, ids, replies, k)) && comparisonReply.Answer?)
    ensures r.Success? ==> forall k :: 0 <= k < |ids| ==>
      && r.value.papers[k].collectionId == ids[k]
      && r.value.papers[k].filename == reg.entries[ids[k]].filename
      && ReplyAt(replies, k) == Answer(r.value.papers[k].summary)
      && r.value.papers[k].qualityScore == QualityScore(reg.entries[ids[k]])
  {
    var check := CompareCheck(reg.entries, ids);
    if check.Some? then Failure(check.value)
    else CompareChecked(reg.entries, ids, comparisonType, replies, comparisonReply)
  }

  /** The checks of `compare_papers` come before any generation: a request
      they reject is rejected the same way whatever the model would have
      answered. */
  lemma CompareValidationIgnoresReplies(reg: Registry, ids: seq<string>, t: string,
                                        replies: seq<Reply>, reply: Reply, replies': seq<Reply>, reply': Reply)
    requires |ids| < 2 || |ids| > MaxPapersCompare || exists k :: 0 <= k < |ids| && ids[k] !in reg.entries
    ensures ComparePapers(reg, ids, t, replies, reply) == ComparePapers(reg, ids, t, replies', reply')
    ensures ComparePapers(reg, ids, t, replies, reply) == Failure(CompareCheck(reg.entries, ids).value)
  {
    assert CompareCheck(reg.entries, ids).Some?;
  }

  // ---------------------------------------------------------------------------
  // summarize_paper and query_paper

  /** `summarize_paper`: an unknown id is a 404 and an empty collection a
      500; otherwise the sampled chunks are summarised, and a failed
      summary's 500 passes through unchanged. */
  function SummarizePaper(reg: Registry, id: string, reply: Reply): (r: Result<SummaryResult, HttpError>)
    ensures id !in reg.entries ==> r == Failure(HttpError(404, CollectionNotFound))
    ensures id in reg.entries && reg.entries[id].chunks == [] ==> r == Failure(HttpError(500, NoContent))
    ensures id in reg.entries && reg.entries[id].chunks != [] ==>
      (r.Failure? <==> reply.CallFailed?) &&
      (r.Failure? ==> r.error == HttpError(500, LlmError))
    ensures r.Success? ==> r.value.chunksUsed == Min(10, |reg.entries[id].chunks|)
    ensures r.Success? ==>
      && reply == Answer(r.value.summary)
      && (forall v :: v in r.value.citedPages <==> v in Values(PageCitations(r.value.summary)))
    ensures id in reg.entries && reg.entries[id].chunks != [] && reply.Answer? ==>
      r == GenerateSummary(SummarizeSample(reg.entries[id].chunks), reply)
  {
    if id !in reg.entries then Failure(HttpError(404, CollectionNotFound))
    else
      var chunks := reg.entries[id].chunks;
      if |chunks| == 0 then Failure(HttpError(500, NoContent))
      else GenerateSummary(SummarizeSample(chunks), reply)
  }

  /** A chunk as `retrieve_relevant_chunks` returns it. */
  datatype Retrieved = Retrieved(text: string, page: int, relevance: real)

  /** The relevance of the `i`-th hit of a query: 1.0 for the first, 0.08
      less for each later one. */
  function RankRetrieved(hits: seq<Chunk>): (r: seq<Retrieved>)
    ensures |r| == |hits|
    ensures forall i :: 0 <= i < |r| ==> r[i].text == hits[i].text && r[i].page == hits[i].page
    ensures |r| > 0 ==> r[0].relevance == 1.0
    ensures forall i, j :: 0 <= i < j < |r| ==> r[j].relevance < r[i].relevance
    ensures forall i :: 0 <= i < |r| - 1 ==> r[i].relevance - r[i + 1].relevance == 0.08
    ensures |hits| <= 8 ==> forall i :: 0 <= i < |r| ==> r[i].relevance >= 0.44
  {
    seq(|hits|, i requires 0 <= i < |hits| => Retrieved(hits[i].text, hits[i].page, 1.0 - i as real * 0.08))
  }

  /** `query_paper`: an unknown id is a 404; a question shorter than ten
      characters once stripped is a 400; otherwise the hits the vector store
      returned (at most eight) are answered from. A failed answer is caught
      as a plain exception and raised again as a 500. */
  function QueryPaper(reg: Registry, id: string, question: string, hits: seq<Chunk>, reply: Reply)
    : (r: Result<SummaryResult, HttpError>)
    ensures id !in reg.entries ==> r == Failure(HttpError(404, CollectionNotFound))
    ensures id in reg.entries && |Strip(question)| < 10 ==> r == Failure(HttpError(400, QuestionTooShort))
    ensures id in reg.entries && |Strip(question)| >= 10 ==>
      (r.Failure? <==> reply.CallFailed?) &&
      (r.Failure? ==> r.error == HttpError(500, RewrappedLlmError))
    ensures r.Success? ==> r.value.chunksUsed == |hits|
    ensures r.Success? ==>
      && reply == Answer(r.value.summary)
      && (forall v :: v in r.value.citedPages <==> v in Values(PageCitations(r.value.summary)))
    ensures id in reg.entries && |Strip(question)| >= 10 && reply.Answer? ==> r == GenerateSummary(hits, reply)
  {
    if id !in reg.entries then Failure(HttpError(404, CollectionNotFound))
    else
      var q := Strip(question);
      if |q| < 10 then Failure(HttpError(400, QuestionTooShort))
      else
        var ranked := RankRetrieved(hits);
        var chunks := seq(|ranked|, i requires 0 <= i < |ranked| => Chunk(ranked[i].text, ranked[i].page));
        assert chunks == hits;
        var s := GenerateSummary(chunks, reply);
        if s.Failure? then Failure(HttpError(500, RewrappedLlmError)) else s
  }

  // ---------------------------------------------------------------------------
  // list_collections and delete_collection

  datatype CollectionInfo = CollectionInfo(
    id: string,
    filename: string,
    totalChunks: nat,
    metadata: PdfMetadata,
    quality: Option<QualityReport>)

  datatype Listing = Listing(collections: seq<CollectionInfo>, total: nat)

  /** `list_collections`: one line per registered paper, in registration
      order, and their number. */
  function ListCollections(reg: Registry): (l: Listing)
    requires reg.Valid()
    ensures l.total == |l.collections| == |reg.entries|
    ensures forall i :: 0 <= i < |l.collections| ==>
      var c := l.collections[i];
      && c.id in reg.entries
      && c.filename == reg.entries[c.id].filename
      && c.totalChunks == |reg.entries[c.id].chunks|
    ensures forall k :: k in reg.entries ==> exists i :: 0 <= i < |l.collections| && l.collections[i].id == k
  {
    ValidCount(reg);
    var cs := Infos(reg.entries, reg.order);
    assert forall k :: k in reg.entries ==> k in reg.order;
    Listing(cs, |cs|)
  }

  /** The listing lines of the given keys, in their order. */
  function Infos(entries: map<string, Entry>, order: seq<string>): (cs: seq<CollectionInfo>)
    requires forall i :: 0 <= i < |order| ==> order[i] in entries
    ensures |cs| == |order|
    ensures forall i :: 0 <= i < |order| ==>
      cs[i] == CollectionInfo(order[i], entries[order[i]].filename, |entries[order[i]].chunks|,
                              entries[order[i]].metadata, entries[order[i]].quality)
  {
    seq(|order|, i requires 0 <= i < |order| =>
      var e := entries[order[i]];
      CollectionInfo(order[i], e.filename, |e.chunks|, e.metadata, e.quality))
  }

  /** `delete_collection`: an unknown id is a 404, otherwise the entry is
      removed. */
  function DeleteCollection(reg: Registry, id: string): (r: Result<Registry, HttpError>)
    ensures r.Failure? <==> id !in reg.entries
    ensures r.Failure? ==> r.error == HttpError(404, CollectionNotFound)
    ensures r.Success? ==> r.value.entries == reg.entries - {id}
    ensures r.Success? && reg.Valid() ==> r.value.Valid() && |r.value.entries| == |reg.entries| - 1
  {
    if id !in reg.entries then Failure(HttpError(404, CollectionNotFound))
    else Success(Remove(reg, id))
  }

  /** Deleting a paper right after uploading it under a fresh id leaves the
      registry as it was. */
  method UploadThenDelete(reg: Registry, sub: Submission) returns (after: Result<Registry, HttpError>)
    requires reg.Valid() && CollectionPrefix + sub.fileId !in reg.entries
    ensures after.Failure? <==> !Accepted(sub)
    ensures UploadCheck(sub.file.filename, sub.file.size).Some? ==> after.Failure?
    ensures after.Success? ==> after.value == reg
  {
    var u := Upload(reg, sub);
    if u.Failure? {
      return Failure(u.error);
    }
    var key := CollectionPrefix + sub.fileId;
    RemoveUndoesRegister(reg, key, u.value.registry.entries[key]);
    after := DeleteCollection(u.value.registry, key);
  }
}

=== FILE: evaluator.dfy ===
/** The offline `Evaluator`: citation metrics, summary word and sentence
    metrics, retrieval precision and recall over page lists, an append-only
    list of test results and the pass tally of its report.

    Ratios are exact reals; the report's `:.1f`/`:.2f` formatting and its
    per-test text are not modelled.
 */
module Evaluator {
  import opened Wrappers
  import opened Text
  import opened Chunker
  import opened Citations

  // ---------------------------------------------------------------------------
  // Counting and collecting

  /** `sum(1 for x in xs if x in ys)`: how many entries of `xs` (with their
      repetitions) occur in `ys`. */
  function CountIn<T(==)>(xs: seq<T>, ys: seq<T>): (c: nat)
    ensures c <= |xs|
    ensures c == |xs| <==> forall i :: 0 <= i < |xs| ==> xs[i] in ys
    ensures c == 0 <==> forall i :: 0 <= i < |xs| ==> xs[i] !in ys
  {
    if |xs| == 0 then 0
    else
      var rest := CountIn(xs[1..], ys);
      assert forall i :: 1 <= i < |xs| ==> xs[i] == xs[1..][i - 1];
      (if xs[0] in ys then 1 else 0) + rest
  }

  /** The positions of `xs` from `k` on whose entry occurs in `ys`. */
  function FoundFrom<T(==)>(xs: seq<T>, ys: seq<T>, k: nat): set<int> {
    set i | k <= i < |xs| && xs[i] in ys
  }

  /** The count is the number of positions whose entry is found. */
  lemma CountInFound<T>(xs: seq<T>, ys: seq<T>)
    ensures CountIn(xs, ys) == |FoundFrom(xs, ys, 0)|
  {
    CountInFrom(xs, ys, 0);
    assert xs[0..] == xs;
  }

  /** Counting the suffix from `k` counts the found positions from `k`. */
  lemma {:induction false} CountInFrom<T>(xs: seq<T>, ys: seq<T>, k: nat)
    requires k <= |xs|
    ensures CountIn(xs[k..], ys) == |FoundFrom(xs, ys, k)|
    decreases |xs| - k
  {
    if k == |xs| {
      assert FoundFrom(xs, ys, k) == {};
    } else {
      CountInFrom(xs, ys, k + 1);
      assert xs[k..][1..] == xs[k + 1..];
      var here: set<int> := if xs[k] in ys then {k} else {};
      assert FoundFrom(xs, ys, k) == here + FoundFrom(xs, ys, k + 1);
      assert k !in FoundFrom(xs, ys, k + 1);
    }
  }

  /** The members of a list as a set (`set(xs)`). */
  function Members<T>(xs: seq<T>): set<T> {
    set x | x in xs
  }

  /** A list has at least as many entries as members, and a non-empty list
      has at least one member. */
  lemma {:induction false} MembersCard<T>(xs: seq<T>)
    ensures |Members(xs)| <= |xs|
    ensures |xs| > 0 ==> |Members(xs)| > 0
  {
    if |xs| > 0 {
      MembersCard(xs[1..]);
      assert Members(xs) == {xs[0]} + Members(xs[1..]) by {
        assert xs == [xs[0]] + xs[1..];
      }
      assert xs[0] in Members(xs);
    }
  }

  /** A subset has at most as many members as its superset. */
  lemma SubsetCard<T>(a: set<T>, b: set<T>)
    requires a <= b
    ensures |a| <= |b|
    decreases a
  {
    if a != {} {
      var x :| x in a;
      SubsetCard(a - {x}, b - {x});
    }
  }

  /** A subset as large as its superset is the superset. */
  lemma SubsetCardEq<T>(a: set<T>, b: set<T>)
    requires a <= b && |a| == |b|
    ensures a == b
  {
    if a != b {
      var y :| y in b && y !in a;
      SubsetCard(a, b - {y});
    }
  }

  /** A quotient of non-negative reals over a positive divisor is
      non-negative, and at most one when the dividend is at most the
      divisor. */
  lemma DivBounds(x: real, y: real)
    requires y > 0.0 && x >= 0.0
    ensures x / y >= 0.0
    ensures x <= y ==> x / y <= 1.0
    ensures x / y == 1.0 <==> x == y
    ensures x / y == 0.0 <==> x == 0.0
  {
    var q := x / y;
    assert q * y == x;
  }

  lemma NonNegProduct(p: real, r: real)
    requires p >= 0.0 && r >= 0.0
    ensures p * r >= 0.0
  {
  }

  /** Twice the product of two fractions is at most their sum. */
  lemma ProductAtMostSum(p: real, r: real)
    requires 0.0 <= p <= 1.0 && 0.0 <= r <= 1.0
    ensures 2.0 * (p * r) <= p + r
  {
    NonNegProduct(p, 1.0 - r);
    NonNegProduct(1.0 - p, r);
    assert p * (1.0 - r) == p - p * r;
    assert (1.0 - p) * r == r - p * r;
  }

  /** `q * n`: a ratio scaled back by a count. */
  function Times(q: real, n: nat): real {
    q * (n as real)
  }

  /** `a / b` for counts, with `b` positive. */
  function Ratio(a: nat, b: nat): (q: real)
    requires b > 0
    ensures q >= 0.0
    ensures a <= b ==> q <= 1.0
    ensures q == 1.0 <==> a == b
    ensures q == 0.0 <==> a == 0
    ensures Times(q, b) == a as real
  {
    DivBounds(a as real, b as real);
    a as real / b as real
  }

  // ---------------------------------------------------------------------------
  // evaluate_citations

  datatype CitationMetrics = CitationMetrics(
    hasCitations: bool,
    totalCitations: nat,
    uniqueCitations: nat,
    accuracy: real,
    density: real,
    citedPages: seq<nat>)

  /** The fraction of cited occurrences that are expected pages; 0 when
      nothing is expected or nothing is cited. */
  function CitationAccuracy(cited: seq<int>, expected: seq<int>): (a: real)
    ensures 0.0 <= a <= 1.0
    ensures |expected| == 0 || |cited| == 0 ==> a == 0.0
    ensures |expected| > 0 && |cited| > 0 ==> Times(a, |cited|) == CountIn(cited, expected) as real
    ensures |expected| > 0 && |cited| > 0 ==>
      && (a == 1.0 <==> forall i :: 0 <= i < |cited| ==> cited[i] in expected)
      && (a == 0.0 <==> forall i :: 0 <= i < |cited| ==> cited[i] !in expected)
  {
    if |expected| > 0 && |cited| > 0 then
      var correct := CountIn(cited, expected);
      Ratio(correct, |cited|)
    else 0.0
  }

  /** `evaluate_citations(summary, expected_pages)`. */
  function EvaluateCitations(summary: string, expected: seq<int>): (m: CitationMetrics)
    ensures m.totalCitations == |PageCitations(summary)|
    ensures m.hasCitations <==> m.totalCitations > 0
    ensures StrictlyIncreasing(m.citedPages)
    ensures forall v :: v in m.citedPages <==> v in Values(PageCitations(summary))
    ensures m.uniqueCitations == |m.citedPages| <= m.totalCitations
    ensures 0.0 <= m.accuracy <= 1.0
    ensures |expected| == 0 || m.totalCitations == 0 ==> m.accuracy == 0.0
    ensures |expected| > 0 && m.totalCitations > 0 ==>
      Times(m.accuracy, m.totalCitations) == CountIn(Values(PageCitations(summary)), expected) as real
    ensures m.density >= 0.0
    ensures SentenceCount(summary) == 0 ==> m.density == 0.0
  {
    var cited := Values(PageCitations(summary));
    var pages := SortedDistinct(cited);
    CitationMetrics(
      |cited| > 0,
      |cited|,
      |pages|,
      CitationAccuracy(cited, expected),
      CitationDensity(|cited|, SentenceCount(summary)),
      pages)
  }


  /** Accuracy is full exactly when every cited occurrence is an expected
      page, and zero exactly when none is. */
  lemma AccuracyIff(summary: string, expected: seq<int>)
    requires |expected| > 0 && |PageCitations(summary)| > 0
    ensures var cited := Values(PageCitations(summary));
      && (EvaluateCitations(summary, expected).accuracy == 1.0 <==> forall v :: v in cited ==> v in expected)
      && (EvaluateCitations(summary, expected).accuracy == 0.0 <==> forall v :: v in cited ==> v !in expected)
  {
    var cited := Values(PageCitations(summary));
    var a := EvaluateCitations(summary, expected).accuracy;
    assert a == CitationAccuracy(cited, expected);
    if forall i :: 0 <= i < |cited| ==> cited[i] in expected {
      forall v | v in cited
        ensures v in expected
      {
        var i :| 0 <= i < |cited| && cited[i] == v;
      }
    }
    if forall i :: 0 <= i < |cited| ==> cited[i] !in expected {
      forall v | v in cited
        ensures v !in expected
      {
        var i :| 0 <= i < |cited| && cited[i] == v;
      }
    }
  }

  /** The cited pages are `sorted(set(...))` of the cited values: any
      strictly increasing list of exactly those values is that list. */
  lemma CitedPagesOf(summary: string, expected: seq<int>, pages: seq<nat>)
    requires StrictlyIncreasing(pages)
    requires forall v :: v in pages <==> v in Values(PageCitations(summary))
    ensures EvaluateCitations(summary, expected).citedPages == pages
  {
    IncreasingUnique(EvaluateCitations(summary, expected).citedPages, pages);
  }

  /** Markers after the last one in a text count after it: rendering a
      cited text and then anything more reads back both parts. */
  lemma {:induction false} CitedThen(prose: seq<string>, pages: seq<nat>, t: string)
    requires |prose| == |pages|
    requires forall k :: 0 <= k < |prose| ==> Prose(prose[k])
    ensures PageCitations(Cited(prose, pages) + t) == PageCitations(Cited(prose, pages)) + PageCitations(t)
  {
    if |pages| > 0 {
      var rest := Cited(prose[1..], pages[1..]);
      var head := prose[0];
      var marker := Marker(pages[0]);
      CitedThen(prose[1..], pages[1..], t);
      assert Cited(prose, pages) == head + marker + rest;
      Regroup(head, marker, rest, t);
      SkipProse(head, marker + (rest + t));
      SkipProse(head, marker + rest);
      ReadMarker(pages[0], rest + t);
      ReadMarker(pages[0], rest);
      var d := [Decimal(pages[0])];
      assert PageCitations(Cited(prose, pages) + t) == d + PageCitations(rest + t);
      assert PageCitations(Cited(prose, pages)) == d + PageCitations(rest);
      SeqAssoc(d, PageCitations(rest), PageCitations(t));
    } else {
      assert Cited(prose, pages) + t == t;
    }
  }

  /** The first example of the evaluation script has this shape: three
      bracket-free sentences, each closed by the marker of page 3, 7 and 12,
      and bracket-free text after the last marker. Checked against those
      same pages it reports the three pages and full accuracy. */
  lemma ThreePageExample(a: string, b: string, c: string, tail: string)
    requires Prose(a) && Prose(b) && Prose(c) && Prose(tail)
    ensures var m := EvaluateCitations(Cited([a, b, c], [3, 7, 12]) + tail, [3, 7, 12]);
      && m.hasCitations && m.totalCitations == 3
      && m.citedPages == [3, 7, 12]
      && m.accuracy == 1.0
  {
    var s := Cited([a, b, c], [3, 7, 12]) + tail;
    CitedThen([a, b, c], [3, 7, 12], tail);
    SkipProse(tail, "");
    assert tail + "" == tail;
    CitedRoundTrip([a, b, c], [3, 7, 12]);
    assert PageCitations(s) == PageCitations(Cited([a, b, c], [3, 7, 12]));
    var cited := Values(PageCitations(s));
    assert cited == [3, 7, 12];
    CitedPagesOf(s, [3, 7, 12], [3, 7, 12]);
    AccuracyIff(s, [3, 7, 12]);
  }

  // ---------------------------------------------------------------------------
  // evaluate_summary_quality

  /** The words whose presence in the lower-cased summary marks it as
      structured. */
  const StructureKeywords: seq<string> :=
    ["objective", "method", "result", "conclusion", "finding", "approach", "study", "research"]

  /** `any(kw in text for kw in keywords)`. */
  function AnyContained(text: string, keywords: seq<string>): (b: bool)
    ensures b <==> exists k :: 0 <= k < |keywords| && Contains(text, keywords[k])
  {
    if |keywords| == 0 then false
    else
      assert forall k :: 1 <= k < |keywords| ==> keywords[k] == keywords[1..][k - 1];
      Contains(text, keywords[0]) || AnyContained(text, keywords[1..])
  }

  datatype Overlap = Overlap(wordOverlap: nat, coverage: real)

  datatype QualityMetrics = QualityMetrics(
    wordCount: nat,
    sentenceCount: nat,
    avgSentenceLength: real,
    hasStructure: bool,
    overlap: Option<Overlap>)

  /** `set(s.lower().split())`. */
  function WordSet(s: string): set<string> {
    Members(Words(Lower(s)))
  }

  /** The share of the reference's distinct words that the summary also
      uses; 0 for a reference without words. */
  function WordOverlap(summary: set<string>, reference: set<string>): (o: Overlap)
    ensures o.wordOverlap <= |reference| && o.wordOverlap <= |summary|
    ensures 0.0 <= o.coverage <= 1.0
    ensures |reference| == 0 ==> o.coverage == 0.0
    ensures |reference| > 0 ==> (o.coverage == 1.0 <==> reference <= summary)
    ensures o.coverage == 0.0 <==> o.wordOverlap == 0
    ensures o.wordOverlap == |summary * reference|
    ensures o.coverage == 0.0 <==> summary * reference == {}
    ensures |reference| > 0 ==> o.coverage * (|reference| as real) == |summary * reference| as real
  {
    var common := summary * reference;
    SubsetCard(common, reference);
    SubsetCard(common, summary);
    assert |common| == |reference| <==> reference <= summary by {
      if |common| == |reference| {
        SubsetCardEq(common, reference);
      }
      if reference <= summary {
        assert common == reference;
      }
    }
    var coverage := if |reference| > 0 then Ratio(|common|, |reference|) else 0.0;
    Overlap(|common|, coverage)
  }

  /** The `word_overlap` and `coverage` of a summary against a given
      reference: the distinct lower-cased words they share, and the share of
      the reference's distinct words that the summary uses. */
  function ReferenceOverlap(summary: string, reference: string): (o: Overlap)
    ensures var ref := WordSet(reference);
      var common := WordSet(summary) * ref;
      && o.wordOverlap == |common| <= |ref|
      && 0.0 <= o.coverage <= 1.0
      && (o.coverage == 0.0 <==> common == {})
      && (|ref| > 0 ==> o.coverage * (|ref| as real) == |common| as real)
      && (|ref| > 0 ==> (o.coverage == 1.0 <==> ref <= WordSet(summary)))
  {
    WordOverlap(WordSet(summary), WordSet(reference))
  }

  /** `evaluate_summary_quality(summary, reference)`; the reference is
      `None` when not given, and an empty one counts as not given. */
  function EvaluateSummaryQuality(summary: string, reference: Option<string>): (q: QualityMetrics)
    ensures q.wordCount == |Words(summary)|
    ensures q.sentenceCount == SentenceCount(summary)
    ensures q.avgSentenceLength >= 0.0
    ensures q.sentenceCount == 0 ==> q.avgSentenceLength == 0.0
    ensures q.hasStructure <==>
      exists k :: 0 <= k < |StructureKeywords| && Contains(Lower(summary), StructureKeywords[k])
    ensures q.overlap.Some? <==> reference.Some? && reference.value != ""
    ensures reference.Some? && reference.value != "" ==> q.overlap == Some(ReferenceOverlap(summary, reference.value))
  {
    var wordCount := |Words(summary)|;
    var sentences := SentenceCount(summary);
    var avg := if sentences > 0 then Ratio(wordCount, sentences) else 0.0;
    var overlap :=
      if reference.Some? && reference.value != "" then Some(ReferenceOverlap(summary, reference.value))
      else None;
    QualityMetrics(wordCount, sentences, avg, AnyContained(Lower(summary), StructureKeywords), overlap)
  }


  // ---------------------------------------------------------------------------
  // evaluate_retrieval

  datatype RetrievalScores = RetrievalScores(precision: real, recall: real, f1: real)

  datatype RetrievalMetrics = RetrievalMetrics(
    chunksRetrieved: nat,
    uniquePages: nat,
    pageDiversity: real,
    scores: Option<RetrievalScores>)

  /** The page of each retrieved chunk, in retrieval order. */
  function PagesOf(chunks: seq<Chunk>): (pages: seq<int>)
    ensures |pages| == |chunks|
    ensures forall i :: 0 <= i < |chunks| ==> pages[i] == chunks[i].page
  {
    seq(|chunks|, i requires 0 <= i < |chunks| => chunks[i].page)
  }

  /** The harmonic mean of precision and recall, 0 when both are 0. */
  function F1(precision: real, recall: real): (f: real)
    requires precision >= 0.0 && recall >= 0.0
    ensures f >= 0.0
    ensures precision + recall == 0.0 ==> f == 0.0
    ensures precision <= 1.0 && recall <= 1.0 ==> f <= 1.0
    ensures precision + recall > 0.0 ==> f * (precision + recall) == 2.0 * precision * recall
  {
    if precision + recall > 0.0 then
      var product := precision * recall;
      NonNegProduct(precision, recall);
      assert precision <= 1.0 && recall <= 1.0 ==> 2.0 * product <= precision + recall by {
        if precision <= 1.0 && recall <= 1.0 {
          ProductAtMostSum(precision, recall);
        }
      }
      DivBounds(2.0 * product, precision + recall);
      2.0 * product / (precision + recall)
    else 0.0
  }

  /** Precision, recall and F1 as written: every retrieved occurrence of a
      relevant page counts towards recall. */
  function Scores(retrieved: seq<int>, relevant: seq<int>): (s: RetrievalScores)
    requires |relevant| > 0
    ensures 0.0 <= s.precision <= 1.0
    ensures s.recall >= 0.0 && s.f1 >= 0.0
    ensures s.precision + s.recall == 0.0 ==> s.f1 == 0.0
    ensures |retrieved| == 0 ==> s.precision == 0.0 && s.recall == 0.0
    ensures |retrieved| > 0 ==> Times(s.precision, |retrieved|) == CountIn(retrieved, relevant) as real
    ensures Times(s.recall, |relevant|) == CountIn(retrieved, relevant) as real
    ensures s.f1 == F1(s.precision, s.recall)
  {
    var hits := CountIn(retrieved, relevant);
    var precision := if |retrieved| > 0 then Ratio(hits, |retrieved|) else 0.0;
    var recall := Ratio(hits, |relevant|);
    RetrievalScores(precision, recall, F1(precision, recall))
  }

  /** `evaluate_retrieval(query, retrieved_chunks, relevant_pages)`. The
      query is not used by the metrics; an absent or empty list of relevant
      pages leaves the scores out. */
  function EvaluateRetrieval(chunks: seq<Chunk>, relevant: Option<seq<int>>): (m: RetrievalMetrics)
    ensures m.chunksRetrieved == |chunks|
    ensures m.uniquePages == |Members(PagesOf(chunks))| <= |chunks|
    ensures 0.0 <= m.pageDiversity <= 1.0
    ensures |chunks| == 0 <==> m.pageDiversity == 0.0
    ensures m.scores.Some? <==> relevant.Some? && |relevant.value| > 0
    ensures m.scores.Some? ==>
      && 0.0 <= m.scores.value.precision <= 1.0
      && m.scores.value.recall >= 0.0
      && (m.scores.value.precision + m.scores.value.recall == 0.0 ==> m.scores.value.f1 == 0.0)
    ensures |chunks| > 0 ==> Times(m.pageDiversity, |chunks|) == m.uniquePages as real
    ensures relevant.Some? && |relevant.value| > 0 ==> m.scores == Some(Scores(PagesOf(chunks), relevant.value))
  {
    var pages := PagesOf(chunks);
    var unique := |Members(pages)|;
    MembersCard(pages);
    var diversity := if |chunks| > 0 then Ratio(unique, |chunks|) else 0.0;
    var scores := if relevant.Some? && |relevant.value| > 0 then Some(Scores(pages, relevant.value)) else None;
    RetrievalMetrics(|chunks|, unique, diversity, scores)
  }

  /** `n` retrieved chunks, all on page `p`. */
  function Copies(p: int, n: nat): (cs: seq<Chunk>)
    ensures |cs| == n
    ensures forall i :: 0 <= i < n ==> cs[i].page == p
  {
    seq(n, i requires 0 <= i < n => Chunk("", p))
  }

  /** Recall as written is not a fraction: retrieving the one relevant page
      `n` times, for any `n` of at least two, gives a recall of `n` and an
      F1 above 1. */
  lemma RecallExceedsOne(p: int, n: nat)
    requires n >= 2
    ensures var m := EvaluateRetrieval(Copies(p, n), Some([p]));
      m.scores.value.recall == n as real && m.scores.value.f1 > 1.0
  {
    var pages := PagesOf(Copies(p, n));
    assert forall i :: 0 <= i < |pages| ==> pages[i] in [p];
    assert CountIn(pages, [p]) == n;
    F1AboveOne(n as real);
    assert EvaluateRetrieval(Copies(p, n), Some([p])).scores.value == Scores(pages, [p]);
  }

  /** Full precision with a recall of two or more gives an F1 above 1. */
  lemma F1AboveOne(r: real)
    requires r >= 2.0
    ensures F1(1.0, r) > 1.0
  {
    var d := 1.0 + r;
    assert F1(1.0, r) == 2.0 * (1.0 * r) / d;
    assert 2.0 * r / d == 1.0 + (r - 1.0) / d;
    assert (r - 1.0) / d > 0.0;
  }

  /** Recall as a fraction of the relevant pages: each listed relevant page
      counts once if it was retrieved at all. */
  function DistinctScores(retrieved: seq<int>, relevant: seq<int>): (s: RetrievalScores)
    requires |relevant| > 0
    ensures 0.0 <= s.precision <= 1.0
    ensures 0.0 <= s.recall <= 1.0
    ensures 0.0 <= s.f1 <= 1.0
    ensures s.recall == 1.0 <==> forall i :: 0 <= i < |relevant| ==> relevant[i] in retrieved
    ensures s.recall == 0.0 <==> forall i :: 0 <= i < |relevant| ==> relevant[i] !in retrieved
    ensures s.precision == Scores(retrieved, relevant).precision
    ensures Times(s.recall, |relevant|) == CountIn(relevant, retrieved) as real
    ensures s.f1 == F1(s.precision, s.recall)
  {
    var hits := CountIn(retrieved, relevant);
    var precision := if |retrieved| > 0 then Ratio(hits, |retrieved|) else 0.0;
    var recall := Ratio(CountIn(relevant, retrieved), |relevant|);
    RetrievalScores(precision, recall, F1(precision, recall))
  }

  /** The retrieval metrics with the corrected recall. */
  function EvaluateRetrievalCorrected(chunks: seq<Chunk>, relevant: Option<seq<int>>): (m: RetrievalMetrics)
    ensures m.scores.Some? <==> relevant.Some? && |relevant.value| > 0
    ensures m.scores.Some? ==>
      && 0.0 <= m.scores.value.recall <= 1.0
      && 0.0 <= m.scores.value.f1 <= 1.0
    ensures m.chunksRetrieved == EvaluateRetrieval(chunks, relevant).chunksRetrieved
    ensures m.uniquePages == EvaluateRetrieval(chunks, relevant).uniquePages
    ensures m.pageDiversity == EvaluateRetrieval(chunks, relevant).pageDiversity
    ensures relevant.Some? && |relevant.value| > 0 ==>
      m.scores == Some(DistinctScores(PagesOf(chunks), relevant.value))
  {
    var asWritten := EvaluateRetrieval(chunks, relevant);
    var scores :=
      if relevant.Some? && |relevant.value| > 0 then Some(DistinctScores(PagesOf(chunks), relevant.value))
      else None;
    asWritten.(scores := scores)
  }

  predicate NoRepeats(xs: seq<int>) {
    forall i, j :: 0 <= i < j < |xs| ==> xs[i] != xs[j]
  }

  /** The head of a list without repetitions is not among the members of
      its tail, which has no repetitions either. */
  lemma NoRepeatsTail(xs: seq<int>)
    requires |xs| > 0 && NoRepeats(xs)
    ensures NoRepeats(xs[1..])
    ensures Members(xs) == {xs[0]} + Members(xs[1..])
    ensures xs[0] !in Members(xs[1..])
  {
    var t := xs[1..];
    forall i, j | 0 <= i < j < |t|
      ensures t[i] != t[j]
    {
      assert t[i] == xs[i + 1] && t[j] == xs[j + 1];
    }
    assert xs == [xs[0]] + t;
    forall j | 0 <= j < |t|
      ensures t[j] != xs[0]
    {
      assert t[j] == xs[j + 1];
    }
  }

  /** Adding a member to one side of an intersection adds it to the
      intersection exactly when the other side has it. */
  lemma IntersectAdd<T>(h: T, a: set<T>, b: set<T>)
    ensures h in b ==> ({h} + a) * b == {h} + a * b
    ensures h !in b ==> ({h} + a) * b == a * b
  {
  }

  /** Over a list without repetitions, counting the entries found in
      another list counts the members the two have in common. */
  lemma {:induction false} CountInDistinct(xs: seq<int>, ys: seq<int>)
    requires NoRepeats(xs)
    ensures CountIn(xs, ys) == |Members(xs) * Members(ys)|
  {
    if |xs| > 0 {
      var h := xs[0];
      var t := xs[1..];
      NoRepeatsTail(xs);
      CountInDistinct(t, ys);
      var rest := Members(t) * Members(ys);
      var common := Members(xs) * Members(ys);
      assert CountIn(xs, ys) == (if h in ys then 1 else 0) + CountIn(t, ys);
      IntersectAdd(h, Members(t), Members(ys));
      if h in ys {
        assert |common| == |rest| + 1;
      }
    } else {
      assert Members(xs) == {};
    }
  }

  /** Without repeated pages on either side the two recalls agree. */
  lemma RecallsAgreeOnDistinctPages(retrieved: seq<int>, relevant: seq<int>)
    requires |relevant| > 0
    requires NoRepeats(retrieved) && NoRepeats(relevant)
    ensures DistinctScores(retrieved, relevant) == Scores(retrieved, relevant)
  {
    CountInDistinct(retrieved, relevant);
    CountInDistinct(relevant, retrieved);
    assert Members(retrieved) * Members(relevant) == Members(relevant) * Members(retrieved);
  }

  // ---------------------------------------------------------------------------
  // run_test_case and generate_report

  datatype TestResult = TestResult(
    testName: string,
    citationMetrics: CitationMetrics,
    qualityMetrics: QualityMetrics,
    passed: bool)

  /** The evaluator's state: the results of the test cases run so far. */
  datatype Evaluation = Evaluation(results: seq<TestResult>)

  /** `run_test_case(name, summary, expected_pages, reference_summary)`:
      the citation and quality metrics of one summary, recorded after the
      earlier results. A test passes when the summary cites something and
      has more than fifty words. */
  function RunTestCase(ev: Evaluation, name: string, summary: string,
                       expected: Option<seq<int>>, reference: Option<string>): (r: (Evaluation, TestResult))
    ensures r.0.results == ev.results + [r.1]
    ensures r.1.testName == name
    ensures r.1.passed <==> |PageCitations(summary)| > 0 && |Words(summary)| > 50
    ensures r.1.citationMetrics.totalCitations == |PageCitations(summary)|
    ensures r.1.qualityMetrics.overlap.Some? <==> reference.Some? && reference.value != ""
  {
    var citation := EvaluateCitations(summary, expected.GetOr([]));
    var quality := EvaluateSummaryQuality(summary, reference);
    var result := TestResult(name, citation, quality, citation.hasCitations && quality.wordCount > 50);
    (Evaluation(ev.results + [result]), result)
  }

  /** A summary without any `[` cites nothing, so its test fails. */
  lemma UncitedSummaryFails(ev: Evaluation, name: string, summary: string,
                            expected: Option<seq<int>>, reference: Option<string>)
    requires Prose(summary)
    ensures !RunTestCase(ev, name, summary, expected, reference).1.passed
  {
    SkipProse(summary, "");
    assert summary + "" == summary;
  }

  /** How many results passed. */
  function PassedCount(results: seq<TestResult>): (n: nat)
    ensures n <= |results|
    ensures n == |results| <==> forall i :: 0 <= i < |results| ==> results[i].passed
  {
    if |results| == 0 then 0
    else
      assert forall i :: 1 <= i < |results| ==> results[i] == results[1..][i - 1];
      (if results[0].passed then 1 else 0) + PassedCount(results[1..])
  }

  lemma {:induction false} PassedCountAppend(results: seq<TestResult>, r: TestResult)
    ensures PassedCount(results + [r]) == PassedCount(results) + (if r.passed then 1 else 0)
  {
    if |results| > 0 {
      assert (results + [r])[1..] == results[1..] + [r];
      PassedCountAppend(results[1..], r);
    } else {
      assert [] + [r] == [r];
    }
  }

  const NoResultsMessage := "No test results available"

  /** What the report states about the outcome: a fixed message when no
      test has run, otherwise passed out of total. */
  datatype Report = NoResults(message: string) | Tally(passed: nat, total: nat)

  function GenerateReport(ev: Evaluation): (r: Report)
    ensures r.NoResults? <==> |ev.results| == 0
    ensures r.NoResults? ==> r.message == NoResultsMessage
    ensures r.Tally? ==> r.total == |ev.results| && 0 <= r.passed <= r.total
    ensures r.Tally? ==> (r.passed == r.total <==> forall i :: 0 <= i < |ev.results| ==> ev.results[i].passed)
  {
    if |ev.results| == 0 then NoResults(NoResultsMessage)
    else Tally(PassedCount(ev.results), |ev.results|)
  }

  /** Running one more test case adds one to the total, and one to the
      passed count exactly when that case passed. */
  lemma ReportAfterRun(ev: Evaluation, name: string, summary: string,
                       expected: Option<seq<int>>, reference: Option<string>)
    ensures var (ev', result) := RunTestCase(ev, name, summary, expected, reference);
      var report := GenerateReport(ev');
      && report.Tally?
      && report.total == |ev.results| + 1
      && report.passed == PassedCount(ev.results) + (if result.passed then 1 else 0)
  {
    var (ev', result) := RunTestCase(ev, name, summary, expected, reference);
    PassedCountAppend(ev.results, result);
  }
}

=== FILE: quality.dfy ===
/** The part of `analyze_paper_quality` that runs after the generation call:
    four sub-scores read with `re.search(label + r'\s*(\d+)', ...)` (the label
    includes its colon), a default of 70 for a label that is absent, their plain average, the
    `Overall Assessment:` paragraph, and the all-75 fallback when the call
    raises.
 */
module Quality {
  import opened Wrappers
  import opened Text

  const MethodologyLabel := "Methodology Rigor:"
  const DataLabel := "Data Quality:"
  const CitationLabel := "Citation Quality:"
  const ClarityLabel := "Clarity:"
  const AssessmentLabel := "Overall Assessment:"

  /** The score of a label the reply does not contain. */
  const DefaultScore: nat := 70
  /** Every score when the generation call raises. */
  const FallbackScore: nat := 75
  const DefaultAssessment := "Quality analysis completed."
  const FallbackAssessment := "Quality analysis unavailable"

  // ---------------------------------------------------------------------------
  // Sub-scores: `label\s*(\d+)`

  /** What `\s*(\d+)` captures at the start of `u`, read with `int(...)`.
      The whitespace run is taken whole: a shorter one would leave a
      whitespace character where the first digit must be. The digit run is
      taken whole as well. */
  function NumberAfter(u: string): Option<nat> {
    var k := LeadingSpaces(u);
    var n := DigitRun(u[k..]);
    if n > 0 then
      assert u[k..][..n] == u[k..k + n];
      Some(DigitsValue(u[k..k + n]))
    else None
  }

  /** What the pattern for `tag` captures when matched at position `i`. */
  function ScoreAt(s: string, tag: string, i: nat): Option<nat> {
    if OccursAt(s, tag, i) then NumberAfter(s[i + |tag|..]) else None
  }

  /** The leftmost position at or after `from` where the pattern for `tag`
      matches, as `re.search` finds it. */
  function FirstScoreAt(s: string, tag: string, from: nat): (p: Option<nat>)
    decreases |s| + 1 - from
    ensures p.Some? ==> from <= p.value <= |s| && ScoreAt(s, tag, p.value).Some?
    ensures p.Some? ==> forall k: nat :: from <= k < p.value ==> ScoreAt(s, tag, k).None?
    ensures p.None? ==> forall k: nat :: from <= k ==> ScoreAt(s, tag, k).None?
  {
    if from > |s| then None
    else if ScoreAt(s, tag, from).Some? then Some(from)
    else FirstScoreAt(s, tag, from + 1)
  }

  /** The sub-score for `tag`: the number after its leftmost match, or 70
      when the pattern matches nowhere. */
  function Score(s: string, tag: string): (v: nat)
    ensures (forall i: nat :: ScoreAt(s, tag, i).None?) ==> v == DefaultScore
    ensures forall i: nat ::
              (ScoreAt(s, tag, i).Some? && (forall k: nat :: k < i ==> ScoreAt(s, tag, k).None?)
               ==> v == ScoreAt(s, tag, i).value)
  {
    var h := FirstScoreAt(s, tag, 0);
    FirstScoreIsLeftmost(s, tag);
    if h.Some? then ScoreAt(s, tag, h.value).value else DefaultScore
  }

  /** The search from the start finds the one match with no match before
      it. */
  lemma FirstScoreIsLeftmost(s: string, tag: string)
    ensures forall i: nat ::
              (ScoreAt(s, tag, i).Some? && (forall k: nat :: k < i ==> ScoreAt(s, tag, k).None?)
               ==> FirstScoreAt(s, tag, 0) == Some(i))
  {
    var h := FirstScoreAt(s, tag, 0);
    forall i: nat | ScoreAt(s, tag, i).Some? && (forall k: nat :: k < i ==> ScoreAt(s, tag, k).None?)
      ensures h == Some(i)
    {
      assert h.Some?;
      assert !(h.value < i);
      assert !(i < h.value);
    }
  }

  /** Text appended after a first occurrence of `tag` cannot create an
      earlier one. */
  lemma NoEarlierMatch(p: string, tag: string, q: string)
    requires forall k :: 0 <= k < |p| ==> !OccursAt(p + tag, tag, k)
    ensures forall k :: 0 <= k < |p| ==> !OccursAt(p + tag + q, tag, k)
  {
    forall k | 0 <= k < |p|
      ensures !OccursAt(p + tag + q, tag, k)
    {
      assert !OccursAt(p + tag, tag, k);
      assert (p + tag)[k..k + |tag|] == (p + tag + q)[k..k + |tag|];
    }
  }

  /** A blank then a decimal number reads as that number. */
  lemma NumberAfterLine(n: nat, rest: string)
    requires rest == [] || !IsDigit(rest[0])
    ensures NumberAfter(" " + Decimal(n) + rest) == Some(n)
  {
    var d := Decimal(n);
    var v := d + rest;
    DigitRunPrefix(d, rest);
    SeqAssoc(" ", d, rest);
    var u := " " + v;
    assert u[1] == d[0];
    LeadingSpacesIs(u, 1);
    assert u[1..] == v;
    assert u[1..1 + |d|] == v[..|d|];
  }

  /** The line `tag` + blank + decimal number matches and captures that
      number. */
  lemma ScoreAtLine(p: string, tag: string, n: nat, rest: string)
    requires rest == [] || !IsDigit(rest[0])
    ensures ScoreAt(p + tag + " " + Decimal(n) + rest, tag, |p|) == Some(n)
  {
    var s := p + tag + " " + Decimal(n) + rest;
    assert s[|p|..|p| + |tag|] == tag;
    assert s[|p| + |tag|..] == " " + Decimal(n) + rest;
    NumberAfterLine(n, rest);
  }

  /** A line of the requested shape, `tag` then a blank then the decimal
      spelling of `n`, reads back as `n`, provided `tag` does not already
      occur earlier in the reply. */
  lemma ScoreReadsBack(p: string, tag: string, n: nat, rest: string)
    requires forall k :: 0 <= k < |p| ==> !OccursAt(p + tag, tag, k)
    requires rest == [] || !IsDigit(rest[0])
    ensures Score(p + tag + " " + Decimal(n) + rest, tag) == n
  {
    var q := " " + Decimal(n) + rest;
    var s := p + tag + " " + Decimal(n) + rest;
    assert s == p + tag + q;
    ScoreAtLine(p, tag, n, rest);
    NoEarlierMatch(p, tag, q);
    assert forall k: nat :: k < |p| ==> ScoreAt(s, tag, k).None?;
  }

  // ---------------------------------------------------------------------------
  // The assessment: `Overall Assessment:\s*(.+?)(?:\n\n|$)` with DOTALL

  /** Whether `(?:\n\n|$)` matches at position `e` of `t`. Without MULTILINE,
      `$` matches at the end and just before a final newline. */
  predicate GroupStop(t: string, e: nat) {
    e == |t| || (e == |t| - 1 && t[e] == '\n') || (e + 2 <= |t| && t[e] == '\n' && t[e + 1] == '\n')
  }

  /** Where the lazy group `(.+?)` that starts at 0 and has reached `e`
      characters ends: the first stop at or after `e`. */
  function LazyEnd(t: string, e: nat): (r: nat)
    requires e <= |t|
    decreases |t| - e
    ensures e <= r <= |t| && GroupStop(t, r)
    ensures forall m :: e <= m < r ==> !GroupStop(t, m)
  {
    if GroupStop(t, e) then e else LazyEnd(t, e + 1)
  }

  /** The group captured when the assessment pattern is matched at `i`. When
      only whitespace follows the tag, `\s*` gives back its last character
      so that `.+?` can take it; when nothing at all follows, there is no
      match at `i`. */
  function AssessmentAt(s: string, i: nat): Option<string> {
    if OccursAt(s, AssessmentLabel, i) && i + |AssessmentLabel| < |s| then
      var j := i + |AssessmentLabel|;
      var k := j + LeadingSpaces(s[j..]);
      if k < |s| then Some(s[k..k + LazyEnd(s[k..], 1)])
      else Some(s[|s| - 1..])
    else None
  }

  /** The leftmost position at or after `from` where the assessment pattern
      matches. */
  function FirstAssessmentAt(s: string, from: nat): (p: Option<nat>)
    decreases |s| + 1 - from
    ensures p.Some? ==> from <= p.value <= |s| && AssessmentAt(s, p.value).Some?
    ensures p.Some? ==> forall k: nat :: from <= k < p.value ==> AssessmentAt(s, k).None?
    ensures p.None? ==> forall k: nat :: from <= k ==> AssessmentAt(s, k).None?
  {
    if from > |s| then None
    else if AssessmentAt(s, from).Some? then Some(from)
    else FirstAssessmentAt(s, from + 1)
  }

  /** The `assessment` field: the stripped group of the leftmost match, or
      the fixed default when the pattern matches nowhere. */
  function Assessment(s: string): (a: string)
    ensures (forall i: nat :: AssessmentAt(s, i).None?) ==> a == DefaultAssessment
    ensures forall i: nat ::
              (AssessmentAt(s, i).Some? && (forall k: nat :: k < i ==> AssessmentAt(s, k).None?)
               ==> a == Strip(AssessmentAt(s, i).value))
  {
    var h := FirstAssessmentAt(s, 0);
    FirstAssessmentIsLeftmost(s);
    if h.Some? then Strip(AssessmentAt(s, h.value).value) else DefaultAssessment
  }

  /** The search from the start finds the one match with no match before
      it. */
  lemma FirstAssessmentIsLeftmost(s: string)
    ensures forall i: nat ::
              (AssessmentAt(s, i).Some? && (forall k: nat :: k < i ==> AssessmentAt(s, k).None?)
               ==> FirstAssessmentAt(s, 0) == Some(i))
  {
    var h := FirstAssessmentAt(s, 0);
    forall i: nat | AssessmentAt(s, i).Some? && (forall k: nat :: k < i ==> AssessmentAt(s, k).None?)
      ensures h == Some(i)
    {
      assert h.Some?;
      assert !(h.value < i);
      assert !(i < h.value);
    }
  }

  predicate HasBlankLine(s: string) {
    exists m :: 0 <= m < |s| - 1 && s[m] == '\n' && s[m + 1] == '\n'
  }

  /** A captured group never spans an empty line: the group is lazy and a
      `\n\n` ends it. */
  lemma GroupHasNoBlankLine(s: string, i: nat)
    requires AssessmentAt(s, i).Some?
    ensures !HasBlankLine(AssessmentAt(s, i).value)
  {
    var j := i + |AssessmentLabel|;
    var k := j + LeadingSpaces(s[j..]);
    if k < |s| {
      var t := s[k..];
      var e := LazyEnd(t, 1);
      var g := AssessmentAt(s, i).value;
      assert g == t[..e];
      LeadingSpacesSpec(s[j..]);
      assert !IsSpace(t[0]);
      forall m | 0 <= m < |g| - 1
        ensures !(g[m] == '\n' && g[m + 1] == '\n')
      {
        if m > 0 {
          assert !GroupStop(t, m);
        }
      }
    }
  }

  /** `strip()` cannot create an empty line. */
  lemma StripNoBlankLine(g: string)
    requires !HasBlankLine(g)
    ensures !HasBlankLine(Strip(g))
  {
    StripInfix(g);
    var a := Strip(g);
    var l := LeadingSpaces(g);
    forall m | 0 <= m < |a| - 1
      ensures !(a[m] == '\n' && a[m + 1] == '\n')
    {
      assert a[m] == g[l + m] && a[m + 1] == g[l + m + 1];
      assert !(g[l + m] == '\n' && g[l + m + 1] == '\n');
    }
  }

  /** Hence the assessment never contains an empty line. */
  lemma AssessmentHasNoBlankLine(s: string)
    ensures !HasBlankLine(Assessment(s))
  {
    var h := FirstAssessmentAt(s, 0);
    if h.Some? {
      GroupHasNoBlankLine(s, h.value);
      StripNoBlankLine(AssessmentAt(s, h.value).value);
    }
  }

  /** The lazy group taken from `a + rest` is `a` when `a` holds no empty
      line and `rest` is empty or starts with one. */
  lemma LazyEndAt(a: string, rest: string)
    requires |a| > 0 && !IsSpace(a[|a| - 1])
    requires !HasBlankLine(a)
    requires rest == [] || StartsWith(rest, "\n\n")
    ensures LazyEnd(a + rest, 1) == |a|
  {
    var t := a + rest;
    assert GroupStop(t, |a|);
    forall m | 1 <= m < |a|
      ensures !GroupStop(t, m)
    {
      assert t[m] == a[m];
      assert m + 1 < |a| ==> t[m + 1] == a[m + 1];
    }
  }

  /** The assessment line `Overall Assessment:` + blank + `a` matches and
      captures `a`. */
  lemma AssessmentAtLine(p: string, a: string, rest: string)
    requires |a| > 0 && !IsSpace(a[0]) && !IsSpace(a[|a| - 1])
    requires !HasBlankLine(a)
    requires rest == [] || StartsWith(rest, "\n\n")
    ensures AssessmentAt(p + AssessmentLabel + " " + a + rest, |p|) == Some(a)
  {
    var s := p + AssessmentLabel + " " + a + rest;
    var i := |p|;
    assert s[i..i + |AssessmentLabel|] == AssessmentLabel;
    var j := i + |AssessmentLabel|;
    assert s[j..] == " " + a + rest;
    LeadingSpacesIs(s[j..], 1);
    var k := j + 1;
    assert s[k..] == a + rest;
    LazyEndAt(a, rest);
    assert s[k..k + |a|] == a;
  }

  /** An assessment paragraph written as requested, after a blank and ended
      by an empty line or by the end of the reply, reads back unchanged,
      provided the label does not already occur earlier. */
  lemma AssessmentReadsBack(p: string, a: string, rest: string)
    requires forall k :: 0 <= k < |p| ==> !OccursAt(p + AssessmentLabel, AssessmentLabel, k)
    requires |a| > 0 && !IsSpace(a[0]) && !IsSpace(a[|a| - 1])
    requires !HasBlankLine(a)
    requires rest == [] || StartsWith(rest, "\n\n")
    ensures Assessment(p + AssessmentLabel + " " + a + rest) == a
  {
    var q := " " + a + rest;
    var s := p + AssessmentLabel + " " + a + rest;
    assert s == p + AssessmentLabel + q;
    AssessmentAtLine(p, a, rest);
    NoEarlierMatch(p, AssessmentLabel, q);
    assert forall k: nat :: k < |p| ==> AssessmentAt(s, k).None?;
    StripPadded("", a, "");
    assert "" + a + "" == a;
  }

  // ---------------------------------------------------------------------------
  // analyze_paper_quality

  /** The quality dictionary (its always-empty `strengths` and `weaknesses`
      lists are not represented). */
  datatype QualityReport = QualityReport(
    overall: real,
    methodology: nat,
    data: nat,
    citation: nat,
    clarity: nat,
    assessment: string)

  const Fallback := QualityReport(FallbackScore as real, FallbackScore, FallbackScore, FallbackScore,
    FallbackScore, FallbackAssessment)

  /** `analyze_paper_quality` once the generation call has answered (or
      raised): the overall score is the plain average of the four
      sub-scores. */
  function AnalyzeQuality(reply: Reply): (q: QualityReport)
    ensures q.overall * 4.0 == (q.methodology + q.data + q.citation + q.clarity) as real
    ensures reply.CallFailed? ==> q == Fallback
    ensures reply.Answer? ==>
      && q.methodology == Score(reply.text, MethodologyLabel)
      && q.data == Score(reply.text, DataLabel)
      && q.citation == Score(reply.text, CitationLabel)
      && q.clarity == Score(reply.text, ClarityLabel)
      && q.assessment == Assessment(reply.text)
  {
    match reply
    case CallFailed => Fallback
    case Answer(analysis) =>
      var m := Score(analysis, MethodologyLabel);
      var d := Score(analysis, DataLabel);
      var c := Score(analysis, CitationLabel);
      var cl := Score(analysis, ClarityLabel);
      QualityReport((m + d + c + cl) as real / 4.0, m, d, c, cl, Assessment(analysis))
  }

  /** A reply that mentions none of the four labels scores 70 throughout. */
  lemma UnlabelledReplyScoresDefault(analysis: string)
    requires !Contains(analysis, MethodologyLabel) && !Contains(analysis, DataLabel)
    requires !Contains(analysis, CitationLabel) && !Contains(analysis, ClarityLabel)
    ensures AnalyzeQuality(Answer(analysis)).overall == DefaultScore as real
  {
    assert forall i :: ScoreAt(analysis, MethodologyLabel, i).None?;
    assert forall i :: ScoreAt(analysis, DataLabel, i).None?;
    assert forall i :: ScoreAt(analysis, CitationLabel, i).None?;
    assert forall i :: ScoreAt(analysis, ClarityLabel, i).None?;
  }
}

=== FILE: registry.dfy ===
/** The in-memory `active_collections` dictionary: one entry per uploaded
    paper under the key `doc_<id>`. A Python dictionary remembers insertion
    order, which is the order `list_collections` reports, so the registry is
    an order of keys next to the map of entries.
 */
module Registry {
  import opened Wrappers
  import opened Chunker
  import opened Quality

  /** What the backend keeps about one uploaded paper. The vector-store
      collection is represented by the chunks stored in it, in insertion
      order; the upload time and file path are not represented. */
  datatype Entry = Entry(
    filename: string,
    metadata: PdfMetadata,
    chunks: seq<Chunk>,
    quality: Option<QualityReport>)

  predicate Distinct(keys: seq<string>) {
    forall i, j :: 0 <= i < j < |keys| ==> keys[i] != keys[j]
  }

  datatype Registry = Registry(order: seq<string>, entries: map<string, Entry>) {
    /** Each key is listed once, and exactly the keys of the map are listed. */
    predicate Valid() {
      && Distinct(order)
      && (forall k :: k in entries ==> k in order)
      && (forall i :: 0 <= i < |order| ==> order[i] in entries)
    }
  }

  const Empty := Registry([], map[])

  /** `order` without `key`, the rest in the same order. */
  function RemoveKey(order: seq<string>, key: string): (r: seq<string>)
    ensures |r| <= |order|
    ensures forall k :: k in r <==> k in order && k != key
  {
    if |order| == 0 then []
    else if order[0] == key then RemoveKey(order[1..], key)
    else [order[0]] + RemoveKey(order[1..], key)
  }

  /** Removing a key keeps a list free of repetitions. */
  lemma {:induction false} RemoveKeyDistinct(order: seq<string>, key: string)
    requires Distinct(order)
    ensures Distinct(RemoveKey(order, key))
  {
    if |order| > 0 {
      assert Distinct(order[1..]);
      RemoveKeyDistinct(order[1..], key);
      var rest := RemoveKey(order[1..], key);
      if order[0] != key {
        assert order[0] !in order[1..];
        assert order[0] !in rest;
        var r := [order[0]] + rest;
        forall i, j | 0 <= i < j < |r|
          ensures r[i] != r[j]
        {
          if i == 0 {
            assert r[j] == rest[j - 1];
          } else {
            assert r[i] == rest[i - 1] && r[j] == rest[j - 1];
          }
        }
      }
    }
  }

  /** Removing a key from a list it ends in, and occurs nowhere else,
      gives the list before it. */
  lemma {:induction false} RemoveLastKey(order: seq<string>, key: string)
    requires key !in order
    ensures RemoveKey(order + [key], key) == order
  {
    if |order| == 0 {
      assert RemoveKey([key], key) == RemoveKey([], key);
    } else {
      assert (order + [key])[1..] == order[1..] + [key];
      assert key !in order[1..];
      RemoveLastKey(order[1..], key);
      assert order == [order[0]] + order[1..];
    }
  }

  /** A list without repetitions has as many elements as it has members. */
  lemma {:induction false} DistinctCard(order: seq<string>)
    requires Distinct(order)
    ensures |(set k | k in order)| == |order|
  {
    if |order| > 0 {
      assert Distinct(order[1..]);
      DistinctCard(order[1..]);
      assert order[0] !in order[1..];
      assert (set k | k in order) == {order[0]} + (set k | k in order[1..]);
    }
  }

  /** `active_collections[key] = entry`: a new key goes last, an existing
      one keeps its place and gets the new entry. */
  function Register(reg: Registry, key: string, entry: Entry): (r: Registry)
    ensures r.entries == reg.entries[key := entry]
    ensures reg.Valid() ==> r.Valid()
    ensures key in reg.entries && reg.Valid() ==> r.order == reg.order
    ensures key !in reg.entries ==> r.order == reg.order + [key]
  {
    if key in reg.entries then Registry(reg.order, reg.entries[key := entry])
    else
      var order := reg.order + [key];
      assert reg.Valid() ==> Distinct(order);
      Registry(order, reg.entries[key := entry])
  }

  /** `del active_collections[key]`: the entry and its place in the order
      go. */
  function Remove(reg: Registry, key: string): (r: Registry)
    ensures r.entries == reg.entries - {key}
    ensures key !in r.entries && key !in r.order
    ensures reg.Valid() ==> r.Valid()
  {
    var order := RemoveKey(reg.order, key);
    assert Distinct(reg.order) ==> Distinct(order) by {
      if Distinct(reg.order) {
        RemoveKeyDistinct(reg.order, key);
      }
    }
    assert forall i :: 0 <= i < |order| ==> order[i] in order;
    Registry(order, reg.entries - {key})
  }

  /** The number of collections listed equals the number of entries. */
  lemma ValidCount(reg: Registry)
    requires reg.Valid()
    ensures |reg.order| == |reg.entries|
  {
    DistinctCard(reg.order);
    assert reg.entries.Keys == set k | k in reg.order;
  }

  /** Registering a fresh key and then removing it gives the registry
      back. */
  lemma RemoveUndoesRegister(reg: Registry, key: string, entry: Entry)
    requires reg.Valid() && key !in reg.entries
    ensures Remove(Register(reg, key, entry), key) == reg
  {
    RemoveLastKey(reg.order, key);
    assert reg.entries[key := entry] - {key} == reg.entries;
  }
}

=== FILE: sampling.dfy ===
/** Which stored chunks the summarize and compare handlers hand to the
    generation step: index arithmetic over the number of chunks in a
    collection, then a lookup that skips any index past the end.
 */
module Sampling {
  import opened Wrappers
  import opened Chunker
  import opened Citations

  /** The detail of the 500 that `compare_papers` reports when a collection
      holds no chunks: the message of Python's `ZeroDivisionError` for `//`. */
  const DivisionByZero := "integer division or modulo by zero"

  /** The chunks at the given indices, in index order; an index past the
      end is skipped, as the handlers' `if idx < total_chunks` does. */
  function Pick(chunks: seq<Chunk>, ix: seq<nat>): (r: seq<Chunk>)
    ensures |r| <= |ix|
    ensures (forall k :: 0 <= k < |ix| ==> ix[k] < |chunks|) ==>
      |r| == |ix| && forall k :: 0 <= k < |ix| ==> r[k] == chunks[ix[k]]
  {
    if |ix| == 0 then []
    else if ix[0] < |chunks| then [chunks[ix[0]]] + Pick(chunks, ix[1..])
    else Pick(chunks, ix[1..])
  }

  /** `i * step` grows with `i` when the step is positive. */
  lemma ScaleMonotone(i: nat, j: nat, step: nat)
    requires i < j && step > 0
    ensures i * step < j * step
  {
    assert j * step == i * step + (j - i) * step;
  }

  /** Every multiple `i * (n / k)` with `i < k` is below `n`. */
  lemma ScaleBelow(i: nat, k: nat, n: nat)
    requires i < k && k > 0
    ensures i * (n / k) <= n - n / k
  {
    var q := n / k;
    assert k * q <= n;
    assert i * q <= (k - 1) * q by {
      if q > 0 {
        if i < k - 1 {
          ScaleMonotone(i, k - 1, q);
        }
      }
    }
    assert (k - 1) * q == k * q - q;
  }

  /** `count` positions from 0 with the given step. */
  function Spaced(count: nat, step: nat): (ix: seq<nat>)
    ensures |ix| == count
    ensures forall i :: 0 <= i < count ==> ix[i] == i * step
  {
    seq(count, i requires 0 <= i < count => i * step)
  }

  /** With a positive step the positions increase, and with the step
      `n / count` they all lie at or below `n - n / count`. */
  lemma SpacedFacts(count: nat, n: nat)
    requires 0 < count <= n
    ensures StrictlyIncreasing(Spaced(count, n / count))
    ensures forall i :: 0 <= i < count ==> Spaced(count, n / count)[i] <= n - n / count
  {
    var step := n / count;
    var ix := Spaced(count, step);
    assert step > 0;
    forall a, b | 0 <= a < b < count
      ensures ix[a] < ix[b]
    {
      ScaleMonotone(a, b, step);
    }
    forall a | 0 <= a < count
      ensures ix[a] <= n - step
    {
      ScaleBelow(a, count, n);
    }
  }

  /** A value above every element of a strictly increasing list can go at
      its end. */
  lemma AppendAbove(xs: seq<nat>, x: nat)
    requires StrictlyIncreasing(xs)
    requires forall i :: 0 <= i < |xs| ==> xs[i] < x
    ensures StrictlyIncreasing(xs + [x])
  {
    var r := xs + [x];
    forall i, j | 0 <= i < j < |r|
      ensures r[i] < r[j]
    {
      assert r[i] == xs[i];
    }
  }

  // ---------------------------------------------------------------------------
  // summarize_paper

  /** The positions `summarize_paper` samples from `n` chunks: all of them
      when there are at most ten, otherwise nine evenly spaced positions
      from 0 with step `n // 9`, then the last position. */
  function SummarizeIndices(n: nat): (ix: seq<nat>)
    ensures |ix| == Min(10, n)
    ensures StrictlyIncreasing(ix)
    ensures forall k :: 0 <= k < |ix| ==> ix[k] < n
    ensures n > 0 ==> ix[0] == 0 && ix[|ix| - 1] == n - 1
    ensures n <= 10 ==> forall k :: 0 <= k < n ==> ix[k] == k
  {
    if n <= 10 then Spaced(n, 1)
    else
      var spaced := Spaced(9, n / 9);
      SpacedFacts(9, n);
      assert n / 9 >= 1;
      AppendAbove(spaced, n - 1);
      spaced + [n - 1]
  }

  /** The chunks `summarize_paper` hands to the generation step: the whole
      collection when it has at most ten chunks, otherwise ten of them in
      collection order, the first and the last among them. */
  function SummarizeSample(chunks: seq<Chunk>): (r: seq<Chunk>)
    ensures |r| == Min(10, |chunks|)
    ensures |chunks| <= 10 ==> r == chunks
    ensures |chunks| > 0 ==> r[0] == chunks[0] && r[|r| - 1] == chunks[|chunks| - 1]
    ensures forall k :: 0 <= k < |r| ==> r[k] == chunks[SummarizeIndices(|chunks|)[k]]
  {
    Pick(chunks, SummarizeIndices(|chunks|))
  }

  // ---------------------------------------------------------------------------
  // compare_papers

  /** The positions `compare_papers` samples from `n` chunks: `min(8, n)`
      positions with step `max(1, n // min(8, n))`. With no chunks the
      division raises, which the handler turns into a 500. */
  function CompareIndices(n: nat): (r: Result<seq<nat>, HttpError>)
    ensures r.Failure? <==> n == 0
    ensures r.Failure? ==> r.error == HttpError(500, DivisionByZero)
    ensures r.Success? ==>
      var ix := r.value;
      && |ix| == Min(8, n)
      && StrictlyIncreasing(ix)
      && (forall k :: 0 <= k < |ix| ==> ix[k] < n)
      && ix[0] == 0
      && (n <= 8 ==> forall k :: 0 <= k < n ==> ix[k] == k)
  {
    if n == 0 then Failure(HttpError(500, DivisionByZero))
    else
      var size := Min(8, n);
      var step := Max(1, n / size);
      assert n <= 8 ==> size == n && step == 1;
      assert n > 8 ==> size == 8 && step == n / 8;
      SpacedFacts(size, n);
      Success(Spaced(size, step))
  }

  /** The chunks `compare_papers` summarises for one paper: the whole
      collection when it has at most eight chunks, otherwise eight of them
      in collection order starting with the first. */
  function CompareSample(chunks: seq<Chunk>): (r: Result<seq<Chunk>, HttpError>)
    ensures r.Failure? <==> |chunks| == 0
    ensures r.Success? ==>
      && |r.value| == Min(8, |chunks|)
      && (|chunks| <= 8 ==> r.value == chunks)
      && r.value[0] == chunks[0]
      && forall k :: 0 <= k < |r.value| ==> r.value[k] == chunks[CompareIndices(|chunks|).value[k]]
  {
    var ix :- CompareIndices(|chunks|);
    Success(Pick(chunks, ix))
  }
}

=== FILE: text.dfy ===
/** The pieces of Python's string handling that the backend relies on, over
    `string` = `seq<char>`:

  - the whitespace class shared by `str.split()`, `str.strip()` and the
    regex class `\s` (all three use the same Unicode whitespace test);
  - `str.strip()`, `str.split()`, `' '.join(...)`;
  - `re.sub(r'\s+', ' ', text).strip()`, the chunker's normalisation;
  - `str.split('.')` and the "non-blank pieces" count used as a sentence count;
  - ASCII decimal digit strings and their values (`int(...)` on `\d+`);
  - ASCII lower-casing and substring search.
 */
module Text {

  /** Python's `str.isspace()` on one character, which is also what the
      regex class `\s` matches in a `str` pattern. */
  predicate IsSpace(c: char) {
    c == ' ' || c == '\t' || c == '\n' || c == '\r' || c == '\U{B}' || c == '\U{C}'
    || ('\U{1C}' <= c <= '\U{1F}') || c == '\U{85}' || c == '\U{A0}' || c == '\U{1680}'
    || ('\U{2000}' <= c <= '\U{200A}') || c == '\U{2028}' || c == '\U{2029}'
    || c == '\U{202F}' || c == '\U{205F}' || c == '\U{3000}'
  }

  predicate IsDigit(c: char) {
    '0' <= c <= '9'
  }

  predicate AllSpace(s: string) {
    forall i :: 0 <= i < |s| ==> IsSpace(s[i])
  }

  /** A word as `str.split()` produces it: non-empty, without whitespace. */
  predicate IsWord(w: string) {
    |w| > 0 && forall i :: 0 <= i < |w| ==> !IsSpace(w[i])
  }

  /** Text whose only whitespace characters are single inner blanks: no
      leading or trailing whitespace, no run of two. */
  predicate IsNormalized(n: string) {
    forall i :: 0 <= i < |n| && IsSpace(n[i]) ==> n[i] == ' ' && 0 < i < |n| - 1 && !IsSpace(n[i + 1])
  }

  predicate StartsWith(s: string, prefix: string) {
    |prefix| <= |s| && s[..|prefix|] == prefix
  }

  /** Python's `s.endswith(suffix)`. */
  predicate EndsWith(s: string, suffix: string) {
    |suffix| <= |s| && s[|s| - |suffix|..] == suffix
  }

  predicate OccursAt(s: string, sub: string, i: int) {
    0 <= i <= |s| - |sub| && s[i..i + |sub|] == sub
  }

  /** Python's `sub in s`. */
  predicate Contains(s: string, sub: string) {
    exists i :: 0 <= i <= |s| - |sub| && OccursAt(s, sub, i)
  }

  // ---------------------------------------------------------------------------
  // Whitespace runs and strip()

  /** Length of the whitespace run at the start of `s`. */
  function LeadingSpaces(s: string): (n: nat)
    ensures n <= |s|
  {
    if |s| > 0 && IsSpace(s[0]) then 1 + LeadingSpaces(s[1..]) else 0
  }

  /** Length of the whitespace run at the end of `s`. */
  function TrailingSpaces(s: string): (n: nat)
    ensures n <= |s|
  {
    if |s| > 0 && IsSpace(s[|s| - 1]) then 1 + TrailingSpaces(s[..|s| - 1]) else 0
  }

  /** Length of the run of non-whitespace characters at the start of `s`. */
  function WordEnd(s: string): (n: nat)
    ensures n <= |s|
  {
    if |s| > 0 && !IsSpace(s[0]) then 1 + WordEnd(s[1..]) else 0
  }

  /** Python's `s.strip()`: the infix left after removing the whitespace at
      both ends (characterised by `StripSpec`). */
  function Strip(s: string): (r: string)
    ensures |r| <= |s|
  {
    var t := s[LeadingSpaces(s)..];
    t[..|t| - TrailingSpaces(t)]
  }

  /** `strip()` removes exactly the leading and trailing whitespace runs:
      the result is the infix of `s` after its leading run, what follows it
      is whitespace, it neither starts nor ends with whitespace, and it is
      empty exactly when `s` is all whitespace. */
  lemma StripSpec(s: string)
    ensures var r := Strip(s);
      && LeadingSpaces(s) + |r| <= |s|
      && r == s[LeadingSpaces(s)..LeadingSpaces(s) + |r|]
      && AllSpace(s[LeadingSpaces(s) + |r|..])
      && (|r| == 0 || (!IsSpace(r[0]) && !IsSpace(r[|r| - 1])))
      && (r == "" <==> AllSpace(s))
  {
    StripInfix(s);
    StripTail(s);
    StripEnds(s);
    StripEmpty(s);
  }

  lemma StripInfix(s: string)
    ensures LeadingSpaces(s) + |Strip(s)| <= |s|
    ensures Strip(s) == s[LeadingSpaces(s)..LeadingSpaces(s) + |Strip(s)|]
  {
    var l := LeadingSpaces(s);
    var t := s[l..];
    assert Strip(s) == t[..|t| - TrailingSpaces(t)];
  }

  lemma StripTail(s: string)
    ensures LeadingSpaces(s) + |Strip(s)| <= |s|
    ensures AllSpace(s[LeadingSpaces(s) + |Strip(s)|..])
  {
    var l := LeadingSpaces(s);
    var t := s[l..];
    var n := TrailingSpaces(t);
    assert |Strip(s)| == |t| - n;
    TrailingSpacesSpec(t);
    var u := s[l + |t| - n..];
    forall i | 0 <= i < |u|
      ensures IsSpace(u[i])
    {
      assert u[i] == t[|t| - n + i];
    }
  }

  lemma StripEnds(s: string)
    ensures var r := Strip(s);
      |r| == 0 || (!IsSpace(r[0]) && !IsSpace(r[|r| - 1]))
  {
    var l := LeadingSpaces(s);
    var t := s[l..];
    var n := TrailingSpaces(t);
    var r := Strip(s);
    assert r == t[..|t| - n];
    if |r| > 0 {
      LeadingSpacesSpec(s);
      TrailingSpacesSpec(t);
      assert r[0] == s[l];
      assert r[|r| - 1] == t[|t| - 1 - n];
    }
  }

  lemma StripEmpty(s: string)
    ensures Strip(s) == "" <==> AllSpace(s)
  {
    var l := LeadingSpaces(s);
    var t := s[l..];
    var n := TrailingSpaces(t);
    assert |Strip(s)| == |t| - n;
    LeadingSpacesSpec(s);
    if Strip(s) == "" {
      TrailingSpacesSpec(t);
      assert l == |s|;
    }
    if AllSpace(s) {
      assert l == |s|;
    }
  }

  /** `LeadingSpaces` is the length of a whitespace prefix that is not
      followed by whitespace. */
  lemma {:induction false} LeadingSpacesSpec(s: string)
    ensures forall i :: 0 <= i < LeadingSpaces(s) ==> IsSpace(s[i])
    ensures LeadingSpaces(s) == |s| || !IsSpace(s[LeadingSpaces(s)])
  {
    if |s| > 0 && IsSpace(s[0]) {
      LeadingSpacesSpec(s[1..]);
      forall i | 1 <= i < LeadingSpaces(s)
        ensures IsSpace(s[i])
      {
        assert s[i] == s[1..][i - 1];
      }
      assert LeadingSpaces(s) == |s| || s[LeadingSpaces(s)] == s[1..][LeadingSpaces(s[1..])];
    }
  }

  /** `TrailingSpaces` is the length of a whitespace suffix that is not
      preceded by whitespace. */
  lemma {:induction false} TrailingSpacesSpec(s: string)
    ensures forall i :: |s| - TrailingSpaces(s) <= i < |s| ==> IsSpace(s[i])
    ensures TrailingSpaces(s) == |s| || !IsSpace(s[|s| - 1 - TrailingSpaces(s)])
  {
    if |s| > 0 && IsSpace(s[|s| - 1]) {
      var t := s[..|s| - 1];
      TrailingSpacesSpec(t);
      forall i | |s| - TrailingSpaces(s) <= i < |s| - 1
        ensures IsSpace(s[i])
      {
        assert s[i] == t[i];
      }
      assert TrailingSpaces(s) == |s| || s[|s| - 1 - TrailingSpaces(s)] == t[|t| - 1 - TrailingSpaces(t)];
    }
  }

  /** `WordEnd` is the length of a non-whitespace prefix that is not
      followed by a non-whitespace character. */
  lemma {:induction false} WordEndSpec(s: string)
    ensures forall i :: 0 <= i < WordEnd(s) ==> !IsSpace(s[i])
    ensures WordEnd(s) == |s| || IsSpace(s[WordEnd(s)])
  {
    if |s| > 0 && !IsSpace(s[0]) {
      WordEndSpec(s[1..]);
      forall i | 1 <= i < WordEnd(s)
        ensures !IsSpace(s[i])
      {
        assert s[i] == s[1..][i - 1];
      }
      assert WordEnd(s) == |s| || s[WordEnd(s)] == s[1..][WordEnd(s[1..])];
    }
  }

  /** The whitespace-run lengths are determined by their characterisation. */
  lemma {:induction false} LeadingSpacesIs(s: string, n: nat)
    requires n <= |s|
    requires forall i :: 0 <= i < n ==> IsSpace(s[i])
    requires n == |s| || !IsSpace(s[n])
    ensures LeadingSpaces(s) == n
  {
    if n > 0 {
      LeadingSpacesIs(s[1..], n - 1);
    }
  }

  lemma {:induction false} TrailingSpacesIs(s: string, n: nat)
    requires n <= |s|
    requires forall i :: |s| - n <= i < |s| ==> IsSpace(s[i])
    requires n == |s| || !IsSpace(s[|s| - 1 - n])
    ensures TrailingSpaces(s) == n
  {
    if n > 0 {
      TrailingSpacesIs(s[..|s| - 1], n - 1);
    }
  }

  lemma {:induction false} WordEndIs(s: string, n: nat)
    requires n <= |s|
    requires forall i :: 0 <= i < n ==> !IsSpace(s[i])
    requires n == |s| || IsSpace(s[n])
    ensures WordEnd(s) == n
  {
    if n > 0 {
      WordEndIs(s[1..], n - 1);
    }
  }

  /** Stripping whitespace padding from text that starts and ends with a
      non-whitespace character gives that text back. */
  lemma StripPadded(p: string, j: string, q: string)
    requires AllSpace(p) && AllSpace(q)
    requires |j| > 0 && !IsSpace(j[0]) && !IsSpace(j[|j| - 1])
    ensures Strip(p + j + q) == j
  {
    var x := p + j + q;
    assert x[|p|] == j[0];
    LeadingSpacesIs(x, |p|);
    var t := x[|p|..];
    assert t == j + q;
    assert t[|j| - 1] == j[|j| - 1];
    TrailingSpacesIs(t, |q|);
    assert t[..|j|] == j;
  }

  /** Text that neither starts nor ends with whitespace is its own strip. */
  lemma StripTrimmed(s: string)
    requires |s| > 0 && !IsSpace(s[0]) && !IsSpace(s[|s| - 1])
    ensures Strip(s) == s
  {
    StripPadded("", s, "");
    assert "" + s + "" == s;
  }

  lemma StripAllSpace(s: string)
    requires AllSpace(s)
    ensures Strip(s) == ""
  {
    StripEmpty(s);
  }

  // ---------------------------------------------------------------------------
  // split() and ' '.join(...)

  /** Python's `s.split()`: the maximal runs of non-whitespace, in order. */
  function Words(s: string): (ws: seq<string>)
    ensures forall i :: 0 <= i < |ws| ==> IsWord(ws[i])
    decreases |s|
  {
    var t := s[LeadingSpaces(s)..];
    if |t| == 0 then []
    else
      var n := WordEnd(t);
      LeadingSpacesSpec(s);
      WordEndSpec(t);
      assert !IsSpace(t[0]);
      [t[..n]] + Words(t[n..])
  }

  /** Python's `' '.join(ws)`. */
  function JoinSpace(ws: seq<string>): string
  {
    if |ws| == 0 then ""
    else if |ws| == 1 then ws[0]
    else ws[0] + " " + JoinSpace(ws[1..])
  }

  predicate AllWords(ws: seq<string>) {
    forall i :: 0 <= i < |ws| ==> IsWord(ws[i])
  }

  /** Joining words with single blanks gives normalised text that starts and
      ends with a word character. */
  lemma {:induction false} JoinWordsShape(ws: seq<string>)
    requires AllWords(ws)
    ensures var j := JoinSpace(ws);
      && IsNormalized(j)
      && (|ws| > 0 ==> |j| > 0 && !IsSpace(j[0]) && !IsSpace(j[|j| - 1]))
  {
    if |ws| >= 2 {
      var w := ws[0];
      var rest := JoinSpace(ws[1..]);
      JoinWordsShape(ws[1..]);
      var j := w + " " + rest;
      assert j == JoinSpace(ws);
      assert j[0] == w[0];
      assert j[|j| - 1] == rest[|rest| - 1];
      forall i | 0 <= i < |j|
        ensures IsSpace(j[i]) ==> j[i] == ' ' && 0 < i < |j| - 1 && !IsSpace(j[i + 1])
      {
        if i < |w| {
          assert j[i] == w[i];
        } else if i == |w| {
          assert j[i + 1] == rest[0];
        } else {
          assert j[i] == rest[i - |w| - 1];
          assert i + 1 < |j| ==> j[i + 1] == rest[i - |w|];
        }
      }
    }
  }

  /** A word followed by whitespace (or nothing) is the first word. */
  lemma WordsStep(w: string, r: string)
    requires IsWord(w)
    requires |r| == 0 || IsSpace(r[0])
    ensures Words(w + r) == [w] + Words(r)
  {
    var x := w + r;
    assert x[0] == w[0];
    LeadingSpacesIs(x, 0);
    assert x[0..] == x;
    assert forall i :: 0 <= i < |w| ==> x[i] == w[i];
    WordEndIs(x, |w|);
    assert x[..|w|] == w;
    assert x[|w|..] == r;
  }

  lemma TakeDrop<T>(s: seq<T>, n: nat)
    requires n <= |s|
    ensures s[..n] + s[n..] == s
  {
  }

  lemma SeqAssoc<T>(a: seq<T>, b: seq<T>, c: seq<T>)
    ensures (a + b) + c == a + (b + c)
  {
  }

  lemma SplitLast<T>(xs: seq<T>)
    requires |xs| > 0
    ensures xs == xs[..|xs| - 1] + [xs[|xs| - 1]]
  {
  }

  /** Text that starts with a word splits into that word and the rest. */
  lemma FirstWord(s: string)
    requires |s| > 0 && !IsSpace(s[0])
    ensures 0 < WordEnd(s) && IsWord(s[..WordEnd(s)])
    ensures WordEnd(s) == |s| || IsSpace(s[WordEnd(s)..][0])
    ensures Words(s) == [s[..WordEnd(s)]] + Words(s[WordEnd(s)..])
  {
    var n := WordEnd(s);
    WordEndSpec(s);
    forall i | 0 <= i < n
      ensures !IsSpace(s[..n][i])
    {
      assert s[..n][i] == s[i];
    }
    TakeDrop(s, n);
    WordsStep(s[..n], s[n..]);
  }

  /** `Words` ignores leading whitespace. */
  lemma WordsAfterSpaces(sp: string, r: string)
    requires AllSpace(sp)
    requires |r| == 0 || !IsSpace(r[0])
    ensures Words(sp + r) == Words(r)
  {
    var x := sp + r;
    assert |r| > 0 ==> x[|sp|] == r[0];
    LeadingSpacesIs(x, |sp|);
    assert x[|sp|..] == r;
    LeadingSpacesIs(r, 0);
    assert r[0..] == r;
  }

  /** `split()` undoes `' '.join(...)` of words. */
  lemma {:induction false} WordsOfJoin(ws: seq<string>)
    requires AllWords(ws)
    ensures Words(JoinSpace(ws)) == ws
  {
    if |ws| == 0 {
      assert Words("") == [];
    } else if |ws| == 1 {
      WordsStep(ws[0], "");
      assert ws[0] + "" == ws[0];
      assert Words("") == [];
    } else {
      var w, tail := ws[0], ws[1..];
      var rest := JoinSpace(tail);
      assert AllWords(tail);
      JoinWordsShape(tail);
      WordsOfJoin(tail);
      JoinStep(ws);
      assert (" " + rest)[0] == ' ';
      WordsStep(w, " " + rest);
      WordsAfterSpaces(" ", rest);
      assert ws == [w] + tail;
    }
  }

  /** Joining two or more words puts the first, a blank, then the rest. */
  lemma JoinStep(ws: seq<string>)
    requires |ws| >= 2
    ensures JoinSpace(ws) == ws[0] + (" " + JoinSpace(ws[1..]))
  {
    SeqAssoc(ws[0], " ", JoinSpace(ws[1..]));
  }

  // ---------------------------------------------------------------------------
  // re.sub(r'\s+', ' ', s).strip()

  /** `re.sub(r'\s+', ' ', s)`: every maximal whitespace run becomes one blank. */
  function Collapse(s: string): string
    decreases |s|
  {
    if |s| == 0 then ""
    else if IsSpace(s[0]) then " " + Collapse(s[LeadingSpaces(s)..])
    else
      var n := WordEnd(s);
      s[..n] + Collapse(s[n..])
  }

  /** The chunker's normalisation `re.sub(r'\s+', ' ', text).strip()`. */
  function Normalize(s: string): string {
    Strip(Collapse(s))
  }

  /** `Words` ignores leading whitespace. */
  lemma WordsSkipsSpaces(s: string)
    ensures Words(s) == Words(s[LeadingSpaces(s)..])
  {
    var n := LeadingSpaces(s);
    LeadingSpacesSpec(s);
    TakeDrop(s, n);
    assert |s[n..]| == 0 || s[n..][0] == s[n];
    WordsAfterSpaces(s[..n], s[n..]);
  }

  /** Collapsing whitespace leaves the words joined by single blanks, with at
      most one blank of padding at either end. */
  lemma {:induction false} CollapseShape(s: string) returns (p: string, q: string)
    ensures p == "" || p == " "
    ensures q == "" || q == " "
    ensures |s| > 0 && !IsSpace(s[0]) ==> p == ""
    ensures Collapse(s) == p + JoinSpace(Words(s)) + q
    decreases |s|
  {
    if |s| == 0 {
      p, q := "", "";
      assert Words(s) == [];
    } else if IsSpace(s[0]) {
      var p', q' := CollapseShape(s[LeadingSpaces(s)..]);
      p, q := CollapseAfterSpaces(s, p', q');
    } else {
      var p', q' := CollapseShape(s[WordEnd(s)..]);
      p, q := CollapseAfterWord(s, p', q');
    }
  }

  /** The step of `CollapseShape` for text that starts with whitespace. */
  lemma CollapseAfterSpaces(s: string, p': string, q': string) returns (p: string, q: string)
    requires |s| > 0 && IsSpace(s[0])
    requires p' == "" || p' == " "
    requires q' == "" || q' == " "
    requires var s' := s[LeadingSpaces(s)..];
      && (|s'| > 0 && !IsSpace(s'[0]) ==> p' == "")
      && Collapse(s') == p' + JoinSpace(Words(s')) + q'
    ensures p == " " && (q == "" || q == " ")
    ensures Collapse(s) == p + JoinSpace(Words(s)) + q
  {
    var s' := s[LeadingSpaces(s)..];
    var j := JoinSpace(Words(s'));
    assert p' == "" by {
      if |s'| == 0 {
        assert Words(s') == [];
        assert Collapse(s') == "";
      } else {
        LeadingSpacesSpec(s);
        assert s'[0] == s[LeadingSpaces(s)];
      }
    }
    WordsSkipsSpaces(s);
    assert Collapse(s) == " " + Collapse(s');
    assert Collapse(s') == j + q' by {
      assert "" + j == j;
    }
    SeqAssoc(" ", j, q');
    p, q := " ", q';
  }

  /** Joining a word in front of a non-empty list of words puts a blank
      between them. */
  lemma JoinCons(w: string, ws: seq<string>)
    requires |ws| > 0
    ensures JoinSpace([w] + ws) == w + (" " + JoinSpace(ws))
  {
    assert ([w] + ws)[1..] == ws;
    SeqAssoc(w, " ", JoinSpace(ws));
  }

  /** Padding of at most one blank in front of text that starts with a word
      is a blank exactly when the whole starts with whitespace. */
  lemma LeadingPad(p: string, j: string, q: string)
    requires p == "" || p == " "
    requires |j| > 0 && !IsSpace(j[0])
    requires IsSpace((p + j + q)[0])
    ensures p == " "
  {
  }

  /** The step of `CollapseShape` for text that starts with a word. */
  lemma CollapseAfterWord(s: string, p': string, q': string) returns (p: string, q: string)
    requires |s| > 0 && !IsSpace(s[0])
    requires p' == "" || p' == " "
    requires q' == "" || q' == " "
    requires Collapse(s[WordEnd(s)..]) == p' + JoinSpace(Words(s[WordEnd(s)..])) + q'
    ensures p == "" && (q == "" || q == " ")
    ensures Collapse(s) == p + JoinSpace(Words(s)) + q
  {
    var r := s[WordEnd(s)..];
    if Words(r) == [] {
      CollapseLastWord(s);
      p, q := "", Collapse(r);
      assert "" + JoinSpace(Words(s)) == JoinSpace(Words(s));
    } else {
      CollapseWordThenMore(s, p', q');
      p, q := "", q';
      assert "" + JoinSpace(Words(s)) == JoinSpace(Words(s));
    }
  }

  /** Collapsing text made of one word and trailing whitespace keeps the
      word and leaves at most one blank after it. */
  lemma CollapseLastWord(s: string)
    requires |s| > 0 && !IsSpace(s[0])
    requires Words(s[WordEnd(s)..]) == []
    ensures var r := s[WordEnd(s)..];
      && (Collapse(r) == "" || Collapse(r) == " ")
      && Collapse(s) == JoinSpace(Words(s)) + Collapse(r)
  {
    var n := WordEnd(s);
    var w := s[..n];
    var r := s[n..];
    assert Collapse(s) == w + Collapse(r);
    FirstWord(s);
    assert LeadingSpaces(r) == |r|;
    assert r[|r|..] == "";
    assert Words(s) == [w];
    assert JoinSpace([w]) == w;
  }

  /** Collapsing text that starts with a word and has more words after it
      gives the word, a blank, and the collapse of the rest without its
      leading blank. */
  lemma CollapseWordThenMore(s: string, p': string, q': string)
    requires |s| > 0 && !IsSpace(s[0])
    requires p' == "" || p' == " "
    requires Words(s[WordEnd(s)..]) != []
    requires Collapse(s[WordEnd(s)..]) == p' + JoinSpace(Words(s[WordEnd(s)..])) + q'
    ensures Collapse(s) == JoinSpace(Words(s)) + q'
  {
    var n := WordEnd(s);
    var w := s[..n];
    var r := s[n..];
    var j' := JoinSpace(Words(r));
    assert Collapse(s) == w + Collapse(r);
    FirstWord(s);
    JoinWordsShape(Words(r));
    assert |r| > 0 && IsSpace(r[0]);
    assert Collapse(r)[0] == ' ';
    LeadingPad(p', j', q');
    JoinCons(w, Words(r));
    SeqAssoc(w, " " + j', q');
  }

  /** At most one blank of padding on either side of joined words is what
      `strip()` removes. */
  lemma StripPadding(p: string, j: string, q: string)
    requires p == "" || p == " "
    requires q == "" || q == " "
    requires j == "" || (|j| > 0 && !IsSpace(j[0]) && !IsSpace(j[|j| - 1]))
    ensures Strip(p + j + q) == j
  {
    assert AllSpace(p) && AllSpace(q);
    if j == "" {
      assert p + j + q == p + q;
      assert AllSpace(p + q);
      StripEmpty(p + q);
    } else {
      StripPadded(p, j, q);
    }
  }

  /** The normalisation equals Python's `' '.join(text.split())`. */
  lemma NormalizeIsJoinedWords(s: string)
    ensures Normalize(s) == JoinSpace(Words(s))
    ensures IsNormalized(Normalize(s))
  {
    var p, q := CollapseShape(s);
    JoinWordsShape(Words(s));
    StripPadding(p, JoinSpace(Words(s)), q);
  }

  /** Normalisation keeps exactly the words of the text. */
  lemma NormalizeKeepsWords(s: string)
    ensures Words(Normalize(s)) == Words(s)
  {
    NormalizeIsJoinedWords(s);
    WordsOfJoin(Words(s));
  }

  // ---------------------------------------------------------------------------
  // split('.') and the non-blank piece count

  /** Position of the first `c` in `s`, or `|s|` when there is none. */
  function IndexOf(s: string, c: char): (k: nat)
    ensures k <= |s|
    ensures forall i :: 0 <= i < k ==> s[i] != c
    ensures k == |s| || s[k] == c
  {
    if |s| == 0 || s[0] == c then 0 else 1 + IndexOf(s[1..], c)
  }

  /** Python's `s.split(sep)` for a one-character separator. */
  function SplitOn(s: string, sep: char): (pieces: seq<string>)
    ensures |pieces| > 0
    ensures forall i :: 0 <= i < |pieces| ==> sep !in pieces[i]
    decreases |s|
  {
    var k := IndexOf(s, sep);
    if k == |s| then [s] else [s[..k]] + SplitOn(s[k + 1..], sep)
  }

  /** Python's `sep.join(pieces)` for a one-character separator. */
  function JoinWith(pieces: seq<string>, sep: char): string
  {
    if |pieces| == 0 then ""
    else if |pieces| == 1 then pieces[0]
    else pieces[0] + [sep] + JoinWith(pieces[1..], sep)
  }

  /** Splitting on a separator and joining the pieces back gives the text. */
  lemma {:induction false} SplitOnJoins(s: string, sep: char)
    ensures JoinWith(SplitOn(s, sep), sep) == s
    decreases |s|
  {
    var k := IndexOf(s, sep);
    if k < |s| {
      SplitOnJoins(s[k + 1..], sep);
      var rest := SplitOn(s[k + 1..], sep);
      assert ([s[..k]] + rest)[1..] == rest;
      assert s == s[..k] + [sep] + s[k + 1..];
    }
  }

  /** Joining separator-free pieces and splitting again gives the pieces. */
  lemma {:induction false} JoinSplitsOn(pieces: seq<string>, sep: char)
    requires |pieces| > 0
    requires forall i :: 0 <= i < |pieces| ==> sep !in pieces[i]
    ensures SplitOn(JoinWith(pieces, sep), sep) == pieces
  {
    var p := pieces[0];
    if |pieces| == 1 {
      assert IndexOf(p, sep) == |p|;
    } else {
      var rest := JoinWith(pieces[1..], sep);
      var s := p + [sep] + rest;
      assert s == JoinWith(pieces, sep);
      assert s[|p|] == sep;
      assert IndexOf(s, sep) == |p|;
      assert s[..|p|] == p;
      assert s[|p| + 1..] == rest;
      JoinSplitsOn(pieces[1..], sep);
      assert pieces == [p] + pieces[1..];
    }
  }

  /** How many pieces are not blank (`len([p for p in pieces if p.strip()])`). */
  function NonBlankCount(pieces: seq<string>): (n: nat)
    ensures n <= |pieces|
    ensures n == 0 <==> forall i :: 0 <= i < |pieces| ==> AllSpace(pieces[i])
  {
    if |pieces| == 0 then 0
    else
      StripSpec(pieces[0]);
      assert forall i :: 1 <= i < |pieces| ==> pieces[i] == pieces[1..][i - 1];
      (if Strip(pieces[0]) != "" then 1 else 0) + NonBlankCount(pieces[1..])
  }

  /** The backend's sentence count: non-blank pieces of `s.split('.')`. */
  function SentenceCount(s: string): nat {
    NonBlankCount(SplitOn(s, '.'))
  }

  /** The sentence count is zero exactly when the text holds nothing but
      whitespace and full stops. */
  lemma {:induction false} NoSentencesIff(s: string)
    ensures SentenceCount(s) == 0 <==> forall i :: 0 <= i < |s| ==> s[i] == '.' || IsSpace(s[i])
    decreases |s|
  {
    var k := IndexOf(s, '.');
    if k < |s| {
      var rest := s[k + 1..];
      NoSentencesIff(rest);
      var pieces := SplitOn(s, '.');
      assert pieces == [s[..k]] + SplitOn(rest, '.');
      assert pieces[1..] == SplitOn(rest, '.');
      if forall i :: 0 <= i < |s| ==> s[i] == '.' || IsSpace(s[i]) {
        assert forall i :: 0 <= i < |rest| ==> rest[i] == s[k + 1 + i];
        assert AllSpace(s[..k]);
      }
      if SentenceCount(s) == 0 {
        assert AllSpace(pieces[0]);
        forall i | 0 <= i < |s|
          ensures s[i] == '.' || IsSpace(s[i])
        {
          if i < k {
            assert s[i] == pieces[0][i];
          } else if i > k {
            assert s[i] == rest[i - k - 1];
          }
        }
      }
    } else {
      assert SplitOn(s, '.') == [s];
      assert forall i :: 0 <= i < |s| ==> s[i] != '.';
    }
  }

  // ---------------------------------------------------------------------------
  // Decimal digits (`\d+` restricted to ASCII, and `int(...)`)

  predicate AllDigits(d: string) {
    forall i :: 0 <= i < |d| ==> IsDigit(d[i])
  }

  /** Length of the run of digits at the start of `s`. */
  function DigitRun(s: string): (n: nat)
    ensures n <= |s|
    ensures AllDigits(s[..n])
    ensures n == |s| || !IsDigit(s[n])
  {
    if |s| > 0 && IsDigit(s[0]) then 1 + DigitRun(s[1..]) else 0
  }

  /** The digit run length is determined by its characterisation. */
  lemma {:induction false} DigitRunIs(s: string, n: nat)
    requires n <= |s|
    requires forall i :: 0 <= i < n ==> IsDigit(s[i])
    requires n == |s| || !IsDigit(s[n])
    ensures DigitRun(s) == n
  {
    if n > 0 {
      DigitRunIs(s[1..], n - 1);
    }
  }

  /** A digit string followed by a non-digit (or nothing) is the whole
      digit run. */
  lemma DigitRunPrefix(d: string, rest: string)
    requires AllDigits(d)
    requires rest == [] || !IsDigit(rest[0])
    ensures DigitRun(d + rest) == |d|
    ensures (d + rest)[..|d|] == d
  {
    var v := d + rest;
    assert forall m :: 0 <= m < |d| ==> v[m] == d[m];
    assert |d| < |v| ==> v[|d|] == rest[0];
    DigitRunIs(v, |d|);
  }

  /** Python's `int(d)` on a string of decimal digits, with no limit on
      the number of digits. */
  function DigitsValue(d: string): nat
    requires AllDigits(d)
  {
    if |d| == 0 then 0
    else 10 * DigitsValue(d[..|d| - 1]) + (d[|d| - 1] as int - '0' as int)
  }

  function DigitChar(k: nat): (c: char)
    requires k < 10
    ensures IsDigit(c) && c as int - '0' as int == k
  {
    ('0' as int + k) as char
  }

  /** The decimal spelling of `n` without leading zeros (`str(n)`); reading
      it back with `int(...)` gives `n`. */
  function Decimal(n: nat): (d: string)
    ensures |d| > 0 && AllDigits(d)
    ensures DigitsValue(d) == n
  {
    if n < 10 then [DigitChar(n)]
    else
      var d := Decimal(n / 10) + [DigitChar(n % 10)];
      assert d[..|d| - 1] == Decimal(n / 10);
      d
  }

  // ---------------------------------------------------------------------------
  // ASCII lower-casing

  function LowerChar(c: char): char {
    if 'A' <= c <= 'Z' then (c as int + 32) as char else c
  }

  /** `s.lower()` restricted to ASCII letters. */
  function Lower(s: string): (r: string)
    ensures |r| == |s|
  {
    seq(|s|, i requires 0 <= i < |s| => LowerChar(s[i]))
  }
}

=== FILE: wrappers.dfy ===
/** Failure-carrying datatypes shared by the whole model.

  - Option<T>: a value that may be absent (a regex group that did not match,
    an optional request field).
  - Result<T, E>: the outcome of an operation that the backend can abort by
    raising an exception.
  - Reply: what the local text-generation model answered, or the fact that
    the call raised.
  - HttpError: the status code and detail of an HTTPException.
 */
module Wrappers {

  datatype Option<+T> = None | Some(value: T) {
    /** The wrapped value, or `default` when absent (Python's `dict.get(k, d)`). */
    function GetOr(default: T): T {
      match this
      case Some(v) => v
      case None => default
    }
  }

  datatype Result<+T, +E> = Success(value: T) | Failure(error: E) {
    predicate IsFailure() {
      Failure?
    }

    function PropagateFailure<U>(): Result<U, E>
      requires Failure?
    {
      Failure(error)
    }

    function Extract(): T
      requires Success?
    {
      value
    }
  }

  /** The answer of one generation call: its text, or a raised exception. */
  datatype Reply = Answer(text: string) | CallFailed

  /** An HTTPException as raised by the request handlers. */
  datatype HttpError = HttpError(status: int, detail: string)

  /** The reply at position `i` of a list of replies handed to the model;
      a position past the end behaves like a failed call. */
  function ReplyAt(replies: seq<Reply>, i: nat): Reply {
    if i < |replies| then replies[i] else CallFailed
  }

  function Min(a: int, b: int): int {
    if a <= b then a else b
  }

  function Max(a: int, b: int): int {
    if a >= b then a else b
  }

  function Abs(x: real): real {
    if x < 0.0 then -x else x
  }
}
